=== FILE: README.md ===
# Dungeon core in Dafny

A Dafny model of three parts of the Dungeon repository, with proofs about each.

- **The Blockly interpreter server** (`blockly/src/server/Server.java`). It runs the Java-like text that the Blockly front end sends, one line at a time. It keeps stacks of open `falls`/`sonst` (if/else), `solange` (while), `wiederhole` (repeat) and function scopes. It captures loop and function bodies as lines and replays them. It evaluates `int` and `int[]` assignments with Java's 32-bit arithmetic. It calls user functions and records the hero's moves. It answers the start request with 200, 205 or 400.
  - The interpreter state is an immutable `State`. `processAction`, `repeatHook`, function calls and the line loop are mutually recursive functions.
  - The recursion is bounded by a `fuel` argument. A run that exhausts it halts as `OutOfFuel`.
  - An uncaught Java exception (for example `sonst` with no open if) halts as `Crashed`.
  - The ANTLR condition evaluator is a parameter `cond`.
  - Regex `find()` is modelled as a leftmost scan over token patterns.
- **Voxel level bookkeeping.**
  - The game's chunk octree (`LevelChunkTree`), `LevelChunk`, `Level` and `ChunkUtils`.
  - `BlockFace`.
  - The engine's `TextureAtlas` entry table.
  - The demo's `Chunk` vertex buffer and `Level3D` chunk store.
- **Engine bookkeeping.**
  - `Entity` component lists.
  - `BatchAnimation` frames and the frame clock.
  - The pointer plan of `InstanceAttributeList.bindAttribPointers`.
  - The frame-counter scheduler of `GameLoop.update`.

Java `int` arithmetic is modelled explicitly: `JavaInt.Wrap32`, truncating `Div`/`Rem` and `ToShort`. Byte buffers are sequences of `bv8`, written little-endian as LWJGL's native-order buffers are on the usual platforms. Callbacks the core calls but does not define are function parameters. These are the world generator, the atlas page packer, the shader's attribute lookup and a system's level-load effect.

Each file is one module:

- `outcome.dfy`: `Option`/`Result`.
- `java_int.dfy` and `bytes.dfy`: Java integers and bytes.
- The `blockly_*.dfy` files: the interpreter, namely text patterns, state, expressions, scopes, dispatch, and properties across lines.
- `block_face.dfy`, `chunk_grid.dfy`, `chunk_utils.dfy`, `texture_atlas.dfy`, `level_chunk.dfy`, `chunk_tree.dfy`, `level.dfy`, `demo_chunk.dfy` and `level3d.dfy`: the voxel level.
- `entity.dfy`, `batch_animation.dfy`, `instance_attributes.dfy` and `game_loop.dfy`: the engine bookkeeping.

## Model

| member | source | states |
|---|---|---|
| JavaInt.Wrap32 | blockly/src/server/Server.java:549-561 | the result is a 32-bit `int` congruent to the exact value modulo 2^32, and equal to it when it already fits |
| JavaInt.ToShort | dungine-demo/src/dungine/level/level3d/Chunk.java:145-156 | the `(short)` cast gives a 16-bit value congruent modulo 2^16, unchanged when it fits |
| JavaInt.DivTruncates | blockly/src/server/Server.java:549-561 | Java division rounds toward zero: `a == b*q + r`, `abs(r) < abs(b)`, the remainder has the sign of `a`, and `abs(b*q) <= abs(a)` |
| JavaInt.DivDiffersFromEuclidean | blockly/src/server/Server.java:549-561 | `-7 / 2` is `-3` with remainder `-1` in Java, unlike floor or Euclidean division |
| BlocklyText.Find | blockly/src/server/Server.java:510-512 | `find()` succeeds exactly when the pattern matches at some position of the line; a match has one group per token |
| BlocklyText.FindFromLeftmost | blockly/src/server/Server.java:510-512 | the match `find()` returns is the leftmost: no earlier position matches |
| BlocklyText.MatchTokens | blockly/src/server/Server.java:510-514 | each captured group fits its token, and the groups spell out the text at the match position |
| BlocklyText.ContainsMeans | blockly/src/server/Server.java:891 | `contains(t)` holds exactly when `t` occurs at some position of the line |
| BlocklyText.SimpleAssignShadowed | blockly/src/server/Server.java:683-688 | every line the `int x = 5;` pattern matches is already matched by the single-value assignment pattern `checkAssign` tries first, so the simple-assignment branch never runs |
| BlocklyText.FindIndexed | blockly/src/server/Server.java:510-514 | `name[digits]` is matched as an array element with name and index as groups |
| BlocklyText.FindLength | blockly/src/server/Server.java:518-521 | `name.length` is not an element access and is matched as an array length |
| BlocklyText.FindCall | blockly/src/server/Server.java:571-574 | `name();` is matched as a call of `name` |
| BlocklyText.FindInWord | blockly/src/server/Server.java:508-527 | a plain word is neither an element access nor a length, so it is resolved as a variable or number |
| BlocklyText.FindNeedsChar | blockly/src/server/Server.java:669-671 | a pattern whose literal part contains a character absent from the line cannot match it |
| BlocklyText.ParseInt | blockly/src/server/Server.java:527 | `Integer.parseInt` either gives a value in the `int` range or fails with `For input string: "…"` |
| BlocklyText.ParseIntOfDigits | blockly/src/server/Server.java:527 | a digit string parses exactly when its value is at most `2^31 - 1`, and then to that value |
| BlocklyText.ParseIntOfNatToString | blockly/src/server/Server.java:527 | printing a non-negative `int` in decimal and parsing it gives it back |
| BlocklyText.Trim | blockly/src/server/Server.java:167 | the result is the line with a prefix and a suffix of blanks removed, and it neither starts nor ends with one |
| BlocklyText.SplitAll | blockly/src/server/Server.java:163 | splitting on newlines gives pieces without newlines |
| BlocklyText.JoinSplitAll | blockly/src/server/Server.java:163 | joining the pieces with newlines gives the request text back |
| BlocklyText.SplitLines | blockly/src/server/Server.java:163 | `split("\n")` is the full split with trailing empty pieces dropped, and the whole text when there is no newline |
| BlocklyState.SetError | blockly/src/server/Server.java:283-287 | an error sets the interrupt and error flags and records the message, and keeps the state well formed |
| BlocklyState.Clear | blockly/src/server/Server.java:259-276 | clearing empties every scope stack, the variables and the functions, and resets the flags and the message, keeping the performed moves |
| BlocklyState.Initial | blockly/src/server/Server.java:259-276 | the server starts well formed, running and with no moves |
| BlocklyEval.ArrayVar | blockly/src/server/Server.java:483-495 | the array's elements if `name` is an array variable; "Variable not found" if it is undefined, "Expected array variable" if it is a base variable |
| BlocklyEval.Element | blockly/src/server/Server.java:510-517 | an element read of well-formed variables is a 32-bit `int` |
| BlocklyEval.ElementCases | blockly/src/server/Server.java:510-517 | `a[i]` is element `i`; it fails for a missing or non-array variable, for an index beyond `int`, and with "Index i out of bounds for length n" past the end |
| BlocklyEval.ResolveIndexed | blockly/src/server/Server.java:510-517 | an operand of the form `name[digits]` is read as that array element |
| BlocklyEval.ResolveLength | blockly/src/server/Server.java:518-523 | `name.length` is the array's length, with the same errors as an array read |
| BlocklyEval.ResolveWord | blockly/src/server/Server.java:524-538 | a word is a base variable's value, an error for an array variable, otherwise a number literal, otherwise "is not a number or variable" |
| BlocklyEval.ResolveLiteral | blockly/src/server/Server.java:524-538 | an unshadowed digit string is its value when it fits in an `int`, and not a number otherwise |
| BlocklyEval.Resolve | blockly/src/server/Server.java:508-539 | with well-formed variables, every successfully resolved operand is a 32-bit `int` |
| BlocklyEval.Arith | blockly/src/server/Server.java:549-561 | `+ - *` wrap modulo 2^32, `/` truncates toward zero and wraps, and fails with "Division by zero is not allowed." exactly on a zero divisor |
| BlocklyEval.ArithDivisionTruncates | blockly/src/server/Server.java:549-561 | `-7/2 == -3`, `7/-2 == -3`, `MIN/-1 == MIN`, `MAX+1 == MIN` |
| BlocklyEval.EvalOp | blockly/src/server/Server.java:818-825 | a failing left operand's error wins, then the right's; a result is a 32-bit `int` |
| BlocklyEval.ArrayCreationZeroFilled | blockly/src/server/Server.java:669-675 | `int[] a = new int[n];` stores an array of `n` zeros under `a` |
| BlocklyEval.CreateArray | blockly/src/server/Server.java:669-675 | array creation stores an array of `n` zeros under the name, and crashes exactly when the length is not an `int` or is negative, since the parse and `new int[n]` are outside any `try` |
| BlocklyEval.SetElement | blockly/src/server/Server.java:747-807 | an element assignment crashes exactly when the index is not an `int`; otherwise the value's error comes first, and a store changes exactly the indexed element of an existing array; an index beyond its length fails out of bounds |
| BlocklyEval.SetScalar | blockly/src/server/Server.java:699-745 | a scalar assignment stores the value under the name, or reports the value's error |
| BlocklyEval.AssignmentEffect | blockly/src/server/Server.java:667-807 | whatever an assignment line stores is a well-formed value: a 32-bit `int` or an array of them |
| BlocklyEval.Assign | blockly/src/server/Server.java:667-807 | an assignment changes only the variables and the error fields; a failure keeps the variables and reports the fault's message, and a store writes exactly one variable |
| BlocklyScopes.EvalCondition | blockly/src/server/Server.java:1016-1042 | inside a function definition a condition is false with no effect; an unmatched condition sets "Detected condition that is not valid"; a missing variable sets its message; otherwise the evaluator's answer |
| BlocklyScopes.Capture | blockly/src/server/Server.java:342-348 | every open function definition and every non-replaying loop gets the line, nothing is captured while the innermost loop replays, and the gate is unchanged |
| BlocklyScopes.OpenIf | blockly/src/server/Server.java:993-1003 | a line without `falls`/`sonst` changes nothing; `sonst` with no open if crashes, otherwise it flips the top if to its else branch |
| BlocklyScopes.PushIf | blockly/src/server/Server.java:993-997 | `falls (c)` pushes an if scope whose flag is the condition's value |
| BlocklyScopes.ElseBranch | blockly/src/server/Server.java:999-1003 | `sonst` runs exactly when the if's condition was false; with no open if it crashes (`EmptyStackException`) |
| BlocklyScopes.OpenWhile | blockly/src/server/Server.java:888-896 | `solange (c)` pushes a while scope with an empty body, the line as its condition and the condition's value |
| BlocklyScopes.OpenRepeat | blockly/src/server/Server.java:960-976 | `wiederhole n Mal` pushes a repeat of target `n` when `n` resolves and changes nothing otherwise |
| BlocklyScopes.PushRepeat | blockly/src/server/Server.java:960-976 | the new repeat frame starts at the initial counter with an empty, non-replaying body |
| BlocklyScopes.OpenFunc | blockly/src/server/Server.java:625-633 | `public void f()` pushes a function scope and an empty definition named `f` |
| BlocklyScopes.Openers | blockly/src/server/Server.java:390-393 | the openers keep the state well formed and never touch variables, functions or moves |
| BlocklyScopes.CloseIf | blockly/src/server/Server.java:988-992 | `}` on an if pops the if and its scope and nothing else |
| BlocklyScopes.CloseWhile | blockly/src/server/Server.java:837-862 | `}` on a while re-tests the condition; if true and the gate is open the loop starts replaying, otherwise the while is popped |
| BlocklyScopes.StartWhile | blockly/src/server/Server.java:837-862 | starting a replay marks the top while as repeating and records it in the repeating scopes, changing nothing else |
| BlocklyScopes.EndWhile | blockly/src/server/Server.java:837-862 | ending a while pops it and its scope |
| BlocklyScopes.CloseRepeat | blockly/src/server/Server.java:908-933 | `}` on a repeat counts one more pass while it is incomplete and the gate is open, starting the replay on the first pass, and pops it otherwise |
| BlocklyScopes.ContinueRepeat | blockly/src/server/Server.java:908-933 | a further pass increments the counter and marks the repeat as repeating |
| BlocklyScopes.EndRepeat | blockly/src/server/Server.java:908-933 | ending a repeat pops it and its scope |
| BlocklyScopes.CloseFunc | blockly/src/server/Server.java:598-604 | `}` on a function stores its captured body under its name and pops the definition |
| BlocklyDispatch.Process | blockly/src/server/Server.java:342-412 | processing a line keeps the interpreter invariant, never retracts a move or a function name, and a halted interpreter stays as it is |
| BlocklyDispatch.Close | blockly/src/server/Server.java:349-388 | `}` with a scope open is dispatched on the top scope's kind and keeps the invariant |
| BlocklyDispatch.Execute | blockly/src/server/Server.java:390-411 | the openers run first; assignment, call and move follow only when the gate is open |
| BlocklyDispatch.Gated | blockly/src/server/Server.java:406-411 | assignment, function call and move run in this order without rechecking the interrupt flag |
| BlocklyDispatch.Call | blockly/src/server/Server.java:570-590 | a function call keeps the invariant and only adds moves and functions |
| BlocklyDispatch.RepeatHook | blockly/src/server/Server.java:294-329 | replaying a loop body keeps the invariant and only adds moves and functions |
| BlocklyDispatch.Loop | blockly/src/server/Server.java:294-329 | the replay loop stops only when interrupted or when the loop no longer replays |
| BlocklyDispatch.RunLines | blockly/src/server/Server.java:316-324 | running a line list keeps the invariant, and an empty list changes nothing |
| BlocklyDispatch.Perform | blockly/src/server/Server.java:1050-1061 | exactly the eight move and fireball calls are recorded as performed actions, and any other line changes nothing |
| BlocklyText.TrimAll | blockly/src/server/Server.java:166-168 | every request line is trimmed before it is processed |
| BlocklyDispatch.RunTop | blockly/src/server/Server.java:166-173 | the line loop keeps the invariant, and its final state is the trimmed request lines run one by one until the first line that leaves the interrupt flag set; a reported line is one of the trimmed lines and left the flag set |
| BlocklyDispatch.RunTopReportsFirstInterrupt | blockly/src/server/Server.java:166-173 | the reported line is the `k`-th request line trimmed; every line before it left the run going and the flag clear, and the final state is that line processed after them, so no later line is processed |
| BlocklyDispatch.RunTopClearsAll | blockly/src/server/Server.java:166-173 | a run that ends going and reports no line left the flag clear after every line |
| BlocklyDispatch.Run | blockly/src/server/Server.java:155-199 | a request answered with an error or interruption clears the interpreter; one answered `200 OK` was not interrupted |
| BlocklyProps.GateClosedNoEffects | blockly/src/server/Server.java:399-401 | while the gate is closed a line changes no variable, function or move |
| BlocklyProps.DefinitionRecordsOnly | blockly/src/server/Server.java:342-401 | while a function definition is open, a line other than a closing `}` is only added to every open definition's body; it changes no variable, function or move |
| BlocklyProps.CallReserved | blockly/src/server/Server.java:96-110 | a call of a reserved name, such as a move, is not a user function call and changes nothing |
| BlocklyProps.CallUndefined | blockly/src/server/Server.java:575-589 | calling an undefined function sets "Function f is not defined" and changes nothing else |
| BlocklyProps.ProcessCloseIf | blockly/src/server/Server.java:988-992 | processing `}` on an if pops exactly the if and its scope |
| BlocklyProps.ProcessCloseFunc | blockly/src/server/Server.java:598-604 | processing `}` on a function stores the body, including that `}`, under the function's name |
| BlocklyProps.WhileFalseEntryCloses | blockly/src/server/Server.java:837-862 | a while entered with a false condition is popped at its `}` without a replay |
| BlocklyProps.RepeatContinues | blockly/src/server/Server.java:908-933 | `k` further closes of an incomplete repeat add `k` to its counter and keep the scope |
| BlocklyProps.RepeatEnds | blockly/src/server/Server.java:908-933 | the close of a complete repeat pops it without a replay |
| BlocklyProps.RepeatRunsTargetTimes | blockly/src/server/Server.java:908-976 | a repeat opened with target `n >= 1` goes on at its first `n - 1` closing braces and is popped at the next; with a target below 1 it is popped at its first `}` |
| BlocklyProps.CallClosesEnclosingIf | blockly/src/server/Server.java:598-604 | since a stored body ends with `}`, calling it inside an open if closes that if |
| BlocklyProps.ExecuteCallLine | blockly/src/server/Server.java:406-411 | with the gate open, a call line is neither an opener nor an assignment and runs the call |
| BlocklyProps.RunOneLine | blockly/src/server/Server.java:316-324 | running a one-line body is processing that line |
| BlockFaces.Opposite | game/src/core/level/block/BlockFace.java:12-22 | a face's opposite is a different face |
| BlockFaces.OppositeInvolution | game/src/core/level/block/BlockFace.java:12-22 | the opposite of the opposite is the face itself |
| BlockFaces.BitMask | game/src/core/level/block/BlockFace.java:24-33 | every face's mask is a single bit among the low six |
| BlockFaces.BitMasksDisjoint | game/src/core/level/block/BlockFace.java:24-33 | two faces' masks share a bit exactly when the faces are equal |
| BlockFaces.FromBitMask | game/src/core/level/block/BlockFace.java:35-45 | decoding gives the face with that mask, or fails with "Invalid bit mask: b" when no face has it |
| BlockFaces.FromBitMaskInverse | game/src/core/level/block/BlockFace.java:24-45 | decoding a face's mask gives the face back |
| BlockFaces.FromBitMaskAccepts | game/src/core/level/block/BlockFace.java:35-45 | exactly the six one-bit bytes 1 to 32 decode |
| ChunkGrid.CellOf | dungine-demo/src/dungine/level/level3d/Chunk.java:131-132 | every buffer slot belongs to exactly one in-chunk cell |
| ChunkGrid.CellIndexInjective | dungine-demo/src/dungine/level/level3d/Chunk.java:131-132 | distinct in-chunk cells never share a slot |
| ChunkGrid.CellOfIndex | dungine-demo/src/dungine/level/level3d/Chunk.java:131-132 | the cell of a cell's slot is the cell itself |
| ChunkUtils.ToChunkIsFloor | game/src/core/level/utils/ChunkUtils.java:17-22 | within 2^24 of the origin, the chunk coordinate is `floor(x / 16)` |
| ChunkUtils.ToChunkRoundsUp | game/src/core/level/utils/ChunkUtils.java:17-22 | beyond 2^24 the float division can round up into the next chunk: `16777231` gives chunk `1048577` |
| ChunkUtils.InnerAsWritten | game/src/core/level/utils/ChunkUtils.java:60-65 | the inner coordinate as written: `x % 16` for most `x`, but 16 for negative multiples of 16 |
| ChunkUtils.InnerAsWrittenLeavesChunk | game/src/core/level/utils/ChunkUtils.java:60-65 | for `-16` the written inner coordinate is 16, outside the chunk, and chunk and inner do not rebuild `-16` |
| ChunkUtils.ToInnerChunkCoordinates | game/src/core/level/utils/ChunkUtils.java:60-65 | the corrected inner coordinates always lie inside a chunk |
| ChunkUtils.ChunkAndInnerRebuild | game/src/core/level/utils/ChunkUtils.java:17-65 | `chunk * 16 + inner == x` within 2^24 of the origin |
| ChunkUtils.InnerAgreesExceptMultiples | game/src/core/level/utils/ChunkUtils.java:60-65 | the written and the corrected inner coordinate differ exactly at negative multiples of 16 |
| ChunkUtils.Inner | game/src/core/level/utils/ChunkUtils.java:60-65 | the corrected inner coordinate lies in 0..15 |
| TextureAtlas.PackPair | engine/src/main/java/de/fwatermann/dungine/graphics/texture/atlas/TextureAtlas.java:232-235 | a packed word has the low 16 bits of the first value on top and of the second below |
| TextureAtlas.PackPairRoundTrip | engine/src/main/java/de/fwatermann/dungine/graphics/texture/atlas/TextureAtlas.java:232-235 | two 16-bit values are recovered from their packed word |
| TextureAtlas.PositionWordOrder | engine/src/main/java/de/fwatermann/dungine/graphics/texture/atlas/TextureAtlas.java:232-233 | the x position goes in the upper half of the word |
| TextureAtlas.PageWordAsWritten | engine/src/main/java/de/fwatermann/dungine/graphics/texture/atlas/TextureAtlas.java:237-239 | `atlasPage & 0xFFFF << 16` masks with `0xFFFF0000`, so the word's low half is always 0 |
| TextureAtlas.PageWordAsWrittenLosesPage | engine/src/main/java/de/fwatermann/dungine/graphics/texture/atlas/TextureAtlas.java:237-239 | every page below 2^16 is written as 0, so pages 0 and 1 are indistinguishable |
| TextureAtlas.PageWord | engine/src/main/java/de/fwatermann/dungine/graphics/texture/atlas/TextureAtlas.java:237-239 | the intended word holds the page index in the low 16 bits |
| TextureAtlas.EntryWords | engine/src/main/java/de/fwatermann/dungine/graphics/texture/atlas/TextureAtlas.java:230-239 | the appended words hold x over y and width over height in their halves, and the page word is 0 for every page below 65536 |
| TextureAtlas.IntendedEntryWords | engine/src/main/java/de/fwatermann/dungine/graphics/texture/atlas/TextureAtlas.java:230-239 | the documented words carry the page index in the third word |
| TextureAtlas.EntryWordsLosePage | engine/src/main/java/de/fwatermann/dungine/graphics/texture/atlas/TextureAtlas.java:230-239 | the written and documented words agree on position and size, and on the page only for page 0 |
| TextureAtlas.FirstFit | engine/src/main/java/de/fwatermann/dungine/graphics/texture/atlas/TextureAtlas.java:116-121 | the lowest page that accepts the resource, with its place; every earlier page refused it, and none when no page accepts it |
| TextureAtlas.AddEntry | engine/src/main/java/de/fwatermann/dungine/graphics/texture/atlas/TextureAtlas.java:218-245 | the new entry's index is the old entry count, the resource maps to it, and the three words as written are appended |
| TextureAtlas.Add | engine/src/main/java/de/fwatermann/dungine/graphics/texture/atlas/TextureAtlas.java:110-139 | refused as full exactly when 65536 entries exist; otherwise the entry goes on the first page that accepts it, or on a new page; refused for lack of space exactly when no page accepts it and 48 pages exist, and as too big exactly when not even a new blank page accepts it, which is then kept. On success the entry's node is the packer's answer for its page, that page gains exactly the placement, every other page is unchanged, and the entry's three words are appended; a refusal appends no words |
| TextureAtlas.GetIndex | engine/src/main/java/de/fwatermann/dungine/graphics/texture/atlas/TextureAtlas.java:169-171 | the resource's index, or -1 exactly when it was never added |
| TextureAtlas.TextureIndex | engine/src/main/java/de/fwatermann/dungine/graphics/texture/atlas/TextureAtlas.java:169-171 | a `null` texture is never a key and reads -1; any other reads its index |
| TextureAtlas.Get | engine/src/main/java/de/fwatermann/dungine/graphics/texture/atlas/TextureAtlas.java:156-160 | the entry of an added resource, and `null` exactly for one never added |
| TextureAtlas.AddThenGet | engine/src/main/java/de/fwatermann/dungine/graphics/texture/atlas/TextureAtlas.java:110-171 | after a successful add, both lookups give the new entry |
| TextureAtlas.ReAddMakesFreshEntry | engine/src/main/java/de/fwatermann/dungine/graphics/texture/atlas/TextureAtlas.java:110-139 | adding a resource again makes a new entry and index, and the old entry stays in the table |
| TextureAtlas.AddKeepsOtherIndices | engine/src/main/java/de/fwatermann/dungine/graphics/texture/atlas/TextureAtlas.java:218-224 | adding one resource does not change another's index |
| LevelChunks.NewChunk | game/src/core/level/LevelChunk.java:49-56 | a new chunk has its coordinates and all cells empty |
| LevelChunks.GetBlockAt | game/src/core/level/LevelChunk.java:70-75 | the cell's block for in-chunk coordinates, and an error exactly for any other |
| LevelChunks.UpdateBlockAt | game/src/core/level/LevelChunk.java:217-235 | refreshing one cell rewrites its slot with the block's texture index (0 for an empty cell) and leaves the other slots alone; without a mesh it fails |
| LevelChunks.Slot | game/src/core/level/LevelChunk.java:225-233 | a cell's slot is the texture index cut to a `short`, and 0 for an empty cell |
| LevelChunks.SetBlock | game/src/core/level/LevelChunk.java:77-91 | out-of-chunk coordinates fail and change nothing; otherwise the block is stored at the cell and no other cell changes, also when the missing mesh then fails the refresh (`NoMesh`, exactly when the chunk was never rendered) |
| LevelChunks.RemoveBlock | game/src/core/level/LevelChunk.java:93-103 | out-of-chunk coordinates fail and change nothing; otherwise the cell becomes empty and no other cell changes, also when the missing mesh then fails the refresh |
| LevelChunks.SetBlockWithoutMeshStores | game/src/core/level/LevelChunk.java:85-90 | on a chunk that was never rendered, the block is stored before the refresh fails for want of a mesh |
| LevelChunks.SetNullIsRemove | game/src/core/level/LevelChunk.java:77-103 | setting `null` is removing the block |
| LevelChunks.SetBlockKeepsMeshCurrent | game/src/core/level/LevelChunk.java:77-91 | a mesh that matched the blocks still matches after any set, failed or not |
| LevelChunks.InitMesh | game/src/core/level/LevelChunk.java:123-207 | the built mesh matches every cell's block |
| LevelChunks.Render | game/src/core/level/LevelChunk.java:105-121 | a chunk out of view is untouched; the first render in view builds a current mesh, and later renders keep it |
| LevelChunks.ForEachBlock | game/src/core/level/LevelChunk.java:237-248 | the callback sees exactly the present blocks in cell order |
| ChunkTree.Index | game/src/core/level/LevelChunkTree.java:98-128 | the octant is one of eight |
| ChunkTree.IndexBits | game/src/core/level/LevelChunkTree.java:98-128 | the octant's bits say, per axis x, y, z, whether the point lies below the pivot |
| ChunkTree.Insert | game/src/core/level/LevelChunkTree.java:29-51 | insertion keeps every node's eight slots, and an empty root takes the chunk's position as its pivot |
| ChunkTree.Find | game/src/core/level/LevelChunkTree.java:53-68 | a found chunk has the asked coordinates and is stored in the tree |
| ChunkTree.Delete | game/src/core/level/LevelChunkTree.java:74-92 | delete returns what `find` would, and leaves the tree unchanged when nothing is there |
| ChunkTree.FirstInsertFillsRoot | game/src/core/level/LevelChunkTree.java:17-35 | the first insertion into an empty tree makes the root hold the chunk |
| ChunkTree.InsertExistingIsNoOp | game/src/core/level/LevelChunkTree.java:29-51 | inserting at occupied coordinates changes nothing |
| ChunkTree.FindAfterInsert | game/src/core/level/LevelChunkTree.java:29-68 | after an insert, `find` at its coordinates gives the earlier chunk if one was there, else the new one |
| ChunkTree.InsertAddsChunk | game/src/core/level/LevelChunkTree.java:29-51 | the stored chunks grow by exactly the new chunk, or not at all when the coordinates were taken |
| ChunkTree.DeleteRemovesChunk | game/src/core/level/LevelChunkTree.java:74-92 | the stored chunks shrink by exactly the returned chunk |
| ChunkTree.DeleteKeepsRouting | game/src/core/level/LevelChunkTree.java:74-92 | delete only marks nodes and keeps every pivot and subtree |
| ChunkTree.AbsentCoordinates | game/src/core/level/LevelChunkTree.java:53-92 | coordinates no stored chunk has are found nowhere and deleted from nowhere |
| ChunkTree.Expand | game/src/core/level/LevelChunkTree.java:152-167 | popping a node pushes its non-null subtrees, so the stack loses exactly that node and its own chunk |
| ChunkTree.Next | game/src/core/level/LevelChunkTree.java:152-167 | `next` keeps the stack well formed and always shrinks a non-empty one |
| ChunkTree.NextTakesOneChunk | game/src/core/level/LevelChunkTree.java:152-167 | `next` removes exactly the chunk it returns from those still to visit, and returns none only when none remain |
| ChunkTree.HasNextAsWrittenMissesChunks | game/src/core/level/LevelChunkTree.java:147-149 | a deleted root with a stored child reports no next element although `next` would return the child |
| ChunkTree.HasNextAsWrittenPromisesNothing | game/src/core/level/LevelChunkTree.java:147-149 | an empty tree reports a next element that does not exist |
| ChunkTree.HasNextMeansNext | game/src/core/level/LevelChunkTree.java:147-167 | the corrected `hasNext` holds exactly when `next` returns a chunk |
| ChunkTree.IterateTree | game/src/core/level/LevelChunkTree.java:131-167 | an iteration from a fresh stack, with the corrected `hasNext`, visits every stored chunk exactly once |
| ChunkTree.Iterate | game/src/core/level/LevelChunkTree.java:147-167 | an iteration with the corrected `hasNext` yields exactly the chunks stored below the stack |
| ChunkTree.GetIterator | game/src/core/level/LevelChunkTree.java:131-136 | `iterator()` creates the iterator on the root once and afterwards always returns that one |
| ChunkTree.DrainAsWritten | game/src/core/level/LevelChunkTree.java:147-167 | the loop of `forEach` yields each chunk below the stack at most once, may yield `null`, and leaves a stack on which `hasNext` fails |
| ChunkTree.ForEach | game/src/core/level/LevelChunkTree.java:131-167 | `forEach` leaves the tree's stored iterator exhausted; the first traversal yields only stored chunks |
| ChunkTree.InsertInto | game/src/core/level/LevelChunkTree.java:29-51 | `insert` on the root keeps the stored iterator and adds the chunk or nothing |
| ChunkTree.InsertAll | game/src/core/level/LevelChunkTree.java:29-51 | a series of inserts keeps the stored iterator |
| ChunkTree.ForEachAgainYieldsNothing | game/src/core/level/LevelChunkTree.java:131-167 | every traversal after the first yields nothing, even after further inserts |
| ChunkTree.ForEachEmptyYieldsNull | game/src/core/level/LevelChunkTree.java:147-167 | on an empty tree the first traversal yields one `null` |
| ChunkTree.IterateEmptyYieldsNothing | game/src/core/level/LevelChunkTree.java:147-167 | with the corrected `hasNext`, an empty tree yields no chunk at all |
| Levels.NewLevel | game/src/core/level/Level.java:18-20 | a new level stores no chunks |
| Levels.GetChunk | game/src/core/level/Level.java:46-53 | a stored chunk is returned; a missing one is generated and inserted; a generator returning `null` fails |
| Levels.GetChunkRemembers | game/src/core/level/Level.java:46-53 | once a chunk was got, asking again returns it without the generator |
| Levels.GetChunkAtPosition | game/src/core/level/Level.java:41-44 | the chunk asked for is the one at the position's chunk coordinates |
| Levels.GetTileAtAsWritten | game/src/core/level/Level.java:23-27 | as written, a tile is found only for world coordinates inside 0..15 |
| Levels.GetTileAtAsWrittenRefuses | game/src/core/level/Level.java:23-27 | the tile at world `(16, 0, 0)` lies in chunk `(1, 0, 0)`, yet the lookup fails out of bounds |
| Levels.GetTileAt | game/src/core/level/Level.java:23-27 | the corrected lookup reads the chunk's cell at the inner coordinates |
| Levels.GetTileAtLocatesBlock | game/src/core/level/Level.java:23-27 | the chunk's origin plus the inner coordinates is the world position asked for |
| Levels.GetTileAtAgreesInOriginChunk | game/src/core/level/Level.java:23-27 | inside the origin chunk the written and the corrected lookups agree |
| DemoChunks.GetBlockAt | dungine-demo/src/dungine/level/level3d/Chunk.java:68-70 | the cell's block for in-chunk coordinates; others fail as Java's array bounds check does |
| DemoChunks.FaceOpenIsWorldNeighbourOpen | dungine-demo/src/dungine/level/level3d/Chunk.java:163-238 | a face is visible exactly when the world neighbour across it, in this chunk or a loaded neighbour chunk, holds no solid block |
| DemoChunks.UnloadedNeighbourShowsFace | dungine-demo/src/dungine/level/level3d/Chunk.java:163-238 | a face on the chunk border towards an unloaded chunk is visible |
| DemoChunks.CheckVisibleFaces | dungine-demo/src/dungine/level/level3d/Chunk.java:163-238 | the mask has a face's bit exactly when that face is visible, no other bits, and is 0 exactly when no face is visible |
| DemoChunks.ShortRoundTrip | dungine-demo/src/dungine/level/level3d/Chunk.java:145-156 | a little-endian `putShort` of a value decodes to its `(short)` cast |
| DemoChunks.Record | dungine-demo/src/dungine/level/level3d/Chunk.java:131-161 | a cell's vertex record is 16 bytes |
| DemoChunks.RecordDecodes | dungine-demo/src/dungine/level/level3d/Chunk.java:131-161 | an empty or fully hidden cell's record is 16 zero bytes; otherwise it decodes to the cell's coordinates, its face mask and the six face texture indices in up, down, north, south, west, east order |
| DemoChunks.EncodeDecodes | dungine-demo/src/dungine/level/level3d/Chunk.java:143-156 | coordinates, mask and indices written as the record layout decode back |
| DemoChunks.UpdateMesh | dungine-demo/src/dungine/level/level3d/Chunk.java:131-161 | updating a cell writes its record at `CellIndex * 16` and leaves every other byte of the buffer and the blocks unchanged |
| DemoChunks.UpdateMeshRefreshesOne | dungine-demo/src/dungine/level/level3d/Chunk.java:131-161 | after an update the cell's record is current, and every other cell's record is current exactly when it was before |
| DemoChunks.NewChunk | dungine-demo/src/dungine/level/level3d/Chunk.java:46-54 | a new chunk has no blocks and a zero-filled buffer of 4096 records |
| DemoChunks.NewChunkRecordsCurrent | dungine-demo/src/dungine/level/level3d/Chunk.java:46-54 | the zero buffer is already the current record of every cell of an empty chunk |
| DemoChunks.Rebuild | dungine-demo/src/dungine/level/level3d/Chunk.java:120-129 | after a rebuild every cell's record is current and the blocks are unchanged |
| DemoChunks.CurrentBufferUnique | dungine-demo/src/dungine/level/level3d/Chunk.java:120-161 | the buffer is determined by the blocks: two chunks with the same blocks and all records current are equal |
| DemoChunks.NewChunkIsRebuilt | dungine-demo/src/dungine/level/level3d/Chunk.java:46-54 | the constructor's rebuild leaves the zero buffer as it is |
| DemoChunks.SetBlock | dungine-demo/src/dungine/level/level3d/Chunk.java:102-106 | the block is stored at its chunk position and no other cell changes; a position outside the chunk fails |
| DemoChunks.SetBlockRefreshesRecord | dungine-demo/src/dungine/level/level3d/Chunk.java:102-106 | after a set, the block's own record is current |
| DemoChunks.RemoveBlockAt | dungine-demo/src/dungine/level/level3d/Chunk.java:93-95 | the coordinate form empties the cell and leaves the buffer alone |
| DemoChunks.RemoveBlock | dungine-demo/src/dungine/level/level3d/Chunk.java:97-100 | the vector form empties the cell and zeroes its record |
| Level3DStore.NewLevel | dungine-demo/src/dungine/level/level3d/Level3D.java:45-53 | a new level has no chunks and no generator, and its atlas holds exactly the four level textures; a refused texture makes construction fail, never for a full atlas |
| Level3DStore.AddAll | dungine-demo/src/dungine/level/level3d/Level3D.java:48-52 | the textures are added in order and the first refusal fails the whole; on success each gets one new entry and an index |
| Level3DStore.AddAllNeverFull | dungine-demo/src/dungine/level/level3d/Level3D.java:48-52 | adding a few textures to an atlas far from its limit is never refused as full |
| Level3DStore.NewLevelSucceedsWhenTexturesFit | dungine-demo/src/dungine/level/level3d/Level3D.java:45-53 | when every level texture fits a blank page, construction succeeds |
| Level3DStore.SetGenerator | dungine-demo/src/dungine/level/level3d/Level3D.java:76-79 | setting the generator changes nothing else |
| Level3DStore.ChunkAt | dungine-demo/src/dungine/level/level3d/Level3D.java:59-63 | a stored chunk is returned as is; a lookup never loads; a load stores what the generator makes unless it makes `null`; with no generator a load of a missing chunk fails |
| Level3DStore.ChunkCount | dungine-demo/src/dungine/level/level3d/Level3D.java:99-101 | the count is 0 exactly when no chunk is stored |
| Level3DStore.ChunkAtCount | dungine-demo/src/dungine/level/level3d/Level3D.java:59-101 | a load grows the count by one exactly when a chunk was generated and stored |
| Level3DStore.ChunkAtMemoises | dungine-demo/src/dungine/level/level3d/Level3D.java:59-63 | once a chunk was loaded, a lookup and a second load give the same chunk and change nothing |
| Level3DStore.ChunkAtIgnoresGenerator | dungine-demo/src/dungine/level/level3d/Level3D.java:59-79 | a stored chunk is returned whatever the current generator would make |
| Level3DStore.ChunkByWorldIsContainingChunk | dungine-demo/src/dungine/level/level3d/Level3D.java:65-70 | within 2^24 of the origin, the chunk asked for is the one whose 16-block span holds the position |
| Level3DStore.ChunkByWorldCoordinates | dungine-demo/src/dungine/level/level3d/Level3D.java:65-70 | the world-coordinate lookup keeps the level well formed; which chunk it asks for is `ChunkByWorldIsContainingChunk` |
| Entities.Components | engine/src/main/java/de/fwatermann/dungine/ecs/Entity.java:58-60 | a class's list, empty for a class never seen |
| Entities.NewEntity | engine/src/main/java/de/fwatermann/dungine/ecs/Entity.java:31-41 | the constructor files every component under its class, and has a list for exactly the classes given |
| Entities.NewEntityKeepsAll | engine/src/main/java/de/fwatermann/dungine/ecs/Entity.java:31-41 | each class's list is the given components of that class, in order |
| Entities.NewEntityIgnoresSingleInstance | engine/src/main/java/de/fwatermann/dungine/ecs/Entity.java:31-41 | the constructor keeps two components of a class even when it allows one |
| Entities.AddComponent | engine/src/main/java/de/fwatermann/dungine/ecs/Entity.java:68-82 | a multiple-instance component is appended; a single-instance one replaces the first of its list or starts it; other classes are untouched |
| Entities.AddKeepsSingle | engine/src/main/java/de/fwatermann/dungine/ecs/Entity.java:68-82 | adding keeps single-instance classes at one component, the new one |
| Entities.First | engine/src/main/java/de/fwatermann/dungine/ecs/Entity.java:91-94 | the first component of the class; an empty or missing list fails in `get(0)` |
| Entities.HasComponents | engine/src/main/java/de/fwatermann/dungine/ecs/Entity.java:127-129 | true exactly when every class asked for has a list |
| Entities.HasComponent | engine/src/main/java/de/fwatermann/dungine/ecs/Entity.java:114-118 | a component that is present has its class's list, so `component(clazz)` cannot fail; a class never seen has none |
| Entities.AddThenHas | engine/src/main/java/de/fwatermann/dungine/ecs/Entity.java:68-118 | after `addComponent` the entity has the component |
| Entities.RemoveComponent | engine/src/main/java/de/fwatermann/dungine/ecs/Entity.java:102-106 | removes the first occurrence and keeps the order of the rest, says whether it was present, keeps the class's list and touches no other class |
| Entities.RemoveFirstKeepsOrder | engine/src/main/java/de/fwatermann/dungine/ecs/Entity.java:102-106 | `List.remove(o)` cuts out exactly the first occurrence, leaving the rest in order |
| Entities.RemoveKeepsSingle | engine/src/main/java/de/fwatermann/dungine/ecs/Entity.java:102-106 | removing keeps single-instance classes at one component at most |
| Entities.RemoveLeavesEmptyList | engine/src/main/java/de/fwatermann/dungine/ecs/Entity.java:91-133 | after removing a class's only component the class is still reported present, but `component(class)` fails |
| Entities.AddThenRemove | engine/src/main/java/de/fwatermann/dungine/ecs/Entity.java:68-106 | adding then removing a multiple-instance component gives the old list back as a multiset |
| BatchAnimations.MakeFrame | engine/src/main/java/de/fwatermann/dungine/graphics/texture/animation/BatchAnimation.java:49-65 | a vertical sheet's frame spans the full width, a horizontal one's the full height; a count of 0 fails |
| BatchAnimations.OffsetInside | engine/src/main/java/de/fwatermann/dungine/graphics/texture/animation/BatchAnimation.java:49-65 | each frame's offset lies inside the sheet, and the far-edge offset mirrors the near-edge one |
| BatchAnimations.FrameInside | engine/src/main/java/de/fwatermann/dungine/graphics/texture/animation/BatchAnimation.java:49-65 | every frame of a well-formed sheet lies inside the texture |
| BatchAnimations.FramesRepeat | engine/src/main/java/de/fwatermann/dungine/graphics/texture/animation/BatchAnimation.java:49-65 | frame `i + count` is frame `i` |
| BatchAnimations.FramesMirror | engine/src/main/java/de/fwatermann/dungine/graphics/texture/animation/BatchAnimation.java:49-65 | `DOWN` frames mirror `UP` ones, and `RIGHT` frames mirror `LEFT` ones |
| BatchAnimations.SetCurrentFrame | engine/src/main/java/de/fwatermann/dungine/graphics/texture/animation/BatchAnimation.java:122-127 | the frame index is taken modulo the count with Java's sign rules; a count of 0 fails |
| BatchAnimations.SetCurrentFrameShows | engine/src/main/java/de/fwatermann/dungine/graphics/texture/animation/BatchAnimation.java:122-127 | setting frame `i` shows the same frame as frame `i % count` |
| BatchAnimations.UpdateStep | engine/src/main/java/de/fwatermann/dungine/graphics/texture/animation/BatchAnimation.java:75-103 | only an advance changes the frame and the clock; only a non-looping animation finishes |
| BatchAnimations.UpdateStepInRange | engine/src/main/java/de/fwatermann/dungine/graphics/texture/animation/BatchAnimation.java:75-103 | an advance moves by the whole frame durations elapsed, modulo the count, and stays in range |
| BatchAnimations.UpdateStepMissesFinish | engine/src/main/java/de/fwatermann/dungine/graphics/texture/animation/BatchAnimation.java:84-93 | a non-looping 4-frame animation at frame 1, 401 ms after its last frame at 100 ms a frame, passes its end yet advances instead of finishing |
| BatchAnimations.AdvanceFrame | engine/src/main/java/de/fwatermann/dungine/graphics/texture/animation/BatchAnimation.java:75-103 | the corrected step changes frame and clock only on an advance and finishes only a non-looping animation |
| BatchAnimations.AdvanceFrameAgreesWhenLooping | engine/src/main/java/de/fwatermann/dungine/graphics/texture/animation/BatchAnimation.java:84-93 | a looping animation steps the same as written and corrected |
| BatchAnimations.AdvanceFrameFinishes | engine/src/main/java/de/fwatermann/dungine/graphics/texture/animation/BatchAnimation.java:84-93 | a non-looping animation finishes exactly when the elapsed frames reach past the last one, and otherwise advances by them |
| InstanceAttributes.IsIntegerRange | engine/src/main/java/de/fwatermann/dungine/graphics/mesh/InstanceAttributeList.java:140-147 | the integer types are exactly the six codes from `GL_BYTE` to `GL_UNSIGNED_INT`; `GL_FLOAT` is not one |
| InstanceAttributes.Strides | engine/src/main/java/de/fwatermann/dungine/graphics/mesh/InstanceAttributeList.java:94-98 | each buffer in use gets the total size of its attributes as its stride, and no other buffer gets one |
| InstanceAttributes.Locations | engine/src/main/java/de/fwatermann/dungine/graphics/mesh/InstanceAttributeList.java:106-131 | an attribute of `n` components takes `ceil(n / 4)` locations |
| InstanceAttributes.AttributePointers | engine/src/main/java/de/fwatermann/dungine/graphics/mesh/InstanceAttributeList.java:106-131 | location `loc + j` takes up to four components at offset `base + 16 j`, with the buffer's stride, and uses the integer call for integer types |
| InstanceAttributes.PointersCoverComponents | engine/src/main/java/de/fwatermann/dungine/graphics/mesh/InstanceAttributeList.java:106-131 | together the pointers carry every component exactly once |
| InstanceAttributes.BindOffsets | engine/src/main/java/de/fwatermann/dungine/graphics/mesh/InstanceAttributeList.java:100-135 | binding fails exactly when some attribute names a missing buffer; each buffer's offset is the size of its located attributes so far |
| InstanceAttributes.PointAttribute | engine/src/main/java/de/fwatermann/dungine/graphics/mesh/InstanceAttributeList.java:106-131 | the inner loop makes exactly the planned pointer calls |
| InstanceAttributes.BindAttribPointers | engine/src/main/java/de/fwatermann/dungine/graphics/mesh/InstanceAttributeList.java:89-138 | the loops make exactly the planned pointer calls, or fail as the plan does |
| InstanceAttributes.BindNext | engine/src/main/java/de/fwatermann/dungine/graphics/mesh/InstanceAttributeList.java:100-131 | one round of the second loop fails on a missing buffer, skips an attribute the shader does not know, and otherwise makes the planned pointer calls and advances that buffer's offset by the attribute's size |
| InstanceAttributes.BindFailureSticks | engine/src/main/java/de/fwatermann/dungine/graphics/mesh/InstanceAttributeList.java:100-105 | once a prefix of the attributes fails, the whole list fails |
| InstanceAttributes.NewList | engine/src/main/java/de/fwatermann/dungine/graphics/mesh/InstanceAttributeList.java:36-38 | the constructor keeps the attributes |
| InstanceAttributes.SizeInBytesAsWrittenIsZero | engine/src/main/java/de/fwatermann/dungine/graphics/mesh/InstanceAttributeList.java:29-47 | a list of one 16-byte attribute reports a size of 0 bytes |
| InstanceAttributes.SizeInBytesAsWritten | engine/src/main/java/de/fwatermann/dungine/graphics/mesh/InstanceAttributeList.java:45-47 | the getter returns the field, which nothing assigns |
| InstanceAttributes.SizeInBytes | engine/src/main/java/de/fwatermann/dungine/graphics/mesh/InstanceAttributeList.java:40-47 | the corrected size is, for every buffer, that buffer's stride plus the sizes of the other buffers' attributes |
| InstanceAttributes.SizeIsSumOfBuffers | engine/src/main/java/de/fwatermann/dungine/graphics/mesh/InstanceAttributeList.java:40-47 | the documented size is one buffer's stride plus the sizes of the other buffers' attributes |
| GameLoopScheduler.Tick | game/src/core/game/GameLoop.java:111-115 | a visit counts the frame, wrapping as an `int`; it runs the system and resets the counter exactly when it is running and the count reached its period |
| GameLoopScheduler.Update | game/src/core/game/GameLoop.java:106-118 | systems are visited in order up to and including the first whose run loads a level, none if a level was already loaded; exactly the due ones run, and the flag is cleared |
| GameLoopScheduler.UpdateVisits | game/src/core/game/GameLoop.java:106-118 | a system is visited exactly when no earlier run loaded a level; a visited system's counter advances or resets, and a skipped one is unchanged |
| GameLoopScheduler.NoLoadVisitsAll | game/src/core/game/GameLoop.java:106-118 | without a level load every system is visited |
| GameLoopScheduler.RunsWhenDue | game/src/core/game/GameLoop.java:111-115 | a running system waits until its counter reaches the period, then runs once and restarts from 0 |
| GameLoopScheduler.RunsPeriodically | game/src/core/game/GameLoop.java:111-115 | from 0, a system with period `p` runs exactly `m` times in `m * p` updates and is back at 0 |
| GameLoopScheduler.TicksSplit | game/src/core/game/GameLoop.java:111-115 | `n + k` updates are `n` updates followed by `k` |
| GameLoopScheduler.StoppedNeverRuns | game/src/core/game/GameLoop.java:111-115 | a stopped system never runs but keeps counting frames, wrapping as an `int` |

## Left out

- HTTP: reading the request body, the response headers and writing the response bytes in `handleStartRequest`. `Run` returns the status and body instead.
- HUD updates: `clearHUDValues`, `addBaseVar` and `updateArrayHUD`. They are display only and change no interpreter state.
- Moves and fireballs: modelled only as the list of performed actions. Their effect on the hero (`up`/`down`/`left`/`right`, `fireball`, the wait after each move, the wall test) uses the game's ECS, which is not part of this model. `printScopes` is debug output.
- The ANTLR condition visitor: the parameter `cond`. Its grammar and evaluation are not part of this model.
- BlocklyDispatch.Run: the interpreter's mutual recursion carries a `fuel` bound. A program that does not terminate within it halts as `OutOfFuel` instead of looping, so `Run` says nothing about such programs.
- BlocklyDispatch.Run: its contract does not restate the 400 body text. `RunTopReportsFirstInterrupt` states which line the body names.
- BlocklyDispatch.Run: an exception escaping `processAction` halts the model as `Crashed` for good, and every later start request is answered `Aborted`. In the source the HTTP server goes on serving. The next request runs its lines against the stacks, variables and flags as they were at the throw. Once crashed, the model no longer promises the well-formedness those lines would need, so it does not continue from that state.
- BlocklyProps.RepeatRunsTargetTimes: it counts the closing braces at which a repeat goes on. That each of them replays the captured body once through `repeatHook` is not proved end to end. With the pass made while the body is captured, the body runs `n` times for a target `n >= 1`, and once for a target below 1.
- BlocklyScopes.OpenIf, BlocklyScopes.PushIf: the if frame's class (`IfStats`) is not part of this model. Its one-argument constructor is taken to set `if_flag` to the condition and `else_flag` to false. `executeAction()` is taken to be `if_flag || else_flag`, which is how lines 999-1003 of `Server.java` use the two flags.
- BlocklyScopes.OpenRepeat: the repeat frame's constructor (`RepeatStats`) is not part of this model. The initial counter is taken as 1 and "complete" as `counter >= target`, following the comments at lines 901-902 of `Server.java`.
- LevelChunks.Render, LevelChunks.InitMesh: the GL mesh, the camera frustum test and the per-face geometry are reduced to one texture slot per cell. The frustum test is the parameter `inView`.
- LevelChunks.SetBlock: posting the update to the main thread is modelled as immediate. The `NullPointerException` of the refresh on a chunk without a mesh is the result `NoMesh`, returned with the chunk as the store left it.
- DemoChunks.SetBlock: as written, setting a block refreshes only its own record. The records of neighbouring cells, whose face masks may change, are not refreshed. The model follows the code.
- DemoChunks.UpdateMesh: the early return for an empty or hidden cell leaves the buffer position after the record rather than at 0. Buffer positions are not modelled.
- DemoChunks: `initShader`, `render` and the mesh's dirty flag are GL calls.
- ChunkUtils.ToChunkIsFloor: the `float` conversion is modelled exactly only within 2^24 of the origin. Beyond that range the model rounds to 24 significant bits, which `ToChunkRoundsUp` shows can give the next chunk. No other float overloads are modelled.
- TextureAtlas: the page packer (`AtlasPage.add`) is the parameter `pack`. The UBO byte layout is kept as a list of 32-bit words. Saving pages and `use` are I/O.
- TextureAtlas.Add: the three refusals are `AtlasError` results, not `IllegalStateException`s, and the log messages are left out.
- Level3DStore: `render` and the textures' pixels are left out. `Resource.load` is the texture's path.
- ChunkTree.ForEach: the stored iterator's stack holds the tree's nodes by value, while Java shares them with the tree. The exhausted stack holds only deleted nodes or none, and `insert` never clears a deleted flag, so `hasNext` on it stays false either way. What `Level.render` then does with each chunk is GL.
- Entities: position, size and rotation are plain fields. `components()` as a stream over all classes is left out.
- BatchAnimations: `System.currentTimeMillis` is the parameter `now`. The blend factor and the texture are float and GL state.
- InstanceAttributes: the GL calls are reduced to the pointer records they would receive. The `normalized` flag is not tracked. Offsets are unbounded integers, so `int` overflow of offsets is not modelled.
- InstanceAttributes.BindAttribPointers: `iterator()` hands out one cached `ReadOnlyIterator` (lines 73-78). `bindAttribPointers` resets it only between its two passes (line 99). The model assumes that each call traverses all attributes in both passes, so `Bind` gives the same plan on every call. `ReadOnlyIterator` is not part of this model. Whether it resets itself when a pass begins decides what a second call does. If it does not, the second call's first pass sees no attribute, `strides` stays empty, and unboxing `strides.get(...)` at line 119 or 127 throws a `NullPointerException`.
- GameLoopScheduler: what `execute()` does, apart from whether it loads a level, is left out. So are `onLevelLoad`, rendering, `init` and the event handlers. A system that adds or removes systems during the pass would raise a `ConcurrentModificationException` in the source; the ECS manager is not part of this model. `System.java` is not part of this model.

## Findings

| source | as written | input that shows it | evidently intended | confidence | as-written member | corrected member |
|---|---|---|---|---|---|---|
| game/src/core/level/utils/ChunkUtils.java:60-65 | the inner coordinate of a negative `x` is `16 + x % 16`, which is 16 when `x` is a negative multiple of 16 | `x = -16` gives inner 16, outside the chunk | `floorMod(x, 16)`, always in 0..15 | not executed | ChunkUtils.InnerAsWrittenLeavesChunk | ChunkUtils.ChunkAndInnerRebuild |
| game/src/core/level/Level.java:23-27 | `getTileAt` passes world coordinates straight to the chunk's `getBlockAt` | world `(16, 0, 0)` is in chunk `(1, 0, 0)` but throws out of bounds | look up the block at the inner chunk coordinates | not executed | Levels.GetTileAtAsWrittenRefuses | Levels.GetTileAtLocatesBlock |
| game/src/core/level/LevelChunkTree.java:147-149 | `hasNext` asks only whether some node on the stack is not deleted, not whether a chunk is left below the stack | a deleted root with one stored child says false; an empty root says true | true exactly when `next` would return a chunk | not executed | ChunkTree.HasNextAsWrittenMissesChunks | ChunkTree.HasNextMeansNext |
| engine/src/main/java/de/fwatermann/dungine/graphics/texture/atlas/TextureAtlas.java:237-239 | `atlasPage & 0xFFFF << 16` parses as `atlasPage & (0xFFFF << 16)` | pages 0 and 1 are both written as 0 | the page index in the low 16 bits | not executed | TextureAtlas.PageWordAsWrittenLosesPage | TextureAtlas.PageWord |
| engine/src/main/java/de/fwatermann/dungine/graphics/texture/animation/BatchAnimation.java:84-93 | the end is detected only when the wrapped new frame is below the current one, so a jump past the last frame that wraps to the current frame or beyond advances instead of finishing | 4 frames, not looping, frame 1, last frame at 0, 100 ms per frame, now 401 | finish when the unwrapped frame reaches the count | not executed | BatchAnimations.UpdateStepMissesFinish | BatchAnimations.AdvanceFrameFinishes |
| engine/src/main/java/de/fwatermann/dungine/graphics/mesh/InstanceAttributeList.java:29-47 | the `sizeInBytes` field is never assigned, so `sizeInBytes()` is always 0 | one 16-byte attribute reports 0 bytes | the sum of the attributes' sizes | not executed | InstanceAttributes.SizeInBytesAsWrittenIsZero | InstanceAttributes.SizeInBytes |
| game/src/core/level/LevelChunkTree.java:131-136 | `iterator()` stores one iterator in the tree and returns it on every call, so `forEach` in `Level.render` reuses the exhausted iterator | after a first traversal, every later one yields nothing, including chunks inserted since | a fresh iterator per call | not executed | ChunkTree.ForEachAgainYieldsNothing | ChunkTree.IterateTree |
| game/src/core/level/LevelChunkTree.java:147-167 | on an empty tree `hasNext` holds for the root, and `next` pops it, finds no chunk and returns `null`, which `forEach` hands to the callback in `Level.render` | a level with no chunks: `chunk.render(camera)` at Level.java:57 is called on `null` | an empty tree yields nothing | not executed | ChunkTree.ForEachEmptyYieldsNull | ChunkTree.IterateEmptyYieldsNothing |

=== FILE: batch_animation.dfy ===
/**
 * A sprite-sheet animation (`BatchAnimation`): `count` equal frames laid out
 * in one texture, stacked vertically (`UP`, `DOWN`) or side by side (`LEFT`,
 * `RIGHT`), and the frame counter that advances with time.
 *
 * Texture dimensions are Java `int`s and the arithmetic is Java's: `/` and
 * `%` truncate, products wrap at 32 bits. The clock is the parameter `now`;
 * the fields the superclass `Animation` keeps (frame duration, looping,
 * pause) are fields of the state here. The blend factor is floating point
 * and is not part of this model, nor is the finish callback beyond the fact
 * that it fires.
 */
module BatchAnimations {
  import opened Outcome
  import opened JavaInt

  datatype Direction = Down | Up | Left | Right

  /** A frame's rectangle in the texture: size and position in texels. */
  datatype Frame = Frame(width: int, height: int, x: int, y: int)

  datatype Sheet = Sheet(width: int, height: int, count: int, direction: Direction)

  datatype Animation = Animation(
    sheet: Sheet,
    currentFrame: int,
    lastFrameTime: int,
    hasStep: bool,       // `currentStep != null`
    frameDuration: int,
    loop: bool,
    paused: bool)

  datatype AnimationError = DivisionByZero   // an `ArithmeticException` from `/` or `%`

  /** A texture whose dimensions are non-negative Java `int`s, and an `int` frame count. */
  predicate SheetOk(s: Sheet) {
    0 <= s.width <= MAX_INT && 0 <= s.height <= MAX_INT && IsInt32(s.count)
  }

  predicate Vertical(d: Direction) { d == Up || d == Down }

  /**
   * Where slot `index` of length `size` starts along a side of length
   * `dim`: from the origin, or from the far edge back.
   */
  function Offset(index: int, size: int, dim: int, fromFar: bool): int {
    if fromFar then Wrap32(dim - Wrap32(Wrap32(index + 1) * size)) else Wrap32(index * size)
  }

  /**
   * `makeAnimationFrame(i)`: frame `i % count`. A vertical sheet splits the
   * height into `count` rows, a horizontal one the width into `count`
   * columns; `UP` and `LEFT` count from the origin, `DOWN` and `RIGHT` from
   * the far edge. A count of 0 divides by zero.
   */
  function MakeFrame(s: Sheet, pIndex: int): (r: Result<Frame, AnimationError>)
    ensures r.Err? <==> s.count == 0
    ensures r.Ok? && Vertical(s.direction) ==> r.value.width == s.width && r.value.x == 0
    ensures r.Ok? && !Vertical(s.direction) ==> r.value.height == s.height && r.value.y == 0
  {
    if s.count == 0 then Err(DivisionByZero)
    else
      var index := Rem(pIndex, s.count);
      if Vertical(s.direction) then
        var h := Div(s.height, s.count);
        Ok(Frame(s.width, h, 0, Offset(index, h, s.height, s.direction == Down)))
      else
        var w := Div(s.width, s.count);
        Ok(Frame(w, s.height, Offset(index, w, s.width, s.direction == Right), 0))
  }

  lemma MulMono(a: int, b: int, c: int)
    requires 0 <= a <= b && c >= 0
    ensures 0 <= a * c <= b * c
  {
  }

  lemma MulSucc(a: int, c: int)
    ensures a * c + c == (a + 1) * c
  {
  }

  /**
   * Slot `index` of `n` equal slots of a side `dim` lies within the side,
   * from either end, and the two ends mirror each other.
   */
  lemma OffsetInside(index: int, n: int, dim: int)
    requires 0 <= index < n <= MAX_INT && 0 <= dim <= MAX_INT
    ensures var size := dim / n;
      && 0 <= size
      && 0 <= Offset(index, size, dim, false) && Offset(index, size, dim, false) + size <= dim
      && 0 <= Offset(index, size, dim, true) && Offset(index, size, dim, true) + size <= dim
      && Offset(index, size, dim, true) == dim - (Offset(index, size, dim, false) + size)
  {
    var size := dim / n;
    NatDivision(dim, n);
    MulMono(index + 1, n, size);
    MulMono(index, index + 1, size);
    MulSucc(index, size);
  }

  /**
   * For a non-negative index every frame of a sheet with a positive count
   * lies inside the texture, on all four sides.
   */
  lemma FrameInside(s: Sheet, pIndex: int)
    requires SheetOk(s) && s.count > 0 && pIndex >= 0
    ensures var r := MakeFrame(s, pIndex);
      && r.Ok?
      && 0 <= r.value.x && r.value.x + r.value.width <= s.width
      && 0 <= r.value.y && r.value.y + r.value.height <= s.height
  {
    DivAgreesOnNonNegative(pIndex, s.count);
    DivAgreesOnNonNegative(s.width, s.count);
    DivAgreesOnNonNegative(s.height, s.count);
    NatDivision(pIndex, s.count);
    OffsetInside(pIndex % s.count, s.count, s.width);
    OffsetInside(pIndex % s.count, s.count, s.height);
  }

  /** Division of `a` by `n` with quotient `q` and remainder `r` is unique. */
  lemma DivUnique(a: int, n: int, q: int, r: int)
    requires n > 0 && a == n * q + r && 0 <= r < n
    ensures a / n == q && a % n == r
  {
    NatDivisionAny(a, n);
    var q' := a / n;
    if q' < q {
      MulMono(q' + 1, q, n);
      assert false;
    } else if q' > q {
      MulMono(q + 1, q', n);
      assert false;
    }
  }

  lemma NatDivisionAny(a: int, n: int)
    requires n > 0
    ensures a == n * (a / n) + a % n && 0 <= a % n < n
  {
  }

  /** Frame `i` and frame `i + count` are the same rectangle, for non-negative `i`. */
  lemma FramesRepeat(s: Sheet, i: int)
    requires s.count > 0 && i >= 0
    ensures MakeFrame(s, i + s.count) == MakeFrame(s, i)
  {
    DivAgreesOnNonNegative(i, s.count);
    DivAgreesOnNonNegative(i + s.count, s.count);
    NatDivision(i, s.count);
    MulSucc(i / s.count, s.count);
    DivUnique(i + s.count, s.count, i / s.count + 1, i % s.count);
  }

  /**
   * `DOWN` mirrors `UP` and `RIGHT` mirrors `LEFT`: the mirrored frame
   * starts where the original ends, counted from the far edge.
   */
  lemma FramesMirror(s: Sheet, i: int)
    requires SheetOk(s) && s.count > 0 && i >= 0
    ensures var up := MakeFrame(s.(direction := Up), i).value;
      var down := MakeFrame(s.(direction := Down), i).value;
      down.y == s.height - (up.y + up.height) && down.height == up.height
    ensures var left := MakeFrame(s.(direction := Left), i).value;
      var right := MakeFrame(s.(direction := Right), i).value;
      right.x == s.width - (left.x + left.width) && right.width == left.width
  {
    DivAgreesOnNonNegative(i, s.count);
    DivAgreesOnNonNegative(s.width, s.count);
    DivAgreesOnNonNegative(s.height, s.count);
    NatDivision(i, s.count);
    OffsetInside(i % s.count, s.count, s.width);
    OffsetInside(i % s.count, s.count, s.height);
  }

  /** `currentFrame(i)`: stores `i % count` and makes the current step from it. */
  function SetCurrentFrame(a: Animation, frameIndex: int): (r: Result<Animation, AnimationError>)
    ensures r.Err? <==> a.sheet.count == 0
    ensures r.Ok? ==> r.value.hasStep && r.value.(currentFrame := a.currentFrame, hasStep := a.hasStep) == a
    ensures r.Ok? && frameIndex >= 0 ==> 0 <= r.value.currentFrame < Abs(a.sheet.count)
    ensures r.Ok? && frameIndex < 0 ==> -(Abs(a.sheet.count) as int) < r.value.currentFrame <= 0
  {
    if a.sheet.count == 0 then Err(DivisionByZero)
    else
      DivTruncates(frameIndex, a.sheet.count);
      Ok(a.(currentFrame := Rem(frameIndex, a.sheet.count), hasStep := true))
  }

  /** Setting frame `i` shows frame `i`: the stored index has the geometry of `i`. */
  lemma SetCurrentFrameShows(a: Animation, frameIndex: int)
    requires a.sheet.count > 0 && frameIndex >= 0
    ensures var r := SetCurrentFrame(a, frameIndex);
      && r.Ok? && r.value.currentFrame == frameIndex % a.sheet.count
      && MakeFrame(a.sheet, r.value.currentFrame) == MakeFrame(a.sheet, frameIndex)
  {
    DivAgreesOnNonNegative(frameIndex, a.sheet.count);
    NatDivision(frameIndex, a.sheet.count);
    DivAgreesOnNonNegative(frameIndex % a.sheet.count, a.sheet.count);
    DivUnique(frameIndex % a.sheet.count, a.sheet.count, 0, frameIndex % a.sheet.count);
  }

  /** What one call of `updateStep` did to the frame counter. */
  datatype Step = Started | Paused | Waiting | Advanced | Finished

  /** The whole frame durations in the elapsed time, as `(int) diff / (int) frameDuration`. */
  function Elapsed(a: Animation, now: int): (k: int)
    requires Wrap32(a.frameDuration) != 0
  {
    Div(Wrap32(now - a.lastFrameTime), Wrap32(a.frameDuration))
  }

  /**
   * The frame-advance part of `updateStep` at time `now`, as written. The
   * first call only makes the step. After that, a paused animation stays
   * put. Once more than one frame duration has passed, the frame moves on by
   * the whole durations passed, modulo the count; a non-looping animation
   * whose new frame lies before its current one fires its finish callback
   * instead and keeps its frame and its clock.
   */
  function UpdateStep(a: Animation, now: int): (r: Result<(Animation, Step), AnimationError>)
    ensures r.Ok? && r.value.1 != Advanced ==> r.value.0.(hasStep := a.hasStep) == a
    ensures r.Ok? && r.value.1 == Advanced ==>
      r.value.0 == a.(currentFrame := r.value.0.currentFrame, lastFrameTime := now)
    ensures r.Ok? && r.value.1 == Finished ==> !a.loop
    ensures r.Ok? && !a.loop ==> r.value.0.currentFrame >= a.currentFrame
  {
    if !a.hasStep then
      if a.sheet.count == 0 then Err(DivisionByZero) else Ok((a.(hasStep := true), Started))
    else if a.paused then Ok((a, Paused))
    else if now - a.lastFrameTime <= a.frameDuration then Ok((a, Waiting))
    else if Wrap32(a.frameDuration) == 0 || a.sheet.count == 0 then Err(DivisionByZero)
    else
      var newFrame := Rem(Wrap32(a.currentFrame + Elapsed(a, now)), a.sheet.count);
      if newFrame < a.currentFrame && !a.loop then Ok((a, Finished))
      else Ok((a.(currentFrame := newFrame, lastFrameTime := now), Advanced))
  }

  /** The frame counter is a valid frame index. */
  predicate InRange(a: Animation) {
    0 <= a.currentFrame < a.sheet.count
  }

  /** The conditions under which no `int` in the step wraps around. */
  predicate NoWrap(a: Animation, now: int) {
    && 0 < a.frameDuration <= MAX_INT
    && 0 <= now - a.lastFrameTime <= MAX_INT
    && a.currentFrame + (now - a.lastFrameTime) / a.frameDuration <= MAX_INT
  }

  /** Without wrap-around the elapsed frame count is the plain quotient, at most the elapsed time. */
  lemma ElapsedPlain(a: Animation, now: int)
    requires NoWrap(a, now)
    ensures Elapsed(a, now) == (now - a.lastFrameTime) / a.frameDuration
    ensures 0 <= Elapsed(a, now) <= now - a.lastFrameTime
  {
    var diff := now - a.lastFrameTime;
    DivAgreesOnNonNegative(diff, a.frameDuration);
    NatDivision(diff, a.frameDuration);
    MulMono(1, a.frameDuration, diff / a.frameDuration);
  }

  /**
   * Without wrap-around, stepping keeps the counter a valid frame, and an
   * advance by `k` whole durations lands on `(current + k) % count`.
   */
  lemma UpdateStepInRange(a: Animation, now: int)
    requires InRange(a) && a.hasStep && NoWrap(a, now)
    ensures var r := UpdateStep(a, now);
      && r.Ok? && InRange(r.value.0)
      && (r.value.1 == Advanced ==>
            r.value.0.currentFrame == (a.currentFrame + (now - a.lastFrameTime) / a.frameDuration) % a.sheet.count)
  {
    ElapsedPlain(a, now);
    DivAgreesOnNonNegative(a.currentFrame + Elapsed(a, now), a.sheet.count);
    NatDivisionAny(a.currentFrame + Elapsed(a, now), a.sheet.count);
  }

  /**
   * As written, a non-looping animation that passes its last frame within
   * one step plays on when the wrapped frame is not before the current one:
   * four frames, at frame 1, four durations later it is at frame 1 again
   * with no finish.
   */
  lemma UpdateStepMissesFinish()
    ensures var a := Animation(Sheet(64, 16, 4, Left), 1, 0, true, 100, false, false);
      && 1 + Elapsed(a, 401) >= 4
      && UpdateStep(a, 401) == Ok((a.(lastFrameTime := 401), Advanced))
  {
    var a := Animation(Sheet(64, 16, 4, Left), 1, 0, true, 100, false, false);
    assert Elapsed(a, 401) == 4;
  }

  /**
   * The frame advance as evidently intended: a non-looping animation that
   * would go past its last frame finishes; a looping one wraps as before.
   */
  function AdvanceFrame(a: Animation, now: int): (r: Result<(Animation, Step), AnimationError>)
    ensures r.Ok? && r.value.1 != Advanced ==> r.value.0.(hasStep := a.hasStep) == a
    ensures r.Ok? && r.value.1 == Advanced ==>
      r.value.0 == a.(currentFrame := r.value.0.currentFrame, lastFrameTime := now)
    ensures r.Ok? && r.value.1 == Finished ==> !a.loop
  {
    if !a.hasStep then
      if a.sheet.count == 0 then Err(DivisionByZero) else Ok((a.(hasStep := true), Started))
    else if a.paused then Ok((a, Paused))
    else if now - a.lastFrameTime <= a.frameDuration then Ok((a, Waiting))
    else if Wrap32(a.frameDuration) == 0 || a.sheet.count == 0 then Err(DivisionByZero)
    else
      var next := Wrap32(a.currentFrame + Elapsed(a, now));
      if !a.loop && !(a.currentFrame <= next < a.sheet.count) then Ok((a, Finished))
      else Ok((a.(currentFrame := Rem(next, a.sheet.count), lastFrameTime := now), Advanced))
  }

  /** A looping animation advances exactly as before. */
  lemma AdvanceFrameAgreesWhenLooping(a: Animation, now: int)
    requires a.loop
    ensures AdvanceFrame(a, now) == UpdateStep(a, now)
  {
  }

  /**
   * Without wrap-around, a non-looping animation finishes exactly when the
   * elapsed frames reach past its last frame, and otherwise moves on by
   * exactly that many frames.
   */
  lemma AdvanceFrameFinishes(a: Animation, now: int)
    requires InRange(a) && a.hasStep && !a.paused && !a.loop && NoWrap(a, now)
    requires now - a.lastFrameTime > a.frameDuration
    ensures var r := AdvanceFrame(a, now); var k := (now - a.lastFrameTime) / a.frameDuration;
      && r.Ok?
      && (r.value.1 == Finished <==> a.currentFrame + k >= a.sheet.count)
      && (r.value.1 == Advanced ==> r.value.0.currentFrame == a.currentFrame + k && InRange(r.value.0))
  {
    ElapsedPlain(a, now);
    var next := a.currentFrame + Elapsed(a, now);
    if next < a.sheet.count {
      DivAgreesOnNonNegative(next, a.sheet.count);
      DivUnique(next, a.sheet.count, 0, next);
    }
  }
}

=== FILE: block_face.dfy ===
/**
 * The six faces of a block of the voxel level and their one-byte masks
 * (`BlockFace` in the game). A Java `byte` is kept as its bit pattern.
 */
module BlockFaces {
  import opened Outcome
  import Decimal

  datatype BlockFace = Top | Bottom | Front | Back | Left | Right

  /** The face on the other side of the block; it is never the face itself. */
  function Opposite(f: BlockFace): (r: BlockFace)
    ensures r != f
  {
    match f
    case Top => Bottom
    case Bottom => Top
    case Front => Back
    case Back => Front
    case Left => Right
    case Right => Left
  }

  /** One of the low six bits, a different one for every face. */
  function BitMask(f: BlockFace): (r: bv8)
    ensures r != 0 && r & (r - 1) == 0
    ensures r & 0xC0 == 0
  {
    match f
    case Top => 0x20
    case Bottom => 0x10
    case Front => 0x08
    case Back => 0x04
    case Left => 0x02
    case Right => 0x01
  }

  /** Java's decimal text of the signed byte whose bits are `b`. */
  function ByteText(b: bv8): string {
    if b < 0x80 then Decimal.NatToString(b as nat)
    else "-" + Decimal.NatToString(0x100 - b as nat)
  }

  /** `fromBitMask`: the face whose mask is `b`; any other byte is rejected. */
  function FromBitMask(b: bv8): (r: Result<BlockFace, string>)
    ensures r.Ok? ==> BitMask(r.value) == b
    ensures r.Err? ==> r.error == "Invalid bit mask: " + ByteText(b) && forall f: BlockFace :: BitMask(f) != b
  {
    if b == 0x20 then Ok(Top)
    else if b == 0x10 then Ok(Bottom)
    else if b == 0x08 then Ok(Front)
    else if b == 0x04 then Ok(Back)
    else if b == 0x02 then Ok(Left)
    else if b == 0x01 then Ok(Right)
    else Err("Invalid bit mask: " + ByteText(b))
  }

  lemma OppositeInvolution(f: BlockFace)
    ensures Opposite(Opposite(f)) == f && Opposite(f) != f
  {
  }

  /** Masks of different faces share no bit, so they are distinct. */
  lemma BitMasksDisjoint(f: BlockFace, g: BlockFace)
    ensures f != g <==> BitMask(f) & BitMask(g) == 0
  {
  }

  lemma FromBitMaskInverse(f: BlockFace)
    ensures FromBitMask(BitMask(f)) == Ok(f)
  {
  }

  /** Exactly six bytes are accepted. */
  lemma FromBitMaskAccepts(b: bv8)
    ensures FromBitMask(b).Ok? <==> b in {0x01, 0x02, 0x04, 0x08, 0x10, 0x20}
  {
  }
}

=== FILE: blockly_dispatch.dfy ===
/**
 * The dispatcher of the block-language interpreter (`processAction`,
 * `repeatHook`, `funcCallEvaluation`, `performAction` and the line loop of
 * the start request in `Server.java`).
 *
 * Loop replay and function calls re-enter `processAction` in Java; here the
 * functions below call each other, bounded by `fuel`. Running out of fuel
 * stands for a program that does not stop (or for Java's stack overflow on
 * unbounded recursion) and is reported as `OutOfFuel`.
 */
module BlocklyDispatch {
  import opened Outcome
  import opened Decimal
  import opened BlocklyText
  import opened BlocklyState
  import opened BlocklyEval
  import opened BlocklyScopes

  /** `reservedFunctions`: built-in names that are never user function calls. */
  const RESERVED: set<string> := {
    "oben", "unten", "links", "rechts",
    "feuerballOben", "feuerballUnten", "feuerballLinks", "feuerballRechts",
    "WandRechts", "WandLinks", "WandOben", "WandUnten", "naheWand"}

  /** `performAction`: the exact lines that move the hero or throw a fireball. */
  function LeafOf(line: string): (r: Option<Leaf>)
    ensures r.Some? <==> line in {"oben();", "unten();", "links();", "rechts();",
                                  "feuerballOben();", "feuerballUnten();", "feuerballLinks();", "feuerballRechts();"}
  {
    if line == "oben();" then Some(Up)
    else if line == "unten();" then Some(Down)
    else if line == "links();" then Some(Left)
    else if line == "rechts();" then Some(Right)
    else if line == "feuerballOben();" then Some(FireballUp)
    else if line == "feuerballUnten();" then Some(FireballDown)
    else if line == "feuerballLinks();" then Some(FireballLeft)
    else if line == "feuerballRechts();" then Some(FireballRight)
    else None
  }

  function Perform(s: State, line: string): (r: State)
    ensures LeafOf(line).None? ==> r == s
    ensures LeafOf(line).Some? ==> r == s.(performed := s.performed + [LeafOf(line).value])
  {
    match LeafOf(line)
    case None => s
    case Some(l) => s.(performed := s.performed + [l])
  }

  /**
   * The frame with identity `id` on a loop stack, searched from the top; `idOf`
   * reads a frame's identity, so one lookup serves the while and the repeat
   * stacks.
   */
  function FrameById<T(==)>(fs: seq<T>, idOf: T -> nat, id: nat): (r: Option<T>)
    ensures r.Some? ==> r.value in fs && idOf(r.value) == id
    ensures r.None? ==> forall i :: 0 <= i < |fs| ==> idOf(fs[i]) != id
  {
    if |fs| == 0 then None
    else if idOf(Top(fs)) == id then Some(Top(fs))
    else FrameById(Pop(fs), idOf, id)
  }

  /**
   * The body of the loop frame `id` of `kind` if that frame is still on its
   * stack and replaying. A frame leaves its stack only after its replaying
   * flag was cleared, so a popped frame reads as not replaying.
   */
  function ReplayBody(s: State, kind: Kind, id: nat): Option<seq<string>> {
    if kind == WhileScope then
      match FrameById(s.whiles, (w: WhileStats) => w.id, id)
      case Some(w) => if w.repeating then Some(w.body) else None
      case None => None
    else
      match FrameById(s.repeats, (f: RepeatStats) => f.id, id)
      case Some(f) => if f.repeating then Some(f.body) else None
      case None => None
  }

  /** What every step keeps: the invariant, a halt is final, moves and function names are never taken back. */
  predicate Progress(s: State, r: State) {
    Inv(r)
    && (s.halt != Running ==> r.halt == s.halt)
    && s.performed <= r.performed
    && s.functions.Keys <= r.functions.Keys
  }

  /** `processAction`. */
  function Process(fuel: nat, cond: Cond, s: State, line: string): (r: State)
    requires Inv(s)
    ensures Progress(s, r)
    ensures s.halt != Running ==> r == s
    decreases fuel, 0, 0
  {
    if s.halt != Running then s
    else if fuel == 0 then s.(halt := OutOfFuel)
    else
      var c := Capture(s, line);
      if line == "}" && |c.scopes| > 0 then Close(fuel - 1, cond, c)
      else Execute(fuel - 1, cond, c, line)
  }

  /** `processAction` on `}` with a scope open: only the top scope's kind decides. */
  function Close(fuel: nat, cond: Cond, s: State): (r: State)
    requires Wf(s) && s.halt == Running && |s.scopes| > 0
    ensures Progress(s, r)
    decreases fuel, 4, 0
  {
    match Top(s.scopes)
    case IfScope => CloseIf(s)
    case WhileScope =>
      var (s1, replay) := CloseWhile(cond, s);
      if replay then RepeatHook(fuel, cond, s1) else s1
    case RepeatScope =>
      var (s1, replay) := CloseRepeat(s);
      if replay then RepeatHook(fuel, cond, s1) else s1
    case FunctionScope => CloseFunc(s)
  }

  /**
   * `processAction` on any other line: the openers, then, only if the gate is
   * open, the assignment, the function call and the move, in this order and
   * without looking at the interrupt flag in between.
   */
  function Execute(fuel: nat, cond: Cond, s: State, line: string): (r: State)
    requires Wf(s) && s.halt == Running
    ensures Progress(s, r)
    decreases fuel, 4, 0
  {
    var o := Openers(cond, s, line);
    if o.halt != Running || !Gate(o) then o
    else Gated(fuel, cond, o, line)
  }

  /** The part of `processAction` behind the gate: the assignment, the function call and the move. */
  function Gated(fuel: nat, cond: Cond, s: State, line: string): (r: State)
    requires Wf(s) && s.halt == Running
    ensures Progress(s, r)
    decreases fuel, 3, 1
  {
    var a := Assign(s, line);
    if a.halt != Running then a
    else
      var f := Call(fuel, cond, a, line);
      if f.halt != Running then f
      else
        PerformProgress(f, line);
        ProgressChain(s, f, Perform(f, line));
        Perform(f, line)
  }

  lemma PerformProgress(s: State, line: string)
    requires Inv(s)
    ensures Progress(s, Perform(s, line)) && Perform(s, line).halt == s.halt
  {
  }

  lemma ProgressChain(s: State, a: State, r: State)
    requires Progress(s, a) && Progress(a, r)
    ensures Progress(s, r)
  {
  }

  /**
   * `funcCallEvaluation`: the first `name()` in the line. Reserved names are
   * left alone, an unknown name is an error, and a known function's body is
   * run line by line without looking at the interrupt flag.
   */
  function Call(fuel: nat, cond: Cond, s: State, line: string): (r: State)
    requires Inv(s)
    ensures Progress(s, r)
    decreases fuel, 3, 0
  {
    match Find(line, CALL)
    case None => s
    case Some(g) =>
      if g[0] in RESERVED then s
      else if g[0] !in s.functions then SetError(s, "Function " + g[0] + " is not defined")
      else RunLines(fuel, cond, s, s.functions[g[0]], false)
  }

  /**
   * `repeatHook`: replays the loop whose kind is on top of the replaying
   * stack, holding on to the top frame of that kind.
   */
  function RepeatHook(fuel: nat, cond: Cond, s: State): (r: State)
    requires Inv(s)
    ensures Progress(s, r)
    decreases fuel, 3, 0
  {
    if s.halt != Running || |s.repeatingScopes| == 0 then s
    else
      match Top(s.repeatingScopes)
      case WhileScope =>
        if |s.whiles| == 0 then s.(halt := Crashed) else Loop(fuel, cond, s, WhileScope, Top(s.whiles).id)
      case RepeatScope =>
        if |s.repeats| == 0 then s.(halt := Crashed) else Loop(fuel, cond, s, RepeatScope, Top(s.repeats).id)
      case _ => s
  }

  /**
   * The `while (isRepeating && !interruptExecution)` loop of `repeatHook`: each
   * round runs the frame's whole body, stopping early only on an interrupt.
   * When it ends normally the frame has stopped replaying or the run was interrupted.
   */
  function Loop(fuel: nat, cond: Cond, s: State, kind: Kind, id: nat): (r: State)
    requires Inv(s)
    ensures Progress(s, r)
    ensures r.halt == Running ==> r.interrupted || ReplayBody(r, kind, id).None?
    decreases fuel, 2, 0
  {
    if s.halt != Running || s.interrupted then s
    else
      match ReplayBody(s, kind, id)
      case None => s
      case Some(body) =>
        if fuel == 0 then s.(halt := OutOfFuel)
        else Loop(fuel - 1, cond, RunLines(fuel - 1, cond, s, body, true), kind, id)
  }

  /**
   * Runs `lines` through `processAction` in order. A halt always stops the
   * run; an interrupt stops it only when `stopOnInterrupt` (loop replay) and
   * not in a function body.
   */
  function RunLines(fuel: nat, cond: Cond, s: State, lines: seq<string>, stopOnInterrupt: bool): (r: State)
    requires Inv(s)
    ensures Progress(s, r)
    ensures lines == [] ==> r == s
    decreases fuel, 1, |lines|
  {
    if |lines| == 0 then s
    else
      var s1 := Process(fuel, cond, s, lines[0]);
      if s1.halt != Running || (stopOnInterrupt && s1.interrupted) then s1
      else RunLines(fuel, cond, s1, lines[1..], stopOnInterrupt)
  }

  // The start request.

  /**
   * Processing `lines` one after another from `s`, each line leaves the run
   * going and the interrupt flag clear.
   */
  predicate Cleared(fuel: nat, cond: Cond, s: State, lines: seq<string>)
    requires Inv(s)
    decreases |lines|
  {
    |lines| == 0 ||
    var s1 := Process(fuel, cond, s, lines[0]);
    s1.halt == Running && !s1.interrupted && Cleared(fuel, cond, s1, lines[1..])
  }

  /**
   * The line loop of the start request: each line is trimmed and processed,
   * and the loop stops after the first line that leaves the interrupt flag
   * set, which is returned. The final state is the trimmed lines run with
   * `RunLines`; `RunTopReportsFirstInterrupt` says which line is reported.
   */
  function RunTop(fuel: nat, cond: Cond, s: State, lines: seq<string>): (r: (State, Option<string>))
    requires Inv(s)
    ensures Progress(s, r.0)
    ensures r.0 == RunLines(fuel, cond, s, TrimAll(lines), true)
    ensures r.1.Some? ==> r.0.interrupted && r.1.value in TrimAll(lines)
    ensures r.0.halt == Running && r.1.None? ==> !r.0.interrupted || lines == []
    decreases |lines|
  {
    if |lines| == 0 then (s, None)
    else
      var line := Trim(lines[0]);
      var s1 := Process(fuel, cond, s, line);
      assert TrimAll(lines) == [line] + TrimAll(lines[1..]);
      if s1.halt != Running then (s1, None)
      else if s1.interrupted then (s1, Some(line))
      else RunTop(fuel, cond, s1, lines[1..])
  }

  /**
   * The line `RunTop` reports is the `k`-th request line, trimmed: every line
   * before it left the run going and the flag clear, and the final state is
   * that line processed after them, so no later line was processed.
   */
  lemma {:induction false} RunTopReportsFirstInterrupt(fuel: nat, cond: Cond, s: State, lines: seq<string>)
    requires Inv(s)
    ensures var r := RunTop(fuel, cond, s, lines);
      r.1.Some? ==>
        exists k :: 0 <= k < |lines| && r.1.value == Trim(lines[k])
          && Cleared(fuel, cond, s, TrimAll(lines)[..k])
          && r.0 == Process(fuel, cond, RunLines(fuel, cond, s, TrimAll(lines)[..k], true), r.1.value)
    decreases |lines|
  {
    if |lines| > 0 {
      var s1 := Process(fuel, cond, s, Trim(lines[0]));
      if s1.halt == Running && s1.interrupted {
        assert TrimAll(lines)[..0] == [];
      } else if s1.halt == Running {
        RunTopReportsFirstInterrupt(fuel, cond, s1, lines[1..]);
        var r := RunTop(fuel, cond, s1, lines[1..]);
        if r.1.Some? {
          var k :| 0 <= k < |lines[1..]| && r.1.value == Trim(lines[1..][k])
            && Cleared(fuel, cond, s1, TrimAll(lines[1..])[..k])
            && r.0 == Process(fuel, cond, RunLines(fuel, cond, s1, TrimAll(lines[1..])[..k], true), r.1.value);
          ClearedPrefix(fuel, cond, s, lines, k);
          assert r.1.value == Trim(lines[k + 1]);
        }
      }
    }
  }

  /** A run that `RunTop` leaves going without a report cleared every line. */
  lemma {:induction false} RunTopClearsAll(fuel: nat, cond: Cond, s: State, lines: seq<string>)
    requires Inv(s)
    ensures var r := RunTop(fuel, cond, s, lines);
      r.0.halt == Running && r.1.None? ==> Cleared(fuel, cond, s, TrimAll(lines))
    decreases |lines|
  {
    if |lines| > 0 {
      var s1 := Process(fuel, cond, s, Trim(lines[0]));
      assert TrimAll(lines)[0] == Trim(lines[0]) && TrimAll(lines)[1..] == TrimAll(lines[1..]);
      if s1.halt == Running && !s1.interrupted {
        RunTopClearsAll(fuel, cond, s1, lines[1..]);
      }
    }
  }

  /** A cleared first line extends a cleared prefix of the remaining lines by one. */
  lemma ClearedPrefix(fuel: nat, cond: Cond, s: State, lines: seq<string>, k: nat)
    requires Inv(s) && k < |lines| - 1
    requires Process(fuel, cond, s, Trim(lines[0])).halt == Running
    requires !Process(fuel, cond, s, Trim(lines[0])).interrupted
    ensures var s1 := Process(fuel, cond, s, Trim(lines[0]));
      (Cleared(fuel, cond, s, TrimAll(lines)[..k + 1]) <==> Cleared(fuel, cond, s1, TrimAll(lines[1..])[..k]))
      && RunLines(fuel, cond, s, TrimAll(lines)[..k + 1], true) == RunLines(fuel, cond, s1, TrimAll(lines[1..])[..k], true)
  {
    TrimAllPrefix(lines, k);
  }

  /**
   * What the start request answers. `Aborted`: an exception escaped and no
   * answer was sent; `Exhausted`: the program did not finish within the fuel.
   */
  datatype Response = Reply(status: nat, body: string) | Aborted | Exhausted

  /** Java's string conversion of the failing line, `null` when there is none. */
  function LineText(line: Option<string>): string {
    match line
    case None => "null"
    case Some(x) => x
  }

  /**
   * `handleStartRequest` without the HTTP: the text is split into lines and
   * run; an interrupted run is answered with the failing line and message (an
   * error) or as interrupted, and the interpreter is cleared; a run that was
   * not interrupted keeps its state for the next request.
   */
  function Run(fuel: nat, cond: Cond, s: State, text: string): (r: (State, Response))
    requires Inv(s)
    ensures Inv(r.0)
    ensures r.1.Reply? && r.1.status != 200 ==>
      r.0.scopes == [] && r.0.vars == map[] && r.0.functions == map[] && !r.0.interrupted
    ensures r.1.Reply? && r.1.status == 200 ==> r.1.body == "OK" && !r.0.interrupted
  {
    var (s1, failed) := RunTop(fuel, cond, s, SplitLines(text));
    if s1.halt == Crashed then (s1, Aborted)
    else if s1.halt == OutOfFuel then (s1, Exhausted)
    else if s1.interrupted then
      if s1.errored then
        (Clear(s1), Reply(400, "Anweisung: " + LineText(failed) + "\n" + "Fehlermeldung: " + s1.message))
      else (Clear(s1), Reply(205, "Execution interrupted"))
    else (s1, Reply(200, "OK"))
  }
}

=== FILE: blockly_eval.dfy ===
/**
 * Operand resolution, arithmetic and the assignment statements of the
 * block-language interpreter (`getActualValueFromExpression`,
 * `executeExpression`, `variableEvaluation`, `checkAssign`,
 * `checkArrayAssign` in `Server.java`).
 */
module BlocklyEval {
  import opened Outcome
  import JavaInt
  import opened Decimal
  import opened BlocklyText
  import opened BlocklyState

  /** The exceptions the evaluator throws, each with the message Java gives it. */
  datatype Fault =
    | VariableNotFound(name: string)       // NoSuchElementException
    | ExpectedArray(name: string)          // IllegalAccessException
    | ExpectedBase(name: string)           // IllegalAccessException
    | NotANumber(text: string)             // NumberFormatException, rethrown
    | BadNumber(text: string)              // NumberFormatException from parseInt
    | IndexOutOfBounds(index: int, length: nat) // ArrayIndexOutOfBoundsException
    | DivisionByZero                       // ArithmeticException, rethrown

  function Message(f: Fault): string {
    match f
    case VariableNotFound(x) => "Variable not found " + x
    case ExpectedArray(x) => "Expected array variable. Got base for variable " + x
    case ExpectedBase(x) => "Expected base variable. Got array for variable " + x
    case NotANumber(t) => t + " is not a number or variable"
    case BadNumber(t) => NumberFormatMessage(t)
    case IndexOutOfBounds(i, n) =>
      "Index " + (if i < 0 then "-" + NatToString(-i) else NatToString(i))
      + " out of bounds for length " + NatToString(n)
    case DivisionByZero => "Division by zero is not allowed."
  }

  /** `getArrayVariable`: the elements of the array variable `name`. */
  function ArrayVar(vars: map<string, Value>, name: string): (r: Result<seq<int>, Fault>)
    ensures r.Ok? <==> name in vars && vars[name].Array?
    ensures r.Ok? ==> r.value == vars[name].elems
    ensures name !in vars ==> r == Err(VariableNotFound(name))
    ensures name in vars && vars[name].Base? ==> r == Err(ExpectedArray(name))
  {
    if name !in vars then Err(VariableNotFound(name))
    else match vars[name]
      case Base(_) => Err(ExpectedArray(name))
      case Array(e) => Ok(e)
  }

  /** Element `digits` of array `name`: the variable is looked up before the index is parsed. */
  function Element(vars: map<string, Value>, name: string, digits: string): (r: Result<int, Fault>)
    ensures VarsOk(vars) && r.Ok? ==> JavaInt.IsInt32(r.value)
  {
    match ArrayVar(vars, name)
    case Err(f) => Err(f)
    case Ok(e) =>
      match ParseInt(digits)
      case Err(_) => Err(BadNumber(digits))
      case Ok(i) => if 0 <= i < |e| then Ok(e[i]) else Err(IndexOutOfBounds(i, |e|))
  }

  /**
   * `getActualValueFromExpression`: the first `name[i]` in the text is an
   * array read; otherwise the first `name.length` is an array length;
   * otherwise a known scalar name gives its value and an unknown name is
   * parsed as a decimal literal.
   */
  function Resolve(vars: map<string, Value>, text: string): (r: Result<int, Fault>)
    ensures VarsOk(vars) && r.Ok? ==> JavaInt.IsInt32(r.value)
  {
    match Find(text, INDEXED)
    case Some(g) => Element(vars, g[0], g[2])
    case None =>
      match Find(text, LENGTH)
      case Some(g) =>
        (match ArrayVar(vars, g[0])
         case Err(f) => Err(f)
         case Ok(e) =>
           assert VarsOk(vars) ==> ValueOk(vars[g[0]]);
           Ok(|e|))
      case None =>
        if text !in vars then
          (match ParseInt(text)
           case Ok(n) => Ok(n)
           case Err(_) => Err(NotANumber(text)))
        else
          match vars[text]
          case Base(n) => Ok(n)
          case Array(_) => Err(ExpectedBase(text))
  }

  /** An element read: the array must exist, the index parse, and lie inside the array. */
  lemma ElementCases(vars: map<string, Value>, name: string, digits: string)
    requires |digits| > 0 && AllDigits(digits)
    ensures name !in vars ==> Element(vars, name, digits) == Err(VariableNotFound(name))
    ensures name in vars && vars[name].Base? ==> Element(vars, name, digits) == Err(ExpectedArray(name))
    ensures name in vars && vars[name].Array? ==>
      var e := vars[name].elems;
      var i := DigitsValue(digits);
      Element(vars, name, digits) ==
        if i > JavaInt.MAX_INT then Err(BadNumber(digits))
        else if i < |e| then Ok(e[i])
        else Err(IndexOutOfBounds(i, |e|))
  {
    ParseIntOfDigits(digits);
  }

  /** `name[digits]` resolves to that element of the array `name`. */
  lemma ResolveIndexed(vars: map<string, Value>, name: string, digits: string)
    requires |name| > 0 && AllWordChars(name) && |digits| > 0 && AllDigits(digits)
    ensures Resolve(vars, name + "[" + digits + "]") == Element(vars, name, digits)
  {
    FindIndexed(name, digits);
  }

  /** `name.length` resolves to the length of the array `name`. */
  lemma ResolveLength(vars: map<string, Value>, name: string)
    requires |name| > 0 && AllWordChars(name)
    ensures name in vars && vars[name].Array? ==>
      Resolve(vars, name + ".length") == Ok(|vars[name].elems|)
    ensures name !in vars ==> Resolve(vars, name + ".length") == Err(VariableNotFound(name))
    ensures name in vars && vars[name].Base? ==>
      Resolve(vars, name + ".length") == Err(ExpectedArray(name))
  {
    FindLength(name);
  }

  /**
   * A bare word resolves to the scalar it names, is an access fault if it
   * names an array, and is otherwise parsed as a literal, a format fault if it
   * is not a number.
   */
  lemma ResolveWord(vars: map<string, Value>, w: string)
    requires AllWordChars(w)
    ensures w in vars && vars[w].Base? ==> Resolve(vars, w) == Ok(vars[w].n)
    ensures w in vars && vars[w].Array? ==> Resolve(vars, w) == Err(ExpectedBase(w))
    ensures w !in vars && ParseInt(w).Ok? ==> Resolve(vars, w) == Ok(ParseInt(w).value)
    ensures w !in vars && ParseInt(w).Err? ==> Resolve(vars, w) == Err(NotANumber(w))
  {
    FindInWord(w);
  }

  /** An unbound string of digits is the number it spells, when that is an int. */
  lemma ResolveLiteral(vars: map<string, Value>, ds: string)
    requires |ds| > 0 && AllDigits(ds) && ds !in vars
    ensures DigitsValue(ds) <= JavaInt.MAX_INT ==> Resolve(vars, ds) == Ok(DigitsValue(ds))
    ensures DigitsValue(ds) > JavaInt.MAX_INT ==> Resolve(vars, ds) == Err(NotANumber(ds))
  {
    assert AllWordChars(ds);
    ResolveWord(vars, ds);
    ParseIntOfDigits(ds);
  }

  /** `executeExpression` on Java ints: `+ - *` wrap around, `/` truncates and faults on zero. */
  function Arith(a: int, op: string, b: int): (r: Result<int, Fault>)
    requires JavaInt.IsInt32(a) && JavaInt.IsInt32(b) && IsOperator(op)
    ensures r.Err? <==> op == "/" && b == 0
    ensures r.Err? ==> r.error == DivisionByZero
    ensures r.Ok? ==> JavaInt.IsInt32(r.value)
    ensures r.Ok? && op == "/" ==> r.value == JavaInt.Wrap32(JavaInt.Div(a, b))
    ensures r.Ok? && op == "+" ==> (r.value - (a + b)) % JavaInt.TWO_32 == 0
    ensures r.Ok? && op == "-" ==> (r.value - (a - b)) % JavaInt.TWO_32 == 0
    ensures r.Ok? && op == "*" ==> (r.value - a * b) % JavaInt.TWO_32 == 0
  {
    if op == "+" then Ok(JavaInt.Wrap32(a + b))
    else if op == "-" then Ok(JavaInt.Wrap32(a - b))
    else if op == "*" then Ok(JavaInt.Wrap32(a * b))
    else if b == 0 then Err(DivisionByZero)
    else Ok(JavaInt.Wrap32(JavaInt.Div(a, b)))
  }

  /** Division rounds toward zero: the quotient differs from Dafny's floor on negative operands. */
  lemma ArithDivisionTruncates()
    ensures Arith(-7, "/", 2) == Ok(-3)
    ensures Arith(7, "/", -2) == Ok(-3)
    ensures Arith(JavaInt.MIN_INT, "/", -1) == Ok(JavaInt.MIN_INT)
    ensures Arith(JavaInt.MAX_INT, "+", 1) == Ok(JavaInt.MIN_INT)
  {
  }

  /** `executeOperatorExpression`: the left operand is resolved first, then the right. */
  function EvalOp(vars: map<string, Value>, left: string, op: string, right: string): (r: Result<int, Fault>)
    requires VarsOk(vars) && IsOperator(op)
    ensures r.Ok? ==> JavaInt.IsInt32(r.value)
    ensures Resolve(vars, left).Err? ==> r == Err(Resolve(vars, left).error)
    ensures Resolve(vars, left).Ok? && Resolve(vars, right).Err? ==> r == Err(Resolve(vars, right).error)
  {
    match Resolve(vars, left)
    case Err(f) => Err(f)
    case Ok(a) =>
      match Resolve(vars, right)
      case Err(f) => Err(f)
      case Ok(b) => Arith(a, op, b)
  }

  /** What one line does to the variables. `Crash`: an exception escapes `processAction`. */
  datatype Effect = NoMatch | Store(name: string, value: Value) | Fail(fault: Fault) | Crash

  function StoreElement(vars: map<string, Value>, name: string, i: int, v: int): Effect
  {
    match ArrayVar(vars, name)
    case Err(f) => Fail(f)
    case Ok(e) => if 0 <= i < |e| then Store(name, Array(e[i := v])) else Fail(IndexOutOfBounds(i, |e|))
  }

  /** `int[] name = new int[digits]`: a length that is not an int crashes. */
  function CreateArray(name: string, digits: string): (r: Effect)
    ensures r.Store? || r.Crash?
    ensures r.Crash? <==> ParseInt(digits).Err? || ParseInt(digits).value < 0
    ensures r.Store? ==>
      && r.name == name && r.value.Array? && |r.value.elems| == ParseInt(digits).value
      && forall i :: 0 <= i < |r.value.elems| ==> r.value.elems[i] == 0
    ensures r.Store? ==> ValueOk(r.value)
  {
    match ParseInt(digits)
    case Err(_) => Crash
    case Ok(n) => if n < 0 then Crash else Store(name, Array(seq(n, _ => 0)))
  }

  /** `name[digits] = ...`: the index is parsed before the value is looked at, outside the `try`. */
  function SetElement(vars: map<string, Value>, name: string, digits: string, v: Result<int, Fault>): (r: Effect)
    requires VarsOk(vars) && (v.Ok? ==> JavaInt.IsInt32(v.value))
    ensures r.Store? ==> ValueOk(r.value)
    ensures r.Crash? <==> ParseInt(digits).Err?
    ensures ParseInt(digits).Ok? && v.Err? ==> r == Fail(v.error)
    ensures r.Store? ==>
      && v.Ok? && r.name == name && name in vars && vars[name].Array? && r.value.Array?
      && var (i, prev) := (ParseInt(digits).value, vars[name].elems);
        && 0 <= i < |prev| && |r.value.elems| == |prev| && r.value.elems[i] == v.value
        && forall j :: 0 <= j < |prev| && j != i ==> r.value.elems[j] == prev[j]
    ensures (ParseInt(digits).Ok? && v.Ok? && name in vars && vars[name].Array?
      && !(0 <= ParseInt(digits).value < |vars[name].elems|)) ==>
      r == Fail(IndexOutOfBounds(ParseInt(digits).value, |vars[name].elems|))
  {
    match ParseInt(digits)
    case Err(_) => Crash
    case Ok(i) =>
      match v
      case Err(f) => Fail(f)
      case Ok(x) => StoreElement(vars, name, i, x)
  }

  function SetScalar(name: string, v: Result<int, Fault>): (r: Effect)
    requires v.Ok? ==> JavaInt.IsInt32(v.value)
    ensures r.Store? ==> ValueOk(r.value)
    ensures v.Err? ==> r == Fail(v.error)
    ensures v.Ok? ==> r.Store? && r.name == name && r.value == Base(v.value)
  {
    match v
    case Err(f) => Fail(f)
    case Ok(x) => Store(name, Base(x))
  }

  /**
   * `variableEvaluation`: array creation, element assignment with and without
   * an operator, scalar assignment with and without an operator, tried in this
   * order, each only if the previous patterns found nothing.
   */
  function AssignmentEffect(vars: map<string, Value>, line: string): (r: Effect)
    requires VarsOk(vars)
    ensures r.Store? ==> ValueOk(r.value)
  {
    var create := Find(line, ARRAY_CREATE);
    if create.Some? then CreateArray(create.value[1], create.value[3])
    else
    var elementOp := Find(line, ARRAY_ASSIGN_OP);
    if elementOp.Some? then
      var g := elementOp.value;
      SetElement(vars, g[0], g[2], EvalOp(vars, g[4], g[6], g[8]))
    else
    var element := Find(line, ARRAY_ASSIGN);
    if element.Some? then
      var g := element.value;
      SetElement(vars, g[0], g[2], Resolve(vars, g[4]))
    else ScalarEffect(vars, line)
  }

  /** The scalar half of `variableEvaluation`, reached when no array pattern matched. */
  function ScalarEffect(vars: map<string, Value>, line: string): (r: Effect)
    requires VarsOk(vars)
    ensures r.Store? ==> ValueOk(r.value)
  {
    var scalarOp := Find(line, ASSIGN_OP);
    if scalarOp.Some? then
      var g := scalarOp.value;
      SetScalar(g[1], EvalOp(vars, g[3], g[5], g[7]))
    else
    var scalar := Find(line, ASSIGN);
    if scalar.Some? then
      var g := scalar.value;
      SetScalar(g[1], Resolve(vars, g[3]))
    else
    var simple := Find(line, SIMPLE_ASSIGN);
    if simple.Some? then
      match ParseInt(simple.value[3])
      case Err(_) => Crash
      case Ok(n) => Store(simple.value[1], Base(n))
    else NoMatch
  }

  /** Array creation stores a zero-filled array of the declared length. */
  lemma ArrayCreationZeroFilled(vars: map<string, Value>, line: string)
    requires VarsOk(vars)
    requires Find(line, ARRAY_CREATE).Some?
    ensures var g := Find(line, ARRAY_CREATE).value;
      ParseInt(g[3]).Ok? ==>
        AssignmentEffect(vars, line).Store?
        && AssignmentEffect(vars, line).name == g[1]
        && AssignmentEffect(vars, line).value.Array?
        && |AssignmentEffect(vars, line).value.elems| == ParseInt(g[3]).value
        && (forall i :: 0 <= i < |AssignmentEffect(vars, line).value.elems| ==>
              AssignmentEffect(vars, line).value.elems[i] == 0)
  {
    var g := Find(line, ARRAY_CREATE).value;
    ParseIntOfDigits(g[3]);
  }

  /** Applies a line's assignment to the state: a fault sets the error flags and writes nothing. */
  function Assign(s: State, line: string): (r: State)
    requires VarsOk(s.vars)
    ensures r.scopes == s.scopes && r.repeatingScopes == s.repeatingScopes && r.ifs == s.ifs
    ensures r.whiles == s.whiles && r.repeats == s.repeats && r.defs == s.defs
    ensures r.functions == s.functions && r.nextId == s.nextId && r.performed == s.performed
    ensures VarsOk(r.vars)
    ensures Wf(s) ==> Wf(r)
    ensures AssignmentEffect(s.vars, line).Fail? ==>
      r.vars == s.vars && r.interrupted && r.errored
      && r.message == Message(AssignmentEffect(s.vars, line).fault) && r.halt == s.halt
    ensures AssignmentEffect(s.vars, line).Store? ==>
      var e := AssignmentEffect(s.vars, line);
      r.vars == s.vars[e.name := e.value] && r.interrupted == s.interrupted
      && r.errored == s.errored && r.message == s.message && r.halt == s.halt
    ensures AssignmentEffect(s.vars, line).NoMatch? ==> r == s
    ensures AssignmentEffect(s.vars, line).Crash? ==> r == s.(halt := Crashed)
  {
    match AssignmentEffect(s.vars, line)
    case NoMatch => s
    case Store(x, v) => StoreWf(s, x, v); s.(vars := s.vars[x := v])
    case Fail(f) => SetError(s, Message(f))
    case Crash => s.(halt := Crashed)
  }

  lemma StoreWf(s: State, x: string, v: Value)
    requires VarsOk(s.vars) && ValueOk(v)
    ensures VarsOk(s.vars[x := v])
    ensures Wf(s) ==> Wf(s.(vars := s.vars[x := v]))
  {
  }
}

=== FILE: blockly_props.dfy ===
/**
 * Properties of the block-language interpreter that relate several steps:
 * the execute gate, closing scopes on `}`, how often a repeat goes round,
 * function calls, and what a function's stored body does to its caller.
 */
module BlocklyProps {
  import opened Outcome
  import opened Decimal
  import opened BlocklyText
  import opened BlocklyState
  import opened BlocklyEval
  import opened BlocklyScopes
  import opened BlocklyDispatch

  /**
   * With the gate closed after the openers, a line writes no variable,
   * calls no function and moves nothing.
   */
  lemma GateClosedNoEffects(fuel: nat, cond: Cond, s: State, line: string)
    requires Wf(s) && s.halt == Running && fuel > 0
    requires !(line == "}" && |s.scopes| > 0)
    requires !Gate(Openers(cond, Capture(s, line), line))
    ensures var r := Process(fuel, cond, s, line);
      r.vars == s.vars && r.performed == s.performed && r.functions == s.functions
  {
    var c := Capture(s, line);
    assert Process(fuel, cond, s, line) == Execute(fuel - 1, cond, c, line);
  }

  /**
   * While a function definition is open, a line other than a closing `}` is
   * only recorded: every open definition's body gains the line, and no
   * variable, function or move changes.
   */
  lemma DefinitionRecordsOnly(fuel: nat, cond: Cond, s: State, line: string)
    requires Wf(s) && s.halt == Running && fuel > 0 && |s.defs| > 0
    requires !(line == "}" && |s.scopes| > 0)
    ensures var r := Process(fuel, cond, s, line);
      && r.vars == s.vars && r.performed == s.performed && r.functions == s.functions
      && |s.defs| <= |r.defs|
      && forall i :: 0 <= i < |s.defs| ==> r.defs[i].name == s.defs[i].name && r.defs[i].body == s.defs[i].body + [line]
  {
    var c := Capture(s, line);
    assert Process(fuel, cond, s, line) == Execute(fuel - 1, cond, c, line);
  }

  /** A reserved name is never called, whatever the function table holds. */
  lemma CallReserved(fuel: nat, cond: Cond, s: State, line: string)
    requires Inv(s)
    requires Find(line, CALL).Some? && Find(line, CALL).value[0] in RESERVED
    ensures Call(fuel, cond, s, line) == s
  {
  }

  /** Calling a name that is neither reserved nor defined is an error and does nothing else. */
  lemma CallUndefined(fuel: nat, cond: Cond, s: State, line: string)
    requires Inv(s)
    requires Find(line, CALL).Some?
    requires Find(line, CALL).value[0] !in RESERVED && Find(line, CALL).value[0] !in s.functions
    ensures var r := Call(fuel, cond, s, line);
      r.interrupted && r.errored
      && r.message == "Function " + Find(line, CALL).value[0] + " is not defined"
      && r.performed == s.performed && r.vars == s.vars && r.scopes == s.scopes
  {
  }

  /** `}` on an if pops the if and its scope and nothing else of the stacks. */
  lemma ProcessCloseIf(fuel: nat, cond: Cond, s: State)
    requires Wf(s) && s.halt == Running && fuel > 0
    requires |s.scopes| > 0 && Top(s.scopes) == IfScope
    ensures var r := Process(fuel, cond, s, "}");
      r.halt == Running && r.scopes == Pop(s.scopes) && r.ifs == Pop(s.ifs)
      && r.vars == s.vars && r.functions == s.functions && r.performed == s.performed
  {
    var c := Capture(s, "}");
    assert Process(fuel, cond, s, "}") == Close(fuel - 1, cond, c);
  }

  /**
   * `}` on a function definition stores the lines it captured, the closing
   * `}` itself included, under the function's name.
   */
  lemma ProcessCloseFunc(fuel: nat, cond: Cond, s: State)
    requires Wf(s) && s.halt == Running && fuel > 0
    requires |s.scopes| > 0 && Top(s.scopes) == FunctionScope
    ensures |s.defs| > 0
    ensures var r := Process(fuel, cond, s, "}");
      r.halt == Running && r.scopes == Pop(s.scopes) && r.defs == Pop(CaptureDefs(s.defs, "}"))
      && r.functions == s.functions[Top(s.defs).name := Top(s.defs).body + ["}"]]
  {
    CountPositive(s.scopes);
    var c := Capture(s, "}");
    assert Top(c.defs) == c.defs[|s.defs| - 1];
    assert Process(fuel, cond, s, "}") == Close(fuel - 1, cond, c);
  }

  /** A while entered with a false condition closes at its first `}`, without replaying. */
  lemma WhileFalseEntryCloses(cond: Cond, s: State)
    requires Wf(s) && s.halt == Running
    requires |s.scopes| > 0 && Top(s.scopes) == WhileScope
    ensures |s.whiles| > 0
    ensures !Top(s.whiles).conditionResult ==>
      var (r, replay) := CloseWhile(cond, s);
      !replay && (r.halt != Crashed ==> r.scopes == Pop(s.scopes) && r.whiles == Pop(s.whiles))
  {
    CountPositive(s.scopes);
    if !Top(s.whiles).conditionResult {
      assert !s.whiles[|s.whiles| - 1].conditionResult;
      assert !Gate(s);
    }
  }

  /** The state after `k` more passes over the closing `}` of the repeat on top, as long as it stays on top. */
  function Passes(s: State, k: nat): (r: State)
    requires Wf(s) && |s.scopes| > 0 && Top(s.scopes) == RepeatScope
    ensures Wf(r)
    decreases k
  {
    if k == 0 then s
    else
      var t := CloseRepeat(s).0;
      if |t.scopes| > 0 && Top(t.scopes) == RepeatScope then Passes(t, k - 1) else t
  }

  /**
   * With the gate open, a repeat whose counter is `k` below its target goes on
   * at each of the next `k` closing braces, one more on the counter each time.
   */
  lemma {:induction false} RepeatContinues(s: State, k: nat)
    requires Wf(s) && |s.scopes| > 0 && Top(s.scopes) == RepeatScope && Gate(s)
    ensures |s.repeats| > 0
    ensures Top(s.repeats).counter + k <= Top(s.repeats).target ==>
      var t := Passes(s, k);
      t.scopes == s.scopes && t.halt == s.halt && |t.repeats| == |s.repeats| && Pop(t.repeats) == Pop(s.repeats)
      && Top(t.repeats).counter == Top(s.repeats).counter + k
      && Top(t.repeats).target == Top(s.repeats).target
      && Gate(t)
    decreases k
  {
    CountPositive(s.scopes);
    var f := Top(s.repeats);
    if k > 0 && f.counter + k <= f.target {
      var t := CloseRepeat(s).0;
      assert !f.Complete();
      assert t == ContinueRepeat(s);
      assert Gate(t) by {
        assert t.ifs == s.ifs && t.whiles == s.whiles && t.defs == s.defs;
      }
      RepeatContinues(t, k - 1);
      assert Passes(s, k) == Passes(t, k - 1);
    }
  }

  /** A repeat whose counter has reached its target is popped at its `}`. */
  lemma RepeatEnds(s: State)
    requires Wf(s) && |s.scopes| > 0 && Top(s.scopes) == RepeatScope
    ensures |s.repeats| > 0
    ensures Top(s.repeats).Complete() ==>
      !CloseRepeat(s).1 && CloseRepeat(s).0.halt == s.halt
      && CloseRepeat(s).0.scopes == Pop(s.scopes) && CloseRepeat(s).0.repeats == Pop(s.repeats)
  {
    CountPositive(s.scopes);
  }

  /**
   * A repeat freshly opened with target `n` goes on at its first `n - 1`
   * closing braces and is popped at the next one, so with the first pass its
   * body runs `n` times; a target below one ends it at the first `}`.
   */
  lemma RepeatRunsTargetTimes(s: State)
    requires Wf(s) && |s.scopes| > 0 && Top(s.scopes) == RepeatScope && Gate(s)
    ensures |s.repeats| > 0
    ensures Top(s.repeats).counter == INITIAL_COUNTER ==>
      var t := Passes(s, if Top(s.repeats).target < 1 then 0 else Top(s.repeats).target - 1);
      |t.scopes| > 0 && Top(t.scopes) == RepeatScope
      && !CloseRepeat(t).1 && CloseRepeat(t).0.scopes == Pop(s.scopes)
      && CloseRepeat(t).0.repeats == Pop(s.repeats)
  {
    CountPositive(s.scopes);
    var f := Top(s.repeats);
    if f.counter == INITIAL_COUNTER {
      var k := if f.target < 1 then 0 else f.target - 1;
      RepeatContinues(s, k);
      var t := Passes(s, k);
      assert Top(t.repeats).Complete();
      RepeatEnds(t);
    }
  }

  /** `f();` has none of the letters the openers and assignments need. */
  lemma CallLineLetters()
    ensures 'a' !in "f();" && 's' !in "f();" && 'w' !in "f();" && 'p' !in "f();"
    ensures 'i' !in "f();" && '[' !in "f();"
  {
    assert "f();" == ['f', '(', ')', ';'];
  }

  /** `f();` opens no scope. */
  lemma CallLineOpensNothing()
    ensures !Contains("f();", "falls") && !Contains("f();", "sonst") && !Contains("f();", "solange")
    ensures Find("f();", REPEAT_OPEN).None? && Find("f();", FUNC_DEF).None?
  {
    CallLineLetters();
    FindNeedsChar("f();", [Lit("falls")], 0, 'a');
    FindNeedsChar("f();", [Lit("sonst")], 0, 's');
    FindNeedsChar("f();", [Lit("solange")], 0, 's');
    FindNeedsChar("f();", REPEAT_OPEN, 0, 'w');
    FindNeedsChar("f();", FUNC_DEF, 0, 'p');
  }

  /** `f();` assigns nothing. */
  lemma CallLineAssignsNothing()
    ensures Find("f();", ARRAY_CREATE).None? && Find("f();", ARRAY_ASSIGN_OP).None?
    ensures Find("f();", ARRAY_ASSIGN).None? && Find("f();", ASSIGN_OP).None?
    ensures Find("f();", ASSIGN).None? && Find("f();", SIMPLE_ASSIGN).None?
  {
    CallLineLetters();
    FindNeedsChar("f();", ARRAY_CREATE, 0, 'i');
    FindNeedsChar("f();", ARRAY_ASSIGN_OP, 1, '[');
    FindNeedsChar("f();", ARRAY_ASSIGN, 1, '[');
    FindNeedsChar("f();", ASSIGN_OP, 0, 'i');
    FindNeedsChar("f();", ASSIGN, 0, 'i');
    FindNeedsChar("f();", SIMPLE_ASSIGN, 0, 'i');
  }

  /** `f();` calls `f`. */
  lemma CallLineCalls()
    ensures Find("f();", CALL) == Some(["f", "()"])
  {
    assert AllWordChars("f");
    FindCall("f");
    assert "f" + "();" == "f();";
  }

  /** `f();` is not a move. */
  lemma CallLineNoMove()
    ensures LeafOf("f();").None?
  {
    var l := "f();";
    assert |l| == 4;
    assert l != "oben();" && l != "unten();" && l != "links();" && l != "rechts();";
    assert l != "feuerballOben();" && l != "feuerballUnten();";
    assert l != "feuerballLinks();" && l != "feuerballRechts();";
  }

  lemma FNotReserved()
    ensures "f" !in RESERVED
  {
    assert forall x :: x in RESERVED ==> |x| > 1;
  }

  /** Calling `f` runs its stored body without looking at the interrupt flag. */
  lemma CallF(fuel: nat, cond: Cond, s: State)
    requires Inv(s) && "f" in s.functions
    ensures Call(fuel, cond, s, "f();") == RunLines(fuel, cond, s, s.functions["f"], false)
  {
    CallLineCalls();
    FNotReserved();
  }

  lemma CallLineInert(cond: Cond, s: State)
    requires Wf(s)
    ensures Openers(cond, s, "f();") == s && Assign(s, "f();") == s
  {
    CallLineOpensNothing();
    CallLineAssignsNothing();
    assert OpenIf(cond, s, "f();") == s;
    assert OpenWhile(cond, s, "f();") == s;
    assert OpenRepeat(s, "f();") == s;
    assert OpenFunc(s, "f();") == s;
    assert AssignmentEffect(s.vars, "f();") == NoMatch;
  }

  /** With the gate open, processing `f();` amounts to calling `f`. */
  lemma ExecuteCallLine(fuel: nat, cond: Cond, s: State)
    requires Wf(s) && s.halt == Running && Gate(s)
    ensures Execute(fuel, cond, s, "f();") == Call(fuel, cond, s, "f();")
  {
    CallLineInert(cond, s);
    CallLineNoMove();
  }

  /** Running a one-line body is processing that line. */
  lemma RunOneLine(fuel: nat, cond: Cond, s: State, line: string, stop: bool)
    requires Inv(s)
    ensures RunLines(fuel, cond, s, [line], stop) == Process(fuel, cond, s, line)
  {
    assert [line][1..] == [];
  }

  /**
   * A function's stored body keeps the `}` that ended its definition, so
   * calling a function defined with an empty body from inside an open if
   * closes that if.
   */
  lemma CallClosesEnclosingIf(fuel: nat, cond: Cond, s: State)
    requires Wf(s) && s.halt == Running && fuel > 1 && Gate(s)
    requires |s.scopes| > 0 && Top(s.scopes) == IfScope
    requires "f" in s.functions && s.functions["f"] == ["}"]
    ensures var r := Process(fuel, cond, s, "f();");
      r.halt == Running && r.scopes == Pop(s.scopes) && r.ifs == Pop(s.ifs)
  {
    var c := Capture(s, "f();");
    assert Process(fuel, cond, s, "f();") == Execute(fuel - 1, cond, c, "f();");
    ExecuteCallLine(fuel - 1, cond, c);
    CallF(fuel - 1, cond, c);
    RunOneLine(fuel - 1, cond, c, "}", false);
    ProcessCloseIf(fuel - 1, cond, c);
  }
}

=== FILE: blockly_scopes.dfy ===
/**
 * The scope engine of the block-language interpreter (`Server.java`):
 * capturing lines into open loop and function bodies, opening if, while,
 * repeat and function scopes, and closing them on `}`.
 *
 * The ANTLR condition evaluator is a parameter `cond`: it is given the text
 * inside the parentheses and the variables and either answers, reports a
 * missing variable (the `NoSuchElementException` that `evalComplexCondition`
 * catches) or throws something else, which ends the request.
 */
module BlocklyScopes {
  import opened Outcome
  import opened Decimal
  import opened BlocklyText
  import opened BlocklyState
  import opened BlocklyEval

  datatype CondResult = Holds(b: bool) | Missing(message: string) | Throws

  type Cond = (string, map<string, Value>) -> CondResult

  /** Everything but the flags and the halt mark is the same in `a` and `b`. */
  predicate SameStacks(a: State, b: State) {
    a.scopes == b.scopes && a.repeatingScopes == b.repeatingScopes && a.ifs == b.ifs
    && a.whiles == b.whiles && a.repeats == b.repeats && a.defs == b.defs
    && a.vars == b.vars && a.functions == b.functions && a.nextId == b.nextId
    && a.performed == b.performed
  }

  lemma SameStacksWf(a: State, b: State)
    requires SameStacks(a, b) && Wf(a)
    ensures Wf(b)
  {
    assert IdsOk(a);
  }

  /**
   * `evalComplexCondition`: while a function definition is open the answer is
   * false and nothing is evaluated; a line without the `keyword (...)` shape
   * and a missing variable are reported as errors and count as false.
   */
  function EvalCondition(cond: Cond, s: State, text: string, keyword: string): (r: (State, bool))
    ensures SameStacks(s, r.0)
    ensures |s.defs| > 0 ==> r == (s, false)
    ensures r.1 ==> r.0 == s
    ensures r.0.halt != s.halt ==> r.0.halt == Crashed
    ensures r.0.interrupted != s.interrupted ==> r.0.interrupted && r.0.errored
    ensures |s.defs| == 0 && Find(text, ConditionPattern(keyword)).None? ==>
      r == (SetError(s, "Detected condition that is not valid: " + text), false)
    ensures |s.defs| == 0 && Find(text, ConditionPattern(keyword)).Some? ==>
      var answer := cond(Find(text, ConditionPattern(keyword)).value[1], s.vars);
      (answer.Holds? ==> r == (s, answer.b))
      && (answer.Missing? ==> r == (SetError(s, answer.message), false))
      && (answer.Throws? ==> r == (s.(halt := Crashed), false))
  {
    if |s.defs| > 0 then (s, false)
    else
      match Find(text, ConditionPattern(keyword))
      case None => (SetError(s, "Detected condition that is not valid: " + text), false)
      case Some(g) =>
        match cond(g[1], s.vars)
        case Holds(b) => (s, b)
        case Missing(m) => (SetError(s, m), false)
        case Throws => (s.(halt := Crashed), false)
  }

  // Capture (`addActionToWhileBody`, `addActionToRepeatBody`, `addActionToFunc`).

  /** A while frame with `line` appended unless it is replaying. */
  function GrowWhile(w: WhileStats, line: string): WhileStats {
    if w.repeating then w else w.(body := w.body + [line])
  }

  function GrowRepeat(r: RepeatStats, line: string): RepeatStats {
    if r.repeating then r else r.(body := r.body + [line])
  }

  /**
   * Nothing is captured while the innermost while replays; otherwise every
   * non-replaying while gets the line and the replaying ones keep their bodies.
   */
  function CaptureWhiles(ws: seq<WhileStats>, line: string): (r: seq<WhileStats>)
    ensures |r| == |ws|
    ensures forall i :: 0 <= i < |ws| ==> r[i].(body := ws[i].body) == ws[i]
    ensures forall i :: 0 <= i < |ws| && ws[i].repeating ==> r[i] == ws[i]
    ensures |ws| > 0 && Top(ws).repeating ==> r == ws
    ensures !(|ws| > 0 && Top(ws).repeating) ==>
      forall i :: 0 <= i < |ws| && !ws[i].repeating ==> r[i].body == ws[i].body + [line]
  {
    if |ws| > 0 && Top(ws).repeating then ws
    else seq(|ws|, i requires 0 <= i < |ws| => GrowWhile(ws[i], line))
  }

  function CaptureRepeats(rs: seq<RepeatStats>, line: string): (r: seq<RepeatStats>)
    ensures |r| == |rs|
    ensures forall i :: 0 <= i < |rs| ==> r[i].(body := rs[i].body) == rs[i]
    ensures forall i :: 0 <= i < |rs| && rs[i].repeating ==> r[i] == rs[i]
    ensures |rs| > 0 && Top(rs).repeating ==> r == rs
    ensures !(|rs| > 0 && Top(rs).repeating) ==>
      forall i :: 0 <= i < |rs| && !rs[i].repeating ==> r[i].body == rs[i].body + [line]
  {
    if |rs| > 0 && Top(rs).repeating then rs
    else seq(|rs|, i requires 0 <= i < |rs| => GrowRepeat(rs[i], line))
  }

  /** Every open function definition records the line. */
  function CaptureDefs(ds: seq<FuncStats>, line: string): (r: seq<FuncStats>)
    ensures |r| == |ds|
    ensures forall i :: 0 <= i < |ds| ==> r[i].name == ds[i].name && r[i].body == ds[i].body + [line]
  {
    seq(|ds|, i requires 0 <= i < |ds| => ds[i].(body := ds[i].body + [line]))
  }

  /** The first three statements of `processAction`. */
  function Capture(s: State, line: string): (r: State)
    ensures r == s.(whiles := CaptureWhiles(s.whiles, line), repeats := CaptureRepeats(s.repeats, line),
                    defs := CaptureDefs(s.defs, line))
    ensures Wf(s) ==> Wf(r)
    ensures Gate(r) == Gate(s)
  {
    var r := s.(whiles := CaptureWhiles(s.whiles, line), repeats := CaptureRepeats(s.repeats, line),
                 defs := CaptureDefs(s.defs, line));
    RepeatingKindsFlags(s.scopes, s.whiles, r.whiles, s.repeats, r.repeats);
    assert forall i :: 0 <= i < |r.whiles| ==> r.whiles[i].conditionResult == s.whiles[i].conditionResult;
    r
  }

  // Openers (`ifEvaluation`, `whileEvaluation`, `repeatEvaluation`, `funcEvaluation`).

  /**
   * `ifEvaluation` on a line that does not close an if: a line containing
   * `falls` pushes the if scope, evaluates the condition and pushes the if;
   * a line containing `sonst` then turns the top if into its else part, and
   * throws when no if is open.
   */
  function OpenIf(cond: Cond, s: State, line: string): (r: State)
    ensures !Contains(line, "falls") && !Contains(line, "sonst") ==> r == s
    ensures r.defs == s.defs
    ensures Wf(s) ==> Inv(r)
    ensures r.vars == s.vars && r.functions == s.functions && r.performed == s.performed
    ensures r.halt != s.halt ==> r.halt == Crashed
    ensures !Contains(line, "falls") && Contains(line, "sonst") ==>
      if |s.ifs| == 0 then r.halt == Crashed
      else r == s.(ifs := Pop(s.ifs) + [IfStats(false, !Top(s.ifs).ifFlag)])
  {
    var s1 := if Contains(line, "falls") then PushIf(cond, s, line) else s;
    if s1.halt != s.halt || !Contains(line, "sonst") then s1
    else ElseBranch(s1)
  }

  /**
   * The `falls` part of `ifEvaluation`: the scope is pushed before the
   * condition is evaluated, the if after it.
   */
  function PushIf(cond: Cond, s: State, line: string): (r: State)
    ensures r.defs == s.defs
    ensures Wf(s) ==> Inv(r)
    ensures r.vars == s.vars && r.functions == s.functions && r.performed == s.performed
    ensures r.halt != s.halt ==> r.halt == Crashed
    ensures r.halt != Crashed ==>
      r.scopes == s.scopes + [IfScope]
      && r.ifs == s.ifs + [IfStats(EvalCondition(cond, s.(scopes := s.scopes + [IfScope]), line, "falls").1, false)]
  {
    var s0 := s.(scopes := s.scopes + [IfScope]);
    var (s2, b) := EvalCondition(cond, s0, line, "falls");
    if s2.halt == Crashed then s2
    else
      var r := s2.(ifs := s2.ifs + [IfStats(b, false)]);
      if Wf(s) then
        RepeatingKindsPushOther(s.scopes, s.whiles, s.repeats, IfScope);
        CountPush(s.scopes, IfScope, IfScope);
        CountPush(s.scopes, IfScope, WhileScope);
        CountPush(s.scopes, IfScope, RepeatScope);
        CountPush(s.scopes, IfScope, FunctionScope);
        assert IdsOk(s);
        r
      else r
  }

  /** The `sonst` part of `ifEvaluation`: the top if runs its else part exactly when its then part did not. */
  function ElseBranch(s: State): (r: State)
    ensures |s.ifs| == 0 ==> r == s.(halt := Crashed)
    ensures |s.ifs| > 0 ==>
      r == s.(ifs := Pop(s.ifs) + [IfStats(false, !Top(s.ifs).ifFlag)])
      && (Top(r.ifs).ExecuteAction() <==> !Top(s.ifs).ifFlag)
    ensures Wf(s) ==> Inv(r)
  {
    if |s.ifs| == 0 then s.(halt := Crashed)
    else s.(ifs := Pop(s.ifs) + [IfStats(false, !Top(s.ifs).ifFlag)])
  }

  /** `whileEvaluation`: the condition is evaluated on entry and the frame pushed even when it reported an error. */
  function OpenWhile(cond: Cond, s: State, line: string): (r: State)
    ensures !Contains(line, "solange") ==> r == s
    ensures r.defs == s.defs
    ensures Wf(s) ==> Inv(r)
    ensures r.vars == s.vars && r.functions == s.functions && r.performed == s.performed
    ensures r.halt != s.halt ==> r.halt == Crashed
    ensures Contains(line, "solange") && r.halt != Crashed ==>
      r.scopes == s.scopes + [WhileScope] && |r.whiles| == |s.whiles| + 1
      && Pop(r.whiles) == s.whiles && Top(r.whiles).condition == line
      && Top(r.whiles).body == [] && !Top(r.whiles).repeating
      && Top(r.whiles).conditionResult == EvalCondition(cond, s, line, "solange").1
  {
    if !Contains(line, "solange") then s
    else
      var (s1, b) := EvalCondition(cond, s, line, "solange");
      if s1.halt == Crashed then s1
      else
        var w := WhileStats(s1.nextId, line, b, [], false);
        var r := s1.(scopes := s1.scopes + [WhileScope], whiles := s1.whiles + [w], nextId := s1.nextId + 1);
        assert Pop(r.whiles) == s1.whiles;
        if Wf(s1) then PushWhileWf(s1, w); r else r
  }

  lemma PushWhileWf(s: State, w: WhileStats)
    requires Wf(s) && w.id == s.nextId && !w.repeating
    ensures Wf(s.(scopes := s.scopes + [WhileScope], whiles := s.whiles + [w], nextId := s.nextId + 1))
  {
    RepeatingKindsPushWhile(s.scopes, s.whiles, s.repeats, w);
    CountPush(s.scopes, WhileScope, IfScope);
    CountPush(s.scopes, WhileScope, WhileScope);
    CountPush(s.scopes, WhileScope, RepeatScope);
    CountPush(s.scopes, WhileScope, FunctionScope);
  }

  /**
   * `repeatEvaluation`: `wiederhole N Mal` pushes a repeat with target N; when
   * N does not resolve the line is silently ignored.
   */
  function OpenRepeat(s: State, line: string): (r: State)
    ensures r.defs == s.defs
    ensures Find(line, REPEAT_OPEN).None? ==> r == s
    ensures Find(line, REPEAT_OPEN).Some? && Resolve(s.vars, Find(line, REPEAT_OPEN).value[1]).Err? ==> r == s
    ensures Find(line, REPEAT_OPEN).Some? && Resolve(s.vars, Find(line, REPEAT_OPEN).value[1]).Ok? ==>
      r == PushRepeat(s, Resolve(s.vars, Find(line, REPEAT_OPEN).value[1]).value)
    ensures Wf(s) ==> Wf(r)
    ensures r.vars == s.vars && r.functions == s.functions && r.performed == s.performed
    ensures r.halt == s.halt && r.interrupted == s.interrupted && r.message == s.message
  {
    match Find(line, REPEAT_OPEN)
    case None => s
    case Some(g) =>
      match Resolve(s.vars, g[1])
      case Err(_) => s
      case Ok(n) => PushRepeat(s, n)
  }

  /** A fresh repeat frame with target `n`, not yet replaying, on top of the stacks. */
  function PushRepeat(s: State, n: int): (r: State)
    ensures r.scopes == s.scopes + [RepeatScope] && |r.repeats| > 0 && Pop(r.repeats) == s.repeats
    ensures Top(r.repeats).target == n && Top(r.repeats).counter == INITIAL_COUNTER
    ensures Top(r.repeats).body == [] && !Top(r.repeats).repeating
    ensures Wf(s) ==> Wf(r)
    ensures r.vars == s.vars && r.functions == s.functions && r.performed == s.performed
    ensures r.halt == s.halt && r.interrupted == s.interrupted && r.message == s.message
    ensures r.ifs == s.ifs && r.whiles == s.whiles && r.defs == s.defs
  {
    var f := RepeatStats(s.nextId, n, INITIAL_COUNTER, [], false);
    var r := s.(scopes := s.scopes + [RepeatScope], repeats := s.repeats + [f], nextId := s.nextId + 1);
    assert Pop(r.repeats) == s.repeats;
    if Wf(s) then PushRepeatWf(s, f); r else r
  }

  lemma PushRepeatWf(s: State, f: RepeatStats)
    requires Wf(s) && f.id == s.nextId && !f.repeating
    ensures Wf(s.(scopes := s.scopes + [RepeatScope], repeats := s.repeats + [f], nextId := s.nextId + 1))
  {
    RepeatingKindsPushRepeat(s.scopes, s.whiles, s.repeats, f);
    CountPush(s.scopes, RepeatScope, IfScope);
    CountPush(s.scopes, RepeatScope, WhileScope);
    CountPush(s.scopes, RepeatScope, RepeatScope);
    CountPush(s.scopes, RepeatScope, FunctionScope);
  }

  /** `funcEvaluation`: `public void name()` opens a definition of `name` with an empty body. */
  function OpenFunc(s: State, line: string): (r: State)
    ensures Find(line, FUNC_DEF).None? ==> r == s
    ensures Wf(s) ==> Wf(r)
    ensures r.vars == s.vars && r.functions == s.functions && r.performed == s.performed
    ensures r.halt == s.halt && r.interrupted == s.interrupted && r.message == s.message
    ensures Find(line, FUNC_DEF).Some? ==>
      r.scopes == s.scopes + [FunctionScope]
      && r.defs == s.defs + [FuncStats(Find(line, FUNC_DEF).value[1], [])]
  {
    match Find(line, FUNC_DEF)
    case None => s
    case Some(g) =>
      var r := s.(scopes := s.scopes + [FunctionScope], defs := s.defs + [FuncStats(g[1], [])]);
      RepeatingKindsPushOther(s.scopes, s.whiles, s.repeats, FunctionScope);
      CountPush(s.scopes, FunctionScope, IfScope);
      CountPush(s.scopes, FunctionScope, WhileScope);
      CountPush(s.scopes, FunctionScope, RepeatScope);
      CountPush(s.scopes, FunctionScope, FunctionScope);
      r
  }

  /** The four openers run one after the other on every line; they are not exclusive. */
  function Openers(cond: Cond, s: State, line: string): (r: State)
    ensures |s.defs| <= |r.defs| && r.defs[..|s.defs|] == s.defs
    ensures Wf(s) ==> Inv(r)
    ensures r.vars == s.vars && r.functions == s.functions && r.performed == s.performed
    ensures r.halt != s.halt ==> r.halt == Crashed
  {
    var s1 := OpenIf(cond, s, line);
    if s1.halt == Crashed then s1
    else
      var s2 := OpenWhile(cond, s1, line);
      if s2.halt == Crashed then s2
      else OpenFunc(OpenRepeat(s2, line), line)
  }

  // Closers: `}` is handled by the kind of the top scope only.

  /** `ifEvaluation` on `}` with an if on top: the if and its scope are popped. */
  function CloseIf(s: State): (r: State)
    requires |s.scopes| > 0 && Top(s.scopes) == IfScope
    ensures r.scopes == Pop(s.scopes) || r.halt == Crashed
    ensures Wf(s) ==> Wf(r) && r.halt == s.halt && r.ifs == Pop(s.ifs)
    ensures r.whiles == s.whiles && r.repeats == s.repeats && r.defs == s.defs
    ensures r.vars == s.vars && r.functions == s.functions && r.performed == s.performed
  {
    if |s.ifs| == 0 then s.(halt := Crashed)
    else
      var r := s.(ifs := Pop(s.ifs), scopes := Pop(s.scopes));
      assert s.scopes == Pop(s.scopes) + [IfScope];
      if Wf(s) then
        RepeatingKindsPushOther(Pop(s.scopes), s.whiles, s.repeats, IfScope);
        CountPush(Pop(s.scopes), IfScope, IfScope);
        CountPush(Pop(s.scopes), IfScope, WhileScope);
        CountPush(Pop(s.scopes), IfScope, RepeatScope);
        CountPush(Pop(s.scopes), IfScope, FunctionScope);
        r
      else r
  }

  /** Popping a while frame that sits on top of the scope stack keeps the stacks in lockstep. */
  lemma PopWhileWf(s: State)
    requires Wf(s) && |s.scopes| > 0 && Top(s.scopes) == WhileScope
    ensures |s.whiles| > 0 && (Top(s.whiles).repeating ==> |s.repeatingScopes| > 0)
    ensures Wf(s.(scopes := Pop(s.scopes), whiles := Pop(s.whiles),
                  repeatingScopes := if Top(s.whiles).repeating then Pop(s.repeatingScopes) else s.repeatingScopes))
  {
    CountPositive(s.scopes);
    assert s.scopes == Pop(s.scopes) + [WhileScope];
    assert s.whiles == Pop(s.whiles) + [Top(s.whiles)];
    RepeatingKindsPushWhile(Pop(s.scopes), Pop(s.whiles), s.repeats, Top(s.whiles));
    CountPush(Pop(s.scopes), WhileScope, IfScope);
    CountPush(Pop(s.scopes), WhileScope, WhileScope);
    CountPush(Pop(s.scopes), WhileScope, RepeatScope);
    CountPush(Pop(s.scopes), WhileScope, FunctionScope);
    assert IdsOk(s);
  }

  lemma PopRepeatWf(s: State)
    requires Wf(s) && |s.scopes| > 0 && Top(s.scopes) == RepeatScope
    ensures |s.repeats| > 0 && (Top(s.repeats).repeating ==> |s.repeatingScopes| > 0)
    ensures Wf(s.(scopes := Pop(s.scopes), repeats := Pop(s.repeats),
                  repeatingScopes := if Top(s.repeats).repeating then Pop(s.repeatingScopes) else s.repeatingScopes))
  {
    CountPositive(s.scopes);
    assert s.scopes == Pop(s.scopes) + [RepeatScope];
    assert s.repeats == Pop(s.repeats) + [Top(s.repeats)];
    RepeatingKindsPushRepeat(Pop(s.scopes), s.whiles, Pop(s.repeats), Top(s.repeats));
    CountPush(Pop(s.scopes), RepeatScope, IfScope);
    CountPush(Pop(s.scopes), RepeatScope, WhileScope);
    CountPush(Pop(s.scopes), RepeatScope, RepeatScope);
    CountPush(Pop(s.scopes), RepeatScope, FunctionScope);
    assert IdsOk(s);
  }

  /** Pops the top while with its scope and, if it was replaying, its replaying entry. */
  function EndWhile(s: State): (r: State)
    requires |s.scopes| > 0 && Top(s.scopes) == WhileScope && |s.whiles| > 0
    ensures r.halt == s.halt || r.halt == Crashed
    ensures r.halt != Crashed ==> r.scopes == Pop(s.scopes) && r.whiles == Pop(s.whiles)
    ensures Wf(s) ==> Wf(r) && r.halt == s.halt
    ensures r.ifs == s.ifs && r.repeats == s.repeats && r.defs == s.defs && r.vars == s.vars
    ensures r.functions == s.functions && r.performed == s.performed && r.interrupted == s.interrupted
  {
    if Top(s.whiles).repeating && |s.repeatingScopes| == 0 then s.(halt := Crashed)
    else
      if Wf(s) then PopWhileWf(s); EndWhileStep(s) else EndWhileStep(s)
  }

  function EndWhileStep(s: State): State
    requires |s.scopes| > 0 && |s.whiles| > 0
    requires Top(s.whiles).repeating ==> |s.repeatingScopes| > 0
  {
    s.(scopes := Pop(s.scopes), whiles := Pop(s.whiles),
       repeatingScopes := if Top(s.whiles).repeating then Pop(s.repeatingScopes) else s.repeatingScopes)
  }

  /** A while that was only capturing starts replaying: its flag is set and its kind joins the replaying stack. */
  function StartWhile(s: State): (r: State)
    requires |s.scopes| > 0 && Top(s.scopes) == WhileScope && |s.whiles| > 0 && !Top(s.whiles).repeating
    ensures r.repeatingScopes == s.repeatingScopes + [WhileScope]
    ensures |r.whiles| == |s.whiles| && Pop(r.whiles) == Pop(s.whiles)
    ensures Top(r.whiles) == Top(s.whiles).(repeating := true)
    ensures r == s.(whiles := r.whiles, repeatingScopes := r.repeatingScopes)
    ensures Wf(s) ==> Wf(r)
  {
    var w := Top(s.whiles);
    var w' := w.(repeating := true);
    var r := s.(whiles := Pop(s.whiles) + [w'], repeatingScopes := s.repeatingScopes + [WhileScope]);
    assert Pop(r.whiles) == Pop(s.whiles);
    if Wf(s) then StartWhileWf(s, w'); r else r
  }

  lemma StartWhileWf(s: State, w': WhileStats)
    requires Wf(s) && |s.scopes| > 0 && Top(s.scopes) == WhileScope && |s.whiles| > 0
    requires !Top(s.whiles).repeating && w'.id == Top(s.whiles).id && w'.repeating
    ensures Wf(s.(whiles := Pop(s.whiles) + [w'], repeatingScopes := s.repeatingScopes + [WhileScope]))
  {
    var w := Top(s.whiles);
    var r := s.(whiles := Pop(s.whiles) + [w'], repeatingScopes := s.repeatingScopes + [WhileScope]);
    assert s.scopes == Pop(s.scopes) + [WhileScope];
    assert s.whiles == Pop(s.whiles) + [w];
    RepeatingKindsPushWhile(Pop(s.scopes), Pop(s.whiles), s.repeats, w);
    RepeatingKindsPushWhile(Pop(s.scopes), Pop(s.whiles), s.repeats, w');
    assert forall i :: 0 <= i < |r.whiles| ==> r.whiles[i].id == s.whiles[i].id;
    assert IdsOk(s);
  }

  /**
   * `closeWhile`: the stored opening line is evaluated again. When it holds
   * and the gate is open a non-replaying while starts replaying (the answer is
   * true, so the caller replays it) and a replaying one carries on; otherwise
   * the while ends.
   */
  function CloseWhile(cond: Cond, s: State): (r: (State, bool))
    requires |s.scopes| > 0 && Top(s.scopes) == WhileScope
    ensures r.1 ==> |s.whiles| > 0 && !Top(s.whiles).repeating && r.0.halt == s.halt
                    && r.0 == StartWhile(s)
    ensures Wf(s) ==> Inv(r.0)
    ensures r.0.halt != s.halt ==> r.0.halt == Crashed
    ensures r.0.ifs == s.ifs && r.0.repeats == s.repeats && r.0.defs == s.defs
    ensures r.0.vars == s.vars && r.0.functions == s.functions && r.0.performed == s.performed
    ensures |s.whiles| > 0 && r.0.halt != Crashed ==>
      var b := EvalCondition(cond, s, Top(s.whiles).condition, "solange").1;
      (b && Gate(s) ==> r.0.scopes == s.scopes && |r.0.whiles| == |s.whiles|)
      && (!(b && Gate(s)) ==> r.0.scopes == Pop(s.scopes) && r.0.whiles == Pop(s.whiles) && !r.1)
  {
    if |s.whiles| == 0 then (s.(halt := Crashed), false)
    else
      var w := Top(s.whiles);
      var (s1, b) := EvalCondition(cond, s, w.condition, "solange");
      if s1.halt == Crashed then (s1, false)
      else if b && Gate(s1) then
        if !w.repeating then (StartWhile(s1), true) else (s1, false)
      else
        if Wf(s) then SameStacksWf(s, s1); (EndWhile(s1), false)
        else (EndWhile(s1), false)
  }

  /** Pops the top repeat with its scope and, if it was replaying, its replaying entry. */
  function EndRepeat(s: State): (r: State)
    requires |s.scopes| > 0 && Top(s.scopes) == RepeatScope && |s.repeats| > 0
    ensures r.halt == s.halt || r.halt == Crashed
    ensures r.halt != Crashed ==> r.scopes == Pop(s.scopes) && r.repeats == Pop(s.repeats)
    ensures Wf(s) ==> Wf(r) && r.halt == s.halt
    ensures r.ifs == s.ifs && r.whiles == s.whiles && r.defs == s.defs && r.vars == s.vars
    ensures r.functions == s.functions && r.performed == s.performed && r.interrupted == s.interrupted
    ensures r.message == s.message
  {
    if Top(s.repeats).repeating && |s.repeatingScopes| == 0 then s.(halt := Crashed)
    else
      if Wf(s) then PopRepeatWf(s); EndRepeatStep(s) else EndRepeatStep(s)
  }

  function EndRepeatStep(s: State): State
    requires |s.scopes| > 0 && |s.repeats| > 0
    requires Top(s.repeats).repeating ==> |s.repeatingScopes| > 0
  {
    s.(scopes := Pop(s.scopes), repeats := Pop(s.repeats),
       repeatingScopes := if Top(s.repeats).repeating then Pop(s.repeatingScopes) else s.repeatingScopes)
  }

  /** The repeat goes round once more: one more on the counter, replaying from now on. */
  function ContinueRepeat(s: State): (r: State)
    requires |s.scopes| > 0 && Top(s.scopes) == RepeatScope && |s.repeats| > 0
    ensures |r.repeats| == |s.repeats| && Pop(r.repeats) == Pop(s.repeats)
    ensures Top(r.repeats) == Top(s.repeats).(counter := Top(s.repeats).counter + 1, repeating := true)
    ensures r.repeatingScopes == s.repeatingScopes + (if Top(s.repeats).repeating then [] else [RepeatScope])
    ensures r == s.(repeats := r.repeats, repeatingScopes := r.repeatingScopes)
    ensures Wf(s) ==> Wf(r)
  {
    var f := Top(s.repeats);
    var f' := f.(counter := f.counter + 1, repeating := true);
    var r := s.(repeats := Pop(s.repeats) + [f'],
                repeatingScopes := s.repeatingScopes + (if f.repeating then [] else [RepeatScope]));
    assert Pop(r.repeats) == Pop(s.repeats);
    if Wf(s) then ContinueRepeatWf(s, f'); r else r
  }

  lemma ContinueRepeatWf(s: State, f': RepeatStats)
    requires Wf(s) && |s.scopes| > 0 && Top(s.scopes) == RepeatScope && |s.repeats| > 0
    requires f'.id == Top(s.repeats).id && f'.repeating
    ensures Wf(s.(repeats := Pop(s.repeats) + [f'],
                  repeatingScopes := s.repeatingScopes + (if Top(s.repeats).repeating then [] else [RepeatScope])))
  {
    var f := Top(s.repeats);
    var r := s.(repeats := Pop(s.repeats) + [f'],
                repeatingScopes := s.repeatingScopes + (if f.repeating then [] else [RepeatScope]));
    assert s.scopes == Pop(s.scopes) + [RepeatScope];
    assert s.repeats == Pop(s.repeats) + [f];
    RepeatingKindsPushRepeat(Pop(s.scopes), s.whiles, Pop(s.repeats), f);
    RepeatingKindsPushRepeat(Pop(s.scopes), s.whiles, Pop(s.repeats), f');
    assert forall i :: 0 <= i < |r.repeats| ==> r.repeats[i].id == s.repeats[i].id;
    assert IdsOk(s);
  }

  /**
   * `closeRepeat`: while the counter is below the target and the gate is open
   * the repeat goes on, its counter one higher (a non-replaying repeat starts
   * replaying and the answer is true); otherwise the repeat ends.
   */
  function CloseRepeat(s: State): (r: (State, bool))
    requires |s.scopes| > 0 && Top(s.scopes) == RepeatScope
    ensures Wf(s) ==> Wf(r.0) && r.0.halt == s.halt
    ensures r.0.halt != s.halt ==> r.0.halt == Crashed
    ensures r.0.ifs == s.ifs && r.0.whiles == s.whiles && r.0.defs == s.defs
    ensures r.0.vars == s.vars && r.0.functions == s.functions && r.0.performed == s.performed
    ensures r.0.interrupted == s.interrupted && r.0.message == s.message
    ensures r.1 ==> |s.repeats| > 0 && !Top(s.repeats).repeating && r.0 == ContinueRepeat(s)
    ensures |s.repeats| > 0 && r.0.halt != Crashed ==>
      var f := Top(s.repeats);
      (!f.Complete() && Gate(s) ==> r.0 == ContinueRepeat(s) && r.1 == !f.repeating)
      && (!(!f.Complete() && Gate(s)) ==>
        r.0.scopes == Pop(s.scopes) && r.0.repeats == Pop(s.repeats) && !r.1)
  {
    if |s.repeats| == 0 then (s.(halt := Crashed), false)
    else
      var f := Top(s.repeats);
      if !f.Complete() && Gate(s) then (ContinueRepeat(s), !f.repeating)
      else (EndRepeat(s), false)
  }

  /**
   * `closeFunc`: the definition and its scope are popped and the body it
   * captured (the closing `}` included) is stored under its name, replacing
   * any earlier definition.
   */
  function CloseFunc(s: State): (r: State)
    requires |s.scopes| > 0 && Top(s.scopes) == FunctionScope
    ensures r.halt == s.halt || r.halt == Crashed
    ensures Wf(s) ==> Wf(r) && r.halt == s.halt
    ensures r.halt != Crashed ==>
      |s.defs| > 0 && r.scopes == Pop(s.scopes) && r.defs == Pop(s.defs)
      && r.functions == s.functions[Top(s.defs).name := Top(s.defs).body]
    ensures r.ifs == s.ifs && r.whiles == s.whiles && r.repeats == s.repeats
    ensures r.vars == s.vars && r.performed == s.performed && r.interrupted == s.interrupted
  {
    if |s.defs| == 0 then s.(halt := Crashed)
    else
      var d := Top(s.defs);
      var r := s.(defs := Pop(s.defs), scopes := Pop(s.scopes), functions := s.functions[d.name := d.body]);
      if Wf(s) then
        assert s.scopes == Pop(s.scopes) + [FunctionScope];
        RepeatingKindsPushOther(Pop(s.scopes), s.whiles, s.repeats, FunctionScope);
        CountPush(Pop(s.scopes), FunctionScope, IfScope);
        CountPush(Pop(s.scopes), FunctionScope, WhileScope);
        CountPush(Pop(s.scopes), FunctionScope, RepeatScope);
        CountPush(Pop(s.scopes), FunctionScope, FunctionScope);
        r
      else r
  }
}

=== FILE: blockly_state.dfy ===
/**
 * The state of the block-language interpreter (`Server.java`): the scope
 * stack kept in lockstep with the if/while/repeat/function stacks, the stack
 * of replaying loop kinds, the global variable and function tables and the
 * shared interrupt/error/message flags.
 *
 * Java keeps the loop frames as objects and `repeatHook` holds on to one while
 * it replays it; each while and repeat frame therefore carries an `id`, drawn
 * from `nextId`, that stands for that object's identity.
 */
module BlocklyState {
  import JavaInt

  /** A variable: a scalar ("base") or an int array ("array"). */
  datatype Value = Base(n: int) | Array(elems: seq<int>)

  /** The entries of `active_scopes` and `currently_repeating_scope`. */
  datatype Kind = IfScope | WhileScope | RepeatScope | FunctionScope

  datatype IfStats = IfStats(ifFlag: bool, elseFlag: bool) {
    /** An if lets actions run in its then-part when its condition held and in its else-part when it did not. */
    predicate ExecuteAction() { ifFlag || elseFlag }
  }

  /** `condition` is the whole opening line; `conditionResult` its value on entry. */
  datatype WhileStats = WhileStats(
    id: nat, condition: string, conditionResult: bool, body: seq<string>, repeating: bool)

  datatype RepeatStats = RepeatStats(
    id: nat, target: int, counter: int, body: seq<string>, repeating: bool)
  {
    /** `evalRepeatComplete`: the loop is done once the counter has reached the target. */
    predicate Complete() { counter >= target }
  }

  datatype FuncStats = FuncStats(name: string, body: seq<string>)

  /** The moves and fireballs `performAction` hands to the game. */
  datatype Leaf =
    | Up | Down | Left | Right
    | FireballUp | FireballDown | FireballLeft | FireballRight

  /**
   * `Crashed`: an exception escaped `processAction` and ended the request.
   * `OutOfFuel`: the model's recursion bound ran out (the program may loop forever).
   */
  datatype Halt = Running | Crashed | OutOfFuel

  datatype State = State(
    scopes: seq<Kind>,
    repeatingScopes: seq<Kind>,
    ifs: seq<IfStats>,
    whiles: seq<WhileStats>,
    repeats: seq<RepeatStats>,
    defs: seq<FuncStats>,
    vars: map<string, Value>,
    functions: map<string, seq<string>>,
    interrupted: bool,
    errored: bool,
    message: string,
    nextId: nat,
    performed: seq<Leaf>,
    halt: Halt)

  /** The repeat counter a fresh `RepeatStats` starts from. */
  const INITIAL_COUNTER: int := 1

  /** Stacks keep their top at the end. */
  function Top<T>(xs: seq<T>): T
    requires |xs| > 0
  {
    xs[|xs| - 1]
  }

  function Pop<T>(xs: seq<T>): seq<T>
    requires |xs| > 0
  {
    xs[..|xs| - 1]
  }

  function CountKind(ks: seq<Kind>, k: Kind): nat
  {
    if |ks| == 0 then 0 else CountKind(Pop(ks), k) + (if Top(ks) == k then 1 else 0)
  }

  /**
   * The kinds of the replaying frames, in scope order: walking the scope stack
   * from the top, a while (repeat) entry stands for the topmost while (repeat)
   * frame not yet accounted for.
   */
  function RepeatingKinds(scopes: seq<Kind>, whiles: seq<WhileStats>, repeats: seq<RepeatStats>): seq<Kind>
  {
    if |scopes| == 0 then []
    else
      match Top(scopes)
      case WhileScope =>
        if |whiles| == 0 then []
        else
          var below := RepeatingKinds(Pop(scopes), Pop(whiles), repeats);
          below + (if Top(whiles).repeating then [WhileScope] else [])
      case RepeatScope =>
        if |repeats| == 0 then []
        else
          var below := RepeatingKinds(Pop(scopes), whiles, Pop(repeats));
          below + (if Top(repeats).repeating then [RepeatScope] else [])
      case _ => RepeatingKinds(Pop(scopes), whiles, repeats)
  }

  /** Values Java can hold: 32-bit scalars and arrays no longer than `Integer.MAX_VALUE`. */
  predicate ValueOk(v: Value) {
    match v
    case Base(n) => JavaInt.IsInt32(n)
    case Array(e) => |e| <= JavaInt.MAX_INT && forall i :: 0 <= i < |e| ==> JavaInt.IsInt32(e[i])
  }

  predicate VarsOk(vars: map<string, Value>) {
    forall x :: x in vars ==> ValueOk(vars[x])
  }

  predicate IdsOk(s: State) {
    (forall i :: 0 <= i < |s.whiles| ==> s.whiles[i].id < s.nextId)
    && (forall i :: 0 <= i < |s.repeats| ==> s.repeats[i].id < s.nextId)
    && (forall i, j :: 0 <= i < j < |s.whiles| ==> s.whiles[i].id != s.whiles[j].id)
    && (forall i, j :: 0 <= i < j < |s.repeats| ==> s.repeats[i].id != s.repeats[j].id)
  }

  /**
   * The interpreter's invariant: the scope stack holds one entry per frame of
   * each kind, the replaying stack lists the replaying frames in scope order,
   * frame identities are distinct, and every variable holds a Java value.
   */
  predicate Wf(s: State) {
    CountKind(s.scopes, IfScope) == |s.ifs|
    && CountKind(s.scopes, WhileScope) == |s.whiles|
    && CountKind(s.scopes, RepeatScope) == |s.repeats|
    && CountKind(s.scopes, FunctionScope) == |s.defs|
    && s.repeatingScopes == RepeatingKinds(s.scopes, s.whiles, s.repeats)
    && IdsOk(s)
    && VarsOk(s.vars)
  }

  /** What the model carries from step to step: a crash ends the request, whatever the stacks hold. */
  predicate Inv(s: State) {
    s.halt == Crashed || Wf(s)
  }

  // Lemmas about the stack bookkeeping.

  lemma CountPush(ks: seq<Kind>, k: Kind, j: Kind)
    ensures CountKind(ks + [k], j) == CountKind(ks, j) + (if k == j then 1 else 0)
  {
    assert Pop(ks + [k]) == ks;
  }

  lemma CountPositive(ks: seq<Kind>)
    requires |ks| > 0
    ensures CountKind(ks, Top(ks)) > 0
  {
  }

  predicate SameFlags(a: seq<WhileStats>, b: seq<WhileStats>) {
    |a| == |b| && forall i :: 0 <= i < |a| ==> a[i].repeating == b[i].repeating
  }

  predicate SameRepeatFlags(a: seq<RepeatStats>, b: seq<RepeatStats>) {
    |a| == |b| && forall i :: 0 <= i < |a| ==> a[i].repeating == b[i].repeating
  }

  /** Only the replaying flags of the frames matter to `RepeatingKinds`. */
  lemma {:induction false} RepeatingKindsFlags(
    scopes: seq<Kind>, w1: seq<WhileStats>, w2: seq<WhileStats>,
    r1: seq<RepeatStats>, r2: seq<RepeatStats>)
    requires SameFlags(w1, w2) && SameRepeatFlags(r1, r2)
    ensures RepeatingKinds(scopes, w1, r1) == RepeatingKinds(scopes, w2, r2)
    decreases |scopes|
  {
    if |scopes| > 0 {
      match Top(scopes)
      case WhileScope =>
        if |w1| > 0 {
          assert Top(w1).repeating == Top(w2).repeating;
          RepeatingKindsFlags(Pop(scopes), Pop(w1), Pop(w2), r1, r2);
        }
      case RepeatScope =>
        if |r1| > 0 {
          assert Top(r1).repeating == Top(r2).repeating;
          RepeatingKindsFlags(Pop(scopes), w1, w2, Pop(r1), Pop(r2));
        }
      case _ =>
        RepeatingKindsFlags(Pop(scopes), w1, w2, r1, r2);
    }
  }

  lemma RepeatingKindsPushWhile(scopes: seq<Kind>, whiles: seq<WhileStats>, repeats: seq<RepeatStats>, w: WhileStats)
    ensures RepeatingKinds(scopes + [WhileScope], whiles + [w], repeats)
      == RepeatingKinds(scopes, whiles, repeats) + (if w.repeating then [WhileScope] else [])
  {
    assert Pop(scopes + [WhileScope]) == scopes;
    assert Pop(whiles + [w]) == whiles;
  }

  lemma RepeatingKindsPushRepeat(scopes: seq<Kind>, whiles: seq<WhileStats>, repeats: seq<RepeatStats>, r: RepeatStats)
    ensures RepeatingKinds(scopes + [RepeatScope], whiles, repeats + [r])
      == RepeatingKinds(scopes, whiles, repeats) + (if r.repeating then [RepeatScope] else [])
  {
    assert Pop(scopes + [RepeatScope]) == scopes;
    assert Pop(repeats + [r]) == repeats;
  }

  lemma RepeatingKindsPushOther(scopes: seq<Kind>, whiles: seq<WhileStats>, repeats: seq<RepeatStats>, k: Kind)
    requires k == IfScope || k == FunctionScope
    ensures RepeatingKinds(scopes + [k], whiles, repeats) == RepeatingKinds(scopes, whiles, repeats)
  {
    assert Pop(scopes + [k]) == scopes;
  }

  /** The repeating stack is never longer than the scope stack. */
  lemma {:induction false} RepeatingKindsShorter(scopes: seq<Kind>, whiles: seq<WhileStats>, repeats: seq<RepeatStats>)
    ensures |RepeatingKinds(scopes, whiles, repeats)| <= |scopes|
    decreases |scopes|
  {
    if |scopes| > 0 {
      match Top(scopes)
      case WhileScope =>
        if |whiles| > 0 { RepeatingKindsShorter(Pop(scopes), Pop(whiles), repeats); }
      case RepeatScope =>
        if |repeats| > 0 { RepeatingKindsShorter(Pop(scopes), whiles, Pop(repeats)); }
      case _ =>
        RepeatingKindsShorter(Pop(scopes), whiles, repeats);
    }
  }

  // Shared operations on the state.

  /** `setError`: stop the run and report `msg`. */
  function SetError(s: State, msg: string): (r: State)
    ensures r.interrupted && r.errored && r.message == msg
    ensures Wf(s) ==> Wf(r)
  {
    s.(interrupted := true, errored := true, message := msg)
  }

  /** `clearGlobalValues`: every stack and table emptied and the flags reset. */
  function Clear(s: State): (r: State)
    ensures Wf(r)
    ensures r.scopes == [] && r.repeatingScopes == [] && r.ifs == [] && r.whiles == []
    ensures r.repeats == [] && r.defs == [] && r.vars == map[] && r.functions == map[]
    ensures !r.interrupted && !r.errored && r.message == ""
    ensures r.performed == s.performed && r.halt == s.halt
  {
    s.(scopes := [], repeatingScopes := [], ifs := [], whiles := [], repeats := [], defs := [],
       vars := map[], functions := map[], interrupted := false, errored := false, message := "")
  }

  /** A freshly started interpreter. */
  function Initial(): (r: State)
    ensures Wf(r) && r.halt == Running && r.performed == []
  {
    Clear(State([], [], [], [], [], [], map[], map[], false, false, "", 0, [], Running))
  }

  /**
   * `evalActionsExecute`: writes, calls and moves are allowed only when every
   * open if allows them, every open while was entered with a true condition,
   * and no function definition is open.
   */
  predicate Gate(s: State) {
    (forall i :: 0 <= i < |s.ifs| ==> s.ifs[i].ExecuteAction())
    && (forall i :: 0 <= i < |s.whiles| ==> s.whiles[i].conditionResult)
    && |s.defs| == 0
  }
}

=== FILE: blockly_text.dfy ===
/**
 * The text layer of the block-language interpreter: the character classes and
 * regular expressions `Server.java` matches lines against, Java's
 * `Integer.parseInt`, `String.trim` and `String.split("\n")`.
 *
 * Every pattern the interpreter uses is a fixed sequence of tokens, each of
 * which consumes a maximal run or a literal, and each run is followed by a
 * literal that cannot continue it. Java's backtracking matcher therefore has
 * exactly one way to match at a given start, the greedy one, which is what
 * `MatchTokens` computes; `Find` adds `Matcher.find()`'s leftmost-start scan.
 */
module BlocklyText {
  import opened Outcome
  import JavaInt
  import opened Decimal

  /** `\w` in Java's default (ASCII) mode. */
  predicate IsWordChar(c: char) {
    'a' <= c <= 'z' || 'A' <= c <= 'Z' || IsDigit(c) || c == '_'
  }

  /** The characters `.` does not match without DOTALL. */
  predicate IsLineTerminator(c: char) {
    c == '\n' || c == '\r' || c == '\U{0085}' || c == '\U{2028}' || c == '\U{2029}'
  }

  predicate AllWordChars(x: string) { forall i :: 0 <= i < |x| ==> IsWordChar(x[i]) }

  predicate StartsAt(s: string, p: nat, t: string) {
    p + |t| <= |s| && s[p..p + |t|] == t
  }

  /** The end of the longest run of characters satisfying `f` that starts at `p`. */
  function RunEnd(s: string, p: nat, f: char -> bool): (r: nat)
    requires p <= |s|
    ensures p <= r <= |s|
    ensures forall i :: p <= i < r ==> f(s[i])
    ensures r == |s| || !f(s[r])
    decreases |s| - p
  {
    if p < |s| && f(s[p]) then RunEnd(s, p + 1, f) else p
  }

  /** The last position in `[lo, hi)` holding `c`, if any. */
  function LastIndexOf(s: string, lo: nat, hi: nat, c: char): (r: Option<nat>)
    requires lo <= hi <= |s|
    ensures r.Some? ==> lo <= r.value < hi && s[r.value] == c
    ensures r.Some? ==> (forall i :: r.value < i < hi ==> s[i] != c)
    ensures r.None? ==> (forall i :: lo <= i < hi ==> s[i] != c)
    decreases hi
  {
    if lo == hi then None
    else if s[hi - 1] == c then Some(hi - 1)
    else LastIndexOf(s, lo, hi - 1, c)
  }

  /** One element of a pattern. Every token but `Lit` is a capturing group. */
  datatype Token =
    | Lit(text: string)  // a literal
    | Word               // (\w+)
    | Digits             // (\d+)
    | Operand            // (\w+(\[\d+])?(\.length)?)
    | Op                 // (\+|-|\*|/)
    | CondBody           // (.*) when followed by \) : up to the last ')' on the line

  predicate IsOperator(x: string) { x == "+" || x == "-" || x == "*" || x == "/" }

  /** What a piece of text matched by a token looks like. */
  predicate Fits(t: Token, x: string) {
    match t
    case Lit(l) => x == l
    case Word => |x| > 0 && AllWordChars(x)
    case Digits => |x| > 0 && AllDigits(x)
    case Operand => |x| > 0 && IsWordChar(x[0]) && ' ' !in x
    case Op => IsOperator(x)
    case CondBody => forall i :: 0 <= i < |x| ==> !IsLineTerminator(x[i])
  }

  /** `\w+(\[\d+])?(\.length)?` at `p`, each part greedy. */
  function OperandEnd(s: string, p: nat): (e: Option<nat>)
    requires p <= |s|
    ensures e.Some? ==> p < e.value <= |s| && IsWordChar(s[p])
    ensures e.Some? ==> (forall i :: p <= i < e.value ==> s[i] != ' ')
  {
    var w := RunEnd(s, p, IsWordChar);
    if w == p then None
    else
      var a :=
        if w < |s| && s[w] == '[' then
          var d := RunEnd(s, w + 1, IsDigit);
          if d > w + 1 && d < |s| && s[d] == ']' then d + 1 else w
        else w;
      var b := if StartsAt(s, a, ".length") then a + 7 else a;
      assert forall i :: a <= i < b ==> s[i] in ".length";
      Some(b)
  }

  /** Where the token matched at `p` ends, if it matches there. */
  function MatchToken(s: string, p: nat, t: Token): (e: Option<nat>)
    requires p <= |s|
    ensures e.Some? ==> p <= e.value <= |s| && Fits(t, s[p..e.value])
  {
    match t
    case Lit(l) => if StartsAt(s, p, l) then Some(p + |l|) else None
    case Word =>
      var w := RunEnd(s, p, IsWordChar);
      if w == p then None else Some(w)
    case Digits =>
      var d := RunEnd(s, p, IsDigit);
      if d == p then None else Some(d)
    case Operand => OperandEnd(s, p)
    case Op =>
      if p < |s| && IsOperator([s[p]]) then Some(p + 1) else None
    case CondBody =>
      var lineEnd := RunEnd(s, p, c => !IsLineTerminator(c));
      match LastIndexOf(s, p, lineEnd, ')')
      case None => None
      case Some(k) => Some(k)
  }

  function Concat(pieces: seq<string>): string
  {
    if |pieces| == 0 then [] else pieces[0] + Concat(pieces[1..])
  }

  lemma ConcatCons(x: string, rest: seq<string>)
    ensures Concat([x] + rest) == x + Concat(rest)
  {
    assert ([x] + rest)[1..] == rest;
  }

  lemma StartsAtAppend(s: string, p: nat, e: nat, t: string)
    requires p <= e <= |s| && StartsAt(s, e, t)
    ensures StartsAt(s, p, s[p..e] + t)
  {
    assert s[p..e + |t|] == s[p..e] + s[e..e + |t|];
  }

  /**
   * The pieces of text the tokens match one after the other starting at `p`;
   * together they spell the matched region of `s`.
   */
  function MatchTokens(s: string, p: nat, ts: seq<Token>): (r: Option<seq<string>>)
    requires p <= |s|
    ensures r.Some? ==> |r.value| == |ts|
    ensures r.Some? ==> (forall i :: 0 <= i < |ts| ==> Fits(ts[i], r.value[i]))
    ensures r.Some? ==> StartsAt(s, p, Concat(r.value))
    decreases |ts|
  {
    if |ts| == 0 then Some([])
    else
      match MatchToken(s, p, ts[0])
      case None => None
      case Some(e) =>
        match MatchTokens(s, e, ts[1..])
        case None => None
        case Some(rest) =>
          ConcatCons(s[p..e], rest);
          StartsAtAppend(s, p, e, Concat(rest));
          Some([s[p..e]] + rest)
  }

  /** `Matcher.find()` from position `start`: the leftmost start of a match. */
  function FindFrom(s: string, start: nat, ts: seq<Token>): (r: Option<nat>)
    requires start <= |s|
    ensures r.Some? ==> start <= r.value <= |s| && MatchTokens(s, r.value, ts).Some?
    decreases |s| - start
  {
    if MatchTokens(s, start, ts).Some? then Some(start)
    else if start == |s| then None
    else FindFrom(s, start + 1, ts)
  }

  /** No match starts between `start` and the position `find` reports. */
  lemma {:induction false} FindFromLeftmost(s: string, start: nat, ts: seq<Token>, p: nat)
    requires start <= p <= |s|
    requires FindFrom(s, start, ts).None? || p < FindFrom(s, start, ts).value
    ensures MatchTokens(s, p, ts).None?
    decreases |s| - start
  {
    if p > start {
      FindFromLeftmost(s, start + 1, ts, p);
    }
  }

  /** The groups of the first match of the pattern in `s`, one piece per token. */
  function Find(s: string, ts: seq<Token>): (r: Option<seq<string>>)
    ensures r.Some? ==> |r.value| == |ts|
    ensures r.Some? <==> (exists p: nat :: p <= |s| && MatchTokens(s, p, ts).Some?)
  {
    match FindFrom(s, 0, ts)
    case None =>
      assert forall p: nat :: p <= |s| ==> MatchTokens(s, p, ts).None? by {
        forall p: nat | p <= |s| ensures MatchTokens(s, p, ts).None? {
          FindFromLeftmost(s, 0, ts, p);
        }
      }
      None
    case Some(start) =>
      assert MatchTokens(s, start, ts).Some?;
      MatchTokens(s, start, ts)
  }

  /** Java's `String.contains`. */
  predicate Contains(s: string, t: string) {
    Find(s, [Lit(t)]).Some?
  }

  lemma ContainsMeans(s: string, t: string)
    ensures Contains(s, t) <==> (exists p: nat :: p <= |s| && StartsAt(s, p, t))
  {
    if Contains(s, t) {
      var p: nat :| p <= |s| && MatchTokens(s, p, [Lit(t)]).Some?;
      assert StartsAt(s, p, t);
    } else {
      forall p: nat | p <= |s| ensures !StartsAt(s, p, t) {
        assert MatchTokens(s, p, [Lit(t)]).None?;
      }
    }
  }

  // The patterns of Server.java, group for group.
  /** `(\w+)\[(\d+)]` */
  const INDEXED: seq<Token> := [Word, Lit("["), Digits, Lit("]")]
  /** `(\w+)\.length` */
  const LENGTH: seq<Token> := [Word, Lit(".length")]
  /** `int\[] (\w+) = new int\[(\d+)]` */
  const ARRAY_CREATE: seq<Token> := [Lit("int[] "), Word, Lit(" = new int["), Digits, Lit("]")]
  /** `((\w+)\[(\d+)]) = OPERAND (\+|-|\*|/) OPERAND` */
  const ARRAY_ASSIGN_OP: seq<Token> :=
    [Word, Lit("["), Digits, Lit("] = "), Operand, Lit(" "), Op, Lit(" "), Operand]
  /** `((\w+)\[(\d+)]) = OPERAND` */
  const ARRAY_ASSIGN: seq<Token> := [Word, Lit("["), Digits, Lit("] = "), Operand]
  /** `int (\w+) = OPERAND (\+|-|\*|/) OPERAND` */
  const ASSIGN_OP: seq<Token> :=
    [Lit("int "), Word, Lit(" = "), Operand, Lit(" "), Op, Lit(" "), Operand]
  /** `int (\w+) = OPERAND` */
  const ASSIGN: seq<Token> := [Lit("int "), Word, Lit(" = "), Operand]
  /** `int (\w+) = (\d+);` */
  const SIMPLE_ASSIGN: seq<Token> := [Lit("int "), Word, Lit(" = "), Digits, Lit(";")]
  /** `wiederhole (\w+) Mal` */
  const REPEAT_OPEN: seq<Token> := [Lit("wiederhole "), Word, Lit(" Mal")]
  /** `public void (\w+)\(\)` */
  const FUNC_DEF: seq<Token> := [Lit("public void "), Word, Lit("()")]
  /** `(\w+)\(\)` */
  const CALL: seq<Token> := [Word, Lit("()")]

  /** `falls \((.*)\)` or `solange \((.*)\)`: the condition text is piece 1. */
  function ConditionPattern(keyword: string): seq<Token> {
    [Lit(keyword + " ("), CondBody, Lit(")")]
  }

  /**
   * The plain-literal assignment pattern is never the first to match: any line
   * it matches is already matched by the single-operand assignment pattern,
   * which the interpreter tries before it.
   */
  lemma {:induction false} SimpleAssignShadowed(s: string)
    ensures Find(s, SIMPLE_ASSIGN).Some? ==> Find(s, ASSIGN).Some?
  {
    if Find(s, SIMPLE_ASSIGN).Some? {
      var p: nat :| p <= |s| && MatchTokens(s, p, SIMPLE_ASSIGN).Some?;
      SimpleImpliesAssignAt(s, p);
    }
  }

  lemma SimpleImpliesAssignAt(s: string, p: nat)
    requires p <= |s|
    requires MatchTokens(s, p, SIMPLE_ASSIGN).Some?
    ensures MatchTokens(s, p, ASSIGN).Some?
  {
    var e0 := MatchToken(s, p, Lit("int ")).value;
    var e1 := MatchToken(s, e0, Word).value;
    var e2 := MatchToken(s, e1, Lit(" = ")).value;
    var e3 := MatchToken(s, e2, Digits).value;
    assert SIMPLE_ASSIGN[1..][1..][1..] == [Digits, Lit(";")];
    assert IsDigit(s[e2]);
    assert OperandEnd(s, e2).Some?;
    assert ASSIGN[1..][1..][1..] == [Operand];
    assert MatchTokens(s, e2, [Operand]).Some?;
  }

  // Where the patterns match on the operand forms a program writes.

  lemma RunEndAt(s: string, p: nat, q: nat, f: char -> bool)
    requires p <= q <= |s|
    requires forall i :: p <= i < q ==> f(s[i])
    requires q == |s| || !f(s[q])
    ensures RunEnd(s, p, f) == q
    decreases q - p
  {
    if p < q { RunEndAt(s, p + 1, q, f); }
  }

  lemma {:induction false} ConcatHas(pieces: seq<string>, k: nat, c: char)
    requires k < |pieces| && c in pieces[k]
    ensures c in Concat(pieces)
    decreases k
  {
    if k > 0 { ConcatHas(pieces[1..], k - 1, c); }
  }

  /** A pattern with a literal character the text lacks finds nothing in it. */
  lemma {:induction false} FindNeedsChar(s: string, ts: seq<Token>, k: nat, c: char)
    requires k < |ts| && ts[k].Lit? && c in ts[k].text && c !in s
    ensures Find(s, ts).None?
  {
    if Find(s, ts).Some? {
      var p: nat :| p <= |s| && MatchTokens(s, p, ts).Some?;
      var pieces := MatchTokens(s, p, ts).value;
      assert Fits(ts[k], pieces[k]);
      ConcatHas(pieces, k, c);
    }
  }

  lemma MatchTokensStep(s: string, p: nat, t: Token, rest: seq<Token>, e: nat, pieces: seq<string>)
    requires p <= |s|
    requires MatchToken(s, p, t) == Some(e) && MatchTokens(s, e, rest) == Some(pieces)
    ensures MatchTokens(s, p, [t] + rest) == Some([s[p..e]] + pieces)
  {
    assert ([t] + rest)[0] == t && ([t] + rest)[1..] == rest;
  }

  /** The first match of a pattern that matches at the very start is that match. */
  lemma FindAtStart(s: string, ts: seq<Token>)
    requires MatchTokens(s, 0, ts).Some?
    ensures Find(s, ts) == MatchTokens(s, 0, ts)
  {
  }

  /** `name[digits]` is read as exactly that array element. */
  lemma FindIndexed(name: string, digits: string)
    requires |name| > 0 && AllWordChars(name) && |digits| > 0 && AllDigits(digits)
    ensures Find(name + "[" + digits + "]", INDEXED) == Some([name, "[", digits, "]"])
  {
    var s := name + "[" + digits + "]";
    var w := |name|;
    var d := w + 1 + |digits|;
    assert s[..w] == name && s[w..w + 1] == "[" && s[w + 1..d] == digits && s[d..d + 1] == "]";
    IndexClose(s, w + 1, digits);
    IndexOpen(s, w, digits);
    IndexName(s, name, digits);
    FindAtStart(s, INDEXED);
  }

  lemma IndexClose(s: string, q: nat, digits: string)
    requires |digits| > 0 && AllDigits(digits)
    requires q + |digits| + 1 <= |s| && s[q..q + |digits|] == digits && s[q + |digits|] == ']'
    ensures MatchTokens(s, q, [Digits, Lit("]")]) == Some([digits, "]"])
  {
    var d := q + |digits|;
    assert s[d..d + 1] == "]";
    RunEndAt(s, q, d, IsDigit);
    MatchTokensStep(s, d, Lit("]"), [], d + 1, []);
    assert [Lit("]")] + [] == [Lit("]")] && [s[d..d + 1]] + [] == ["]"];
    MatchTokensStep(s, q, Digits, [Lit("]")], d, ["]"]);
    assert [Digits] + [Lit("]")] == [Digits, Lit("]")] && [s[q..d]] + ["]"] == [digits, "]"];
  }

  lemma IndexOpen(s: string, w: nat, digits: string)
    requires w < |s| && s[w] == '['
    requires MatchTokens(s, w + 1, [Digits, Lit("]")]) == Some([digits, "]"])
    ensures MatchTokens(s, w, [Lit("["), Digits, Lit("]")]) == Some(["[", digits, "]"])
  {
    assert s[w..w + 1] == "[";
    MatchTokensStep(s, w, Lit("["), [Digits, Lit("]")], w + 1, [digits, "]"]);
    assert [Lit("[")] + [Digits, Lit("]")] == [Lit("["), Digits, Lit("]")];
    assert [s[w..w + 1]] + [digits, "]"] == ["[", digits, "]"];
  }

  lemma IndexName(s: string, name: string, digits: string)
    requires |name| > 0 && AllWordChars(name)
    requires |name| < |s| && s[..|name|] == name && s[|name|] == '['
    requires MatchTokens(s, |name|, [Lit("["), Digits, Lit("]")]) == Some(["[", digits, "]"])
    ensures MatchTokens(s, 0, INDEXED) == Some([name, "[", digits, "]"])
  {
    var w := |name|;
    forall i | 0 <= i < w ensures IsWordChar(s[i]) {
      assert s[i] == s[..w][i];
    }
    assert !IsWordChar(s[w]);
    RunEndAt(s, 0, w, IsWordChar);
    MatchTokensStep(s, 0, Word, [Lit("["), Digits, Lit("]")], w, ["[", digits, "]"]);
    assert [s[..w]] + ["[", digits, "]"] == [name, "[", digits, "]"];
    assert s[0..w] == s[..w];
    assert [Word] + [Lit("["), Digits, Lit("]")] == INDEXED;
  }

  /** `name.length` is read as the length of `name` and never as an element. */
  lemma FindLength(name: string)
    requires |name| > 0 && AllWordChars(name)
    ensures Find(name + ".length", INDEXED).None?
    ensures Find(name + ".length", LENGTH) == Some([name, ".length"])
  {
    var s := name + ".length";
    var w := |name|;
    assert '[' !in s by {
      assert forall i :: 0 <= i < w ==> s[i] == name[i] && IsWordChar(s[i]);
    }
    FindNeedsChar(s, INDEXED, 1, '[');
    assert s[..w] == name && s[w..w + 7] == ".length";
    RunEndAt(s, 0, w, IsWordChar);
    MatchTokensStep(s, w, Lit(".length"), [], w + 7, []);
    assert [Lit(".length")] + [] == [Lit(".length")] && [s[w..w + 7]] + [] == [".length"];
    MatchTokensStep(s, 0, Word, [Lit(".length")], w, [".length"]);
    assert s[0..w] == s[..w];
    assert [s[..w]] + [".length"] == [name, ".length"];
    assert [Word] + [Lit(".length")] == LENGTH;
    FindAtStart(s, LENGTH);
  }

  /** `name();` calls `name`. */
  lemma FindCall(name: string)
    requires |name| > 0 && AllWordChars(name)
    ensures Find(name + "();", CALL) == Some([name, "()"])
  {
    var s := name + "();";
    var w := |name|;
    assert s[..w] == name && s[w..w + 2] == "()";
    RunEndAt(s, 0, w, IsWordChar);
    MatchTokensStep(s, w, Lit("()"), [], w + 2, []);
    assert [Lit("()")] + [] == [Lit("()")] && [s[w..w + 2]] + [] == ["()"];
    MatchTokensStep(s, 0, Word, [Lit("()")], w, ["()"]);
    assert s[0..w] == s[..w];
    assert [s[..w]] + ["()"] == [name, "()"];
    assert [Word] + [Lit("()")] == CALL;
    FindAtStart(s, CALL);
  }

  /** A bare word is neither an element read nor a length. */
  lemma FindInWord(w: string)
    requires AllWordChars(w)
    ensures Find(w, INDEXED).None? && Find(w, LENGTH).None?
  {
    assert '[' !in w && '.' !in w;
    FindNeedsChar(w, INDEXED, 1, '[');
    FindNeedsChar(w, LENGTH, 1, '.');
  }

  // Integer.parseInt and its inverse.

  /** The message of the `NumberFormatException` `Integer.parseInt(text)` throws. */
  function NumberFormatMessage(text: string): string {
    "For input string: \"" + text + "\""
  }

  /**
   * Java's `Integer.parseInt(text)` in base 10: an optional sign and at least
   * one digit, with the value inside the `int` range.
   */
  function ParseInt(text: string): (r: Result<int, string>)
    ensures r.Ok? ==> JavaInt.IsInt32(r.value)
    ensures r.Err? ==> r.error == NumberFormatMessage(text)
  {
    var signed := |text| > 0 && (text[0] == '-' || text[0] == '+');
    var ds := if signed then text[1..] else text;
    if |ds| == 0 || !AllDigits(ds) then Err(NumberFormatMessage(text))
    else
      var magnitude: int := DigitsValue(ds);
      var v := if signed && text[0] == '-' then -magnitude else magnitude;
      if JavaInt.IsInt32(v) then Ok(v) else Err(NumberFormatMessage(text))
  }

  /** Printing then parsing gives the number back. */
  lemma ParseIntOfNatToString(n: nat)
    requires n <= JavaInt.MAX_INT
    ensures ParseInt(NatToString(n)) == Ok(n)
  {
  }

  /** Parsing a string of digits accepts exactly the values in range. */
  lemma ParseIntOfDigits(ds: string)
    requires |ds| > 0 && AllDigits(ds)
    ensures ParseInt(ds).Ok? <==> DigitsValue(ds) <= JavaInt.MAX_INT
    ensures ParseInt(ds).Ok? ==> ParseInt(ds).value == DigitsValue(ds)
  {
    assert !IsDigit('-') && !IsDigit('+');
    assert ds[0] != '-' && ds[0] != '+' by { assert IsDigit(ds[0]); }
  }

  // String.trim and String.split("\n").

  /** `String.trim` removes every leading and trailing character up to U+0020. */
  predicate IsTrimmed(c: char) { c <= ' ' }

  function TrimStart(s: string): (r: nat)
    ensures r <= |s|
    ensures forall i :: 0 <= i < r ==> IsTrimmed(s[i])
    ensures r == |s| || !IsTrimmed(s[r])
  {
    RunEnd(s, 0, IsTrimmed)
  }

  function TrimEnd(s: string, lo: nat): (r: nat)
    requires lo <= |s|
    ensures lo <= r <= |s|
    ensures forall i :: r <= i < |s| ==> IsTrimmed(s[i])
    ensures r == lo || !IsTrimmed(s[r - 1])
    decreases |s| - lo
  {
    if |s| == lo || !IsTrimmed(s[|s| - 1]) then |s|
    else
      var r := TrimEnd(s[..|s| - 1], lo);
      assert forall i :: r <= i < |s| - 1 ==> s[..|s| - 1][i] == s[i];
      r
  }

  /** Java's `String.trim`. */
  function Trim(s: string): (r: string)
    ensures exists a, b :: (0 <= a <= b <= |s| && r == s[a..b]
      && (forall i :: 0 <= i < a ==> IsTrimmed(s[i]))
      && (forall i :: b <= i < |s| ==> IsTrimmed(s[i])))
    ensures |r| > 0 ==> !IsTrimmed(r[0]) && !IsTrimmed(r[|r| - 1])
  {
    var a := TrimStart(s);
    var b := TrimEnd(s, a);
    s[a..b]
  }

  /** The first position at or after `start` holding `c`, if any. */
  function IndexOf(s: string, start: nat, c: char): (r: Option<nat>)
    requires start <= |s|
    ensures r.Some? ==> start <= r.value < |s| && s[r.value] == c
    ensures r.Some? ==> (forall i :: start <= i < r.value ==> s[i] != c)
    ensures r.None? ==> (forall i :: start <= i < |s| ==> s[i] != c)
    decreases |s| - start
  {
    if start == |s| then None
    else if s[start] == c then Some(start)
    else IndexOf(s, start + 1, c)
  }

  /** Splitting at every newline, keeping every piece (empty ones too). */
  function SplitAll(s: string): (r: seq<string>)
    ensures |r| > 0
    ensures forall i :: 0 <= i < |r| ==> '\n' !in r[i]
    decreases |s|
  {
    match IndexOf(s, 0, '\n')
    case None => [s]
    case Some(k) =>
      var rest := SplitAll(s[k + 1..]);
      assert '\n' !in s[..k];
      [s[..k]] + rest
  }

  function JoinLines(pieces: seq<string>): string
    requires |pieces| > 0
  {
    if |pieces| == 1 then pieces[0] else pieces[0] + "\n" + JoinLines(pieces[1..])
  }

  /** Joining the pieces with newlines gives the text back. */
  lemma {:induction false} JoinSplitAll(s: string)
    ensures JoinLines(SplitAll(s)) == s
    decreases |s|
  {
    match IndexOf(s, 0, '\n')
    case None =>
    case Some(k) =>
      JoinSplitAll(s[k + 1..]);
      assert s == s[..k] + "\n" + s[k + 1..];
      assert SplitAll(s)[1..] == SplitAll(s[k + 1..]);
  }

  function DropTrailingEmpty(pieces: seq<string>): (r: seq<string>)
    ensures |r| <= |pieces| && r == pieces[..|r|]
    ensures |r| == 0 || r[|r| - 1] != ""
    ensures forall i :: |r| <= i < |pieces| ==> pieces[i] == ""
  {
    if |pieces| == 0 || pieces[|pieces| - 1] != "" then pieces
    else DropTrailingEmpty(pieces[..|pieces| - 1])
  }

  /**
   * Java's `String.split("\n")`: the pieces between newlines with trailing
   * empty pieces removed, except that text without any newline is returned
   * whole (so the empty text gives one empty line).
   */
  function SplitLines(s: string): (r: seq<string>)
    ensures forall i :: 0 <= i < |r| ==> '\n' !in r[i]
    ensures '\n' !in s ==> r == [s]
    ensures '\n' in s ==> |r| <= |SplitAll(s)| && r == SplitAll(s)[..|r|]
    ensures '\n' in s ==> |r| == 0 || r[|r| - 1] != ""
  {
    if '\n' !in s then [s] else DropTrailingEmpty(SplitAll(s))
  }

  /** Every request line, trimmed. */
  function TrimAll(lines: seq<string>): (r: seq<string>)
    ensures |r| == |lines| && forall i :: 0 <= i < |lines| ==> r[i] == Trim(lines[i])
  {
    if |lines| == 0 then [] else [Trim(lines[0])] + TrimAll(lines[1..])
  }

  /** The first `k + 1` trimmed lines are the first line trimmed, then the first `k` of the rest. */
  lemma TrimAllPrefix(lines: seq<string>, k: nat)
    requires k < |lines| - 1
    ensures TrimAll(lines)[..k + 1][0] == Trim(lines[0])
    ensures TrimAll(lines)[..k + 1][1..] == TrimAll(lines[1..])[..k]
  {
    assert TrimAll(lines) == [Trim(lines[0])] + TrimAll(lines[1..]);
    ConsPrefix(Trim(lines[0]), TrimAll(lines[1..]), k);
  }

  lemma ConsPrefix<T>(x: T, xs: seq<T>, k: nat)
    requires k <= |xs|
    ensures ([x] + xs)[..k + 1][0] == x && ([x] + xs)[..k + 1][1..] == xs[..k]
  {
  }
}

=== FILE: bytes.dfy ===
/** Bytes as the vertex buffer stores them. */
module Bytes {
  /** A value that fits in a byte survives the round trip through `bv8`. */
  lemma ByteValue(n: int)
    requires 0 <= n < 256
    ensures n as bv8 as int == n
  {
  }
}

=== FILE: chunk_grid.dfy ===
/**
 * The 16 x 16 x 16 block grid shared by the game's `LevelChunk` and the
 * demo's `Chunk`: integer vectors, the in-chunk bounds and the linear cell
 * index `(x * 16 + y) * 16 + z` both classes use for their flat buffers.
 */
module ChunkGrid {

  /** JOML's `Vector3i`, compared by value. */
  datatype Vec3 = Vec3(x: int, y: int, z: int)

  const CHUNK_SIZE: int := 16
  const CELLS: int := 4096

  predicate InChunk(x: int, y: int, z: int) {
    0 <= x < CHUNK_SIZE && 0 <= y < CHUNK_SIZE && 0 <= z < CHUNK_SIZE
  }

  /** The slot of cell (x, y, z) in a flat per-cell buffer. */
  function CellIndex(x: int, y: int, z: int): (i: int)
    ensures InChunk(x, y, z) ==> 0 <= i < CELLS
  {
    (x * CHUNK_SIZE + y) * CHUNK_SIZE + z
  }

  /** The cell stored in slot `i`: the inverse of `CellIndex`. */
  function CellOf(i: int): (v: Vec3)
    requires 0 <= i < CELLS
    ensures InChunk(v.x, v.y, v.z) && CellIndex(v.x, v.y, v.z) == i
  {
    Vec3(i / 256, i / 16 % 16, i % 16)
  }

  /** Distinct in-range cells never share a slot. */
  lemma CellIndexInjective(x: int, y: int, z: int, x': int, y': int, z': int)
    requires InChunk(x, y, z) && InChunk(x', y', z')
    requires CellIndex(x, y, z) == CellIndex(x', y', z')
    ensures x == x' && y == y' && z == z'
  {
    var i := CellIndex(x, y, z);
    assert i == x * 256 + y * 16 + z;
    assert i / 256 == x && i % 256 == y * 16 + z;
    assert i / 16 % 16 == y && i % 16 == z;
    assert i == x' * 256 + y' * 16 + z';
    assert i / 256 == x' && i % 256 == y' * 16 + z';
    assert i / 16 % 16 == y' && i % 16 == z';
  }

  lemma CellOfIndex(x: int, y: int, z: int)
    requires InChunk(x, y, z)
    ensures CellOf(CellIndex(x, y, z)) == Vec3(x, y, z)
  {
    var v := CellOf(CellIndex(x, y, z));
    CellIndexInjective(v.x, v.y, v.z, x, y, z);
  }
}

=== FILE: chunk_tree.dfy ===
/**
 * The eight-way tree of loaded chunks of the game level (`LevelChunkTree`).
 *
 * Every node holds a chunk and routes other coordinates to one of eight
 * subtrees by comparing them with its pivot, the coordinates of the chunk it
 * was created for. Deleting a chunk leaves its node in place as a tombstone
 * that still routes. The root of an empty tree is a node without a chunk,
 * with pivot (0, 0, 0).
 */
module ChunkTree {
  import opened Outcome
  import opened ChunkGrid
  import LevelChunks

  type Chunk = LevelChunks.LevelChunk

  function Pos(c: Chunk): Vec3 { Vec3(c.x, c.y, c.z) }

  datatype Tree = Nil | Node(chunk: Option<Chunk>, pivot: Vec3, deleted: bool, subs: seq<Tree>)

  /** Every node has its eight subtree slots. */
  predicate Wf(t: Tree) {
    t.Node? ==> |t.subs| == 8 && forall i :: 0 <= i < 8 ==> Wf(t.subs[i])
  }

  function Nils(): (s: seq<Tree>)
    ensures |s| == 8 && forall i :: 0 <= i < 8 ==> s[i] == Nil
  {
    seq(8, _ => Nil)
  }

  /** A tree as `new LevelChunkTree()` makes it. */
  function EmptyRoot(): (t: Tree)
    ensures Wf(t) && t.Node? && t.chunk.None? && !t.deleted
  {
    Node(None, Vec3(0, 0, 0), false, Nils())
  }

  /** A node as `new LevelChunkTree(chunk)` makes it. */
  function Leaf(c: Chunk): (t: Tree)
    ensures Wf(t) && t.Node?
  {
    Node(Some(c), Pos(c), false, Nils())
  }

  /** `index`: the subtree slot for `a` seen from pivot `b`. */
  function Index(a: Vec3, b: Vec3): (i: nat)
    ensures i < 8
  {
    if a.x >= b.x then
      if a.y >= b.y then (if a.z >= b.z then 0 else 1)
      else (if a.z >= b.z then 2 else 3)
    else
      if a.y >= b.y then (if a.z >= b.z then 4 else 5)
      else (if a.z >= b.z then 6 else 7)
  }

  /** The slot is a three-bit number: x below the pivot adds 4, y adds 2, z adds 1. */
  lemma IndexBits(a: Vec3, b: Vec3)
    ensures Index(a, b) == (if a.x < b.x then 4 else 0) + (if a.y < b.y then 2 else 0) + (if a.z < b.z then 1 else 0)
  {
  }

  /** A node that answers for `p` itself: live, holding a chunk at `p`. */
  predicate Holds(t: Tree, p: Vec3)
    requires t.Node?
  {
    !t.deleted && t.chunk.Some? && Pos(t.chunk.value) == p
  }

  /** The empty root: live but without a chunk, where every search stops. */
  predicate Vacant(t: Tree)
    requires t.Node?
  {
    !t.deleted && t.chunk.None?
  }

  // The chunks a tree holds, counted once per live node.

  function Own(t: Tree): multiset<Chunk>
    requires t.Node?
  {
    if !t.deleted && t.chunk.Some? then multiset{t.chunk.value} else multiset{}
  }

  function Chunks(t: Tree): multiset<Chunk>
    decreases t, 1
  {
    if t.Nil? then multiset{} else Own(t) + SubChunks(t, |t.subs|)
  }

  /** The chunks of the first `k` subtrees of `t`. */
  function SubChunks(t: Tree, k: nat): multiset<Chunk>
    requires t.Node? && k <= |t.subs|
    decreases t, 0, k
  {
    if k == 0 then multiset{} else SubChunks(t, k - 1) + Chunks(t.subs[k - 1])
  }

  /** Subtrees that agree on their first `k` slots agree on those slots' chunks. */
  lemma {:induction false} SubChunksPrefix(t: Tree, u: Tree, k: nat)
    requires t.Node? && u.Node? && k <= |t.subs| && k <= |u.subs|
    requires forall j :: 0 <= j < k ==> t.subs[j] == u.subs[j]
    ensures SubChunks(t, k) == SubChunks(u, k)
  {
    if k > 0 {
      SubChunksPrefix(t, u, k - 1);
    }
  }

  /** Replacing one subtree replaces its share of the chunks and nothing else. */
  lemma {:induction false} SubChunksUpdate(t: Tree, i: nat, s: Tree, k: nat)
    requires t.Node? && i < k <= |t.subs|
    ensures SubChunks(t.(subs := t.subs[i := s]), k) + Chunks(t.subs[i])
      == SubChunks(t, k) + Chunks(s)
  {
    var t' := t.(subs := t.subs[i := s]);
    if k == i + 1 {
      SubChunksPrefix(t, t', i);
      assert SubChunks(t', k) == SubChunks(t', i) + Chunks(s);
      assert SubChunks(t, k) == SubChunks(t, i) + Chunks(t.subs[i]);
      Swap(SubChunks(t, i), Chunks(s), Chunks(t.subs[i]));
    } else {
      SubChunksUpdate(t, i, s, k - 1);
      assert t'.subs[k - 1] == t.subs[k - 1];
      assert SubChunks(t', k) == SubChunks(t', k - 1) + Chunks(t.subs[k - 1]);
      assert SubChunks(t, k) == SubChunks(t, k - 1) + Chunks(t.subs[k - 1]);
      Shuffle(SubChunks(t', k - 1), SubChunks(t, k - 1), Chunks(t.subs[k - 1]), Chunks(t.subs[i]), Chunks(s));
    }
  }

  /** Multiset union is associative and commutative, stated for the steps above. */
  lemma Shuffle(a: multiset<Chunk>, b: multiset<Chunk>, x: multiset<Chunk>, ci: multiset<Chunk>, cs: multiset<Chunk>)
    requires a + ci == b + cs
    ensures (a + x) + ci == (b + x) + cs
  {
    forall y | true ensures ((a + x) + ci)[y] == ((b + x) + cs)[y] {
      assert (a + ci)[y] == (b + cs)[y];
    }
  }

  lemma Swap(a: multiset<Chunk>, p: multiset<Chunk>, q: multiset<Chunk>)
    ensures (a + p) + q == (a + q) + p
  {
  }

  // The operations.

  /**
   * `insert`: the chunk goes into the empty root, or is ignored when a live
   * node on its path already holds its coordinates, or becomes a new leaf at
   * the end of its path. Tombstones only route.
   */
  function Insert(t: Tree, c: Chunk): (r: Tree)
    requires Wf(t) && t.Node?
    ensures Wf(r) && r.Node? && r.pivot == (if Vacant(t) then Pos(c) else t.pivot)
    decreases t
  {
    if Holds(t, Pos(c)) then t
    else if Vacant(t) then t.(chunk := Some(c), pivot := Pos(c))
    else
      var i := Index(Pos(c), t.pivot);
      var sub := t.subs[i];
      t.(subs := t.subs[i := if sub.Nil? then Leaf(c) else Insert(sub, c)])
  }

  /** `find`: the chunk at `p`, found by following `p`'s path; `None` if the path ends first. */
  function Find(t: Tree, p: Vec3): (r: Option<Chunk>)
    requires Wf(t)
    ensures r.Some? ==> Pos(r.value) == p && r.value in Chunks(t)
  {
    if t.Nil? then None
    else if Holds(t, p) then t.chunk
    else if Vacant(t) then None
    else
      var r := Find(t.subs[Index(p, t.pivot)], p);
      assert r.Some? ==> r.value in Chunks(t) by {
        if r.Some? { SubChunksHas(t, Index(p, t.pivot), |t.subs|); }
      }
      r
  }

  /** `delete`: the live node at `p` on `p`'s path loses its chunk and becomes a tombstone. */
  function Delete(t: Tree, p: Vec3): (r: (Tree, Option<Chunk>))
    requires Wf(t)
    ensures Wf(r.0) && r.0.Node? == t.Node?
    ensures r.1 == Find(t, p)
    ensures r.1.None? ==> r.0 == t
  {
    if t.Nil? then (t, None)
    else if Holds(t, p) then (t.(deleted := true, chunk := None), t.chunk)
    else if Vacant(t) then (t, None)
    else
      var i := Index(p, t.pivot);
      var (s, out) := Delete(t.subs[i], p);
      if out.None? then (t, None) else (t.(subs := t.subs[i := s]), out)
  }

  lemma {:induction false} SubChunksHas(t: Tree, i: nat, k: nat)
    requires t.Node? && i < k <= |t.subs|
    ensures Chunks(t.subs[i]) <= SubChunks(t, k)
  {
    if i < k - 1 {
      SubChunksHas(t, i, k - 1);
    }
  }

  // Properties of insert, find and delete.

  lemma FirstInsertFillsRoot(c: Chunk)
    ensures Insert(EmptyRoot(), c) == Leaf(c)
  {
  }

  /** Inserting coordinates the tree already answers for changes nothing. */
  lemma {:induction false} InsertExistingIsNoOp(t: Tree, c: Chunk)
    requires Wf(t) && t.Node? && Find(t, Pos(c)).Some?
    ensures Insert(t, c) == t
    decreases t
  {
    if !Holds(t, Pos(c)) && !Vacant(t) {
      var i := Index(Pos(c), t.pivot);
      InsertExistingIsNoOp(t.subs[i], c);
      assert t.subs[i := t.subs[i]] == t.subs;
    }
  }

  /** After `insert(c)`, `find` at c's coordinates returns what it found before, or else `c`. */
  lemma {:induction false} FindAfterInsert(t: Tree, c: Chunk)
    requires Wf(t) && t.Node?
    ensures Find(Insert(t, c), Pos(c)) == (if Find(t, Pos(c)).Some? then Find(t, Pos(c)) else Some(c))
    decreases t
  {
    if !Holds(t, Pos(c)) && !Vacant(t) {
      var i := Index(Pos(c), t.pivot);
      if t.subs[i].Node? {
        FindAfterInsert(t.subs[i], c);
      }
    }
  }

  /** Replacing subtree `i` of a node trades that subtree's chunks for the new one's. */
  lemma ChunksUpdate(t: Tree, i: nat, s: Tree)
    requires t.Node? && i < |t.subs|
    ensures Chunks(t.(subs := t.subs[i := s])) + Chunks(t.subs[i]) == Chunks(t) + Chunks(s)
  {
    var t' := t.(subs := t.subs[i := s]);
    SubChunksUpdate(t, i, s, |t.subs|);
    assert Own(t') == Own(t);
    calc {
      Chunks(t') + Chunks(t.subs[i]);
      Own(t) + (SubChunks(t', |t.subs|) + Chunks(t.subs[i]));
      Own(t) + (SubChunks(t, |t.subs|) + Chunks(s));
      Chunks(t) + Chunks(s);
    }
  }

  /** `insert` adds `c` to the tree's chunks exactly when `find` did not know its coordinates. */
  lemma {:induction false} InsertAddsChunk(t: Tree, c: Chunk)
    requires Wf(t) && t.Node?
    ensures Chunks(Insert(t, c)) == Chunks(t) + (if Find(t, Pos(c)).Some? then multiset{} else multiset{c})
    decreases t, 1
  {
    if Holds(t, Pos(c)) {
    } else if Vacant(t) {
      SubChunksSame(t, Insert(t, c), |t.subs|);
    } else {
      InsertDescends(t, c);
    }
  }

  /** The step of `InsertAddsChunk` where `insert` goes on into a subtree slot. */
  lemma {:induction false} InsertDescends(t: Tree, c: Chunk)
    requires Wf(t) && t.Node? && !Holds(t, Pos(c)) && !Vacant(t)
    ensures Chunks(Insert(t, c)) == Chunks(t) + (if Find(t, Pos(c)).Some? then multiset{} else multiset{c})
    decreases t, 0
  {
    var i := Index(Pos(c), t.pivot);
    var sub := t.subs[i];
    var s := if sub.Nil? then Leaf(c) else Insert(sub, c);
    assert Insert(t, c) == t.(subs := t.subs[i := s]);
    var added := if Find(t, Pos(c)).Some? then multiset{} else multiset{c};
    if sub.Node? {
      assert Find(t, Pos(c)) == Find(sub, Pos(c));
      InsertAddsChunk(sub, c);
    } else {
      assert Find(t, Pos(c)) == None;
      NilSubChunks(Leaf(c), 8);
      assert Chunks(s) == multiset{c};
    }
    ChunksUpdate(t, i, s);
    Replace(Chunks(Insert(t, c)), Chunks(sub), Chunks(t), Chunks(s), added);
  }

  /** If `r + old == t + new` and `new == old + added`, then `r == t + added`. */
  lemma Replace(r: multiset<Chunk>, before: multiset<Chunk>, t: multiset<Chunk>, after: multiset<Chunk>, added: multiset<Chunk>)
    requires after == before + added && r + before == t + after
    ensures r == t + added
  {
    Cancel(r, before, t + added);
  }

  lemma Cancel(a: multiset<Chunk>, b: multiset<Chunk>, c: multiset<Chunk>)
    requires a + b == c + b
    ensures a == c
  {
    forall x | true ensures a[x] == c[x] {
      assert (a + b)[x] == (c + b)[x];
    }
  }

  lemma {:induction false} SubChunksSame(t: Tree, u: Tree, k: nat)
    requires t.Node? && u.Node? && t.subs == u.subs && k <= |t.subs|
    ensures SubChunks(t, k) == SubChunks(u, k)
  {
    if k > 0 {
      SubChunksSame(t, u, k - 1);
    }
  }

  lemma {:induction false} NilSubChunks(t: Tree, k: nat)
    requires t.Node? && k <= |t.subs| && forall i :: 0 <= i < k ==> t.subs[i] == Nil
    ensures SubChunks(t, k) == multiset{}
  {
    if k > 0 {
      NilSubChunks(t, k - 1);
    }
  }

  /** `delete` removes exactly the chunk it returns from the tree's chunks. */
  lemma {:induction false} DeleteRemovesChunk(t: Tree, p: Vec3)
    requires Wf(t)
    ensures Chunks(t) == Chunks(Delete(t, p).0) + Removed(Delete(t, p).1)
    decreases t
  {
    if t.Node? && !Holds(t, p) && !Vacant(t) {
      var i := Index(p, t.pivot);
      var (s, out) := Delete(t.subs[i], p);
      DeleteRemovesChunk(t.subs[i], p);
      if out.Some? {
        DeleteInSubtree(t, p, i, s, out.value);
      }
    } else if t.Node? && Holds(t, p) {
      SubChunksSame(t, Delete(t, p).0, |t.subs|);
    }
  }

  function Removed(out: Option<Chunk>): multiset<Chunk> {
    if out.Some? then multiset{out.value} else multiset{}
  }

  lemma DeleteInSubtree(t: Tree, p: Vec3, i: nat, s: Tree, c: Chunk)
    requires Wf(t) && t.Node? && !Holds(t, p) && !Vacant(t) && i == Index(p, t.pivot)
    requires Delete(t.subs[i], p) == (s, Some(c))
    requires Chunks(t.subs[i]) == Chunks(s) + multiset{c}
    ensures Chunks(t) == Chunks(Delete(t, p).0) + multiset{c}
  {
    var t' := t.(subs := t.subs[i := s]);
    assert Delete(t, p).0 == t';
    ChunksUpdate(t, i, s);
    calc {
      Chunks(t) + Chunks(s);
      Chunks(t') + Chunks(t.subs[i]);
      Chunks(t') + multiset{c} + Chunks(s);
    }
    Cancel(Chunks(t), Chunks(s), Chunks(t') + multiset{c});
  }

  /** The routing structure: pivots and subtree shape, without chunks or tombstone marks. */
  function Skeleton(t: Tree): Tree {
    match t
    case Nil => Nil
    case Node(_, pivot, _, subs) =>
      Node(None, pivot, false, seq(|subs|, i requires 0 <= i < |subs| => Skeleton(subs[i])))
  }

  /** A deleted node keeps its pivot and subtrees: `delete` never changes the routing. */
  lemma {:induction false} DeleteKeepsRouting(t: Tree, p: Vec3)
    requires Wf(t)
    ensures Skeleton(Delete(t, p).0) == Skeleton(t)
    decreases t
  {
    if t.Node? && !Holds(t, p) && !Vacant(t) {
      var i := Index(p, t.pivot);
      DeleteKeepsRouting(t.subs[i], p);
      var t' := Delete(t, p).0;
      if t' != t {
        assert forall j :: 0 <= j < 8 ==> Skeleton(t'.subs[j]) == Skeleton(t.subs[j]);
      }
    }
  }

  /** Coordinates no live node holds are neither found nor deleted. */
  lemma AbsentCoordinates(t: Tree, p: Vec3)
    requires Wf(t) && forall c :: c in Chunks(t) ==> Pos(c) != p
    ensures Find(t, p) == None && Delete(t, p) == (t, None)
  {
  }

  // Iteration.

  /** A node counts itself and all its descendants. */
  function Size(t: Tree): nat
    decreases t, 1
  {
    if t.Nil? then 0 else 1 + SubSize(t, |t.subs|)
  }

  function SubSize(t: Tree, k: nat): nat
    requires t.Node? && k <= |t.subs|
    decreases t, 0, k
  {
    if k == 0 then 0 else SubSize(t, k - 1) + Size(t.subs[k - 1])
  }

  /** The iterator's stack: its last element is the top. */
  predicate StackOk(s: seq<Tree>) {
    forall i :: 0 <= i < |s| ==> s[i].Node? && Wf(s[i])
  }

  function StackSize(s: seq<Tree>): nat {
    if |s| == 0 then 0 else StackSize(s[..|s| - 1]) + Size(s[|s| - 1])
  }

  function StackChunks(s: seq<Tree>): multiset<Chunk> {
    if |s| == 0 then multiset{} else StackChunks(s[..|s| - 1]) + Chunks(s[|s| - 1])
  }

  /** The non-null subtrees in slot order, as `next` pushes them. */
  function NonNil(ts: seq<Tree>): (r: seq<Tree>)
    ensures forall i :: 0 <= i < |r| ==> r[i].Node? && r[i] in ts
  {
    if |ts| == 0 then []
    else
      var last := ts[|ts| - 1];
      var r := NonNil(ts[..|ts| - 1]) + (if last.Nil? then [] else [last]);
      assert forall t :: t in ts[..|ts| - 1] ==> t in ts;
      r
  }

  lemma {:induction false} StackAppend(a: seq<Tree>, b: seq<Tree>)
    ensures StackSize(a + b) == StackSize(a) + StackSize(b)
    ensures StackChunks(a + b) == StackChunks(a) + StackChunks(b)
    decreases |b|
  {
    if |b| == 0 {
      assert a + b == a;
    } else {
      var b' := b[..|b| - 1];
      assert (a + b)[..|a + b| - 1] == a + b';
      StackAppend(a, b');
    }
  }

  /** Pushing the non-null subtrees of `t` pushes the size and chunks of its subtrees. */
  lemma {:induction false} PushSubtrees(t: Tree, k: nat)
    requires t.Node? && k <= |t.subs|
    ensures StackSize(NonNil(t.subs[..k])) == SubSize(t, k)
    ensures StackChunks(NonNil(t.subs[..k])) == SubChunks(t, k)
  {
    if k > 0 {
      var pre := t.subs[..k - 1];
      var last := t.subs[k - 1];
      var top: seq<Tree> := if last.Nil? then [] else [last];
      assert t.subs[..k][..k - 1] == pre;
      assert NonNil(t.subs[..k]) == NonNil(pre) + top;
      PushSubtrees(t, k - 1);
      StackAppend(NonNil(pre), top);
      StackOne(last);
      assert SubSize(t, k) == SubSize(t, k - 1) + Size(last);
      assert SubChunks(t, k) == SubChunks(t, k - 1) + Chunks(last);
    }
  }

  /** A stack of at most one tree, as pushing one slot makes it. */
  lemma StackOne(t: Tree)
    ensures var top: seq<Tree> := if t.Nil? then [] else [t];
      StackSize(top) == Size(t) && StackChunks(top) == Chunks(t)
  {
    if t.Node? {
      assert [t][..0] == [];
    }
  }

  /** Popping the top node and pushing its subtrees, as the first step of `next` does. */
  function Expand(s: seq<Tree>): (r: seq<Tree>)
    requires |s| > 0 && StackOk(s)
    ensures StackOk(r)
    ensures StackSize(r) + 1 == StackSize(s)
    ensures StackChunks(r) + Own(s[|s| - 1]) == StackChunks(s)
  {
    var top := s[|s| - 1];
    var r := s[..|s| - 1] + NonNil(top.subs);
    assert StackOk(r) by {
      forall i | 0 <= i < |r| ensures r[i].Node? && Wf(r[i]) {
        if i >= |s| - 1 {
          assert r[i] in top.subs;
        }
      }
    }
    StackAppend(s[..|s| - 1], NonNil(top.subs));
    assert top.subs[..|top.subs|] == top.subs;
    PushSubtrees(top, |top.subs|);
    r
  }

  /**
   * `next`: pops nodes, pushing their subtrees, until one is live and holds
   * a chunk; `None` once the stack runs empty.
   */
  function Next(s: seq<Tree>): (r: (seq<Tree>, Option<Chunk>))
    requires StackOk(s)
    ensures StackOk(r.0)
    ensures r.1.Some? ==> StackSize(r.0) < StackSize(s)
    ensures |s| > 0 ==> StackSize(r.0) < StackSize(s)
    decreases StackSize(s)
  {
    if |s| == 0 then ([], None)
    else
      var top := s[|s| - 1];
      var rest := Expand(s);
      if top.deleted then Next(rest)
      else if top.chunk.Some? then (rest, top.chunk)
      else Next(rest)
  }

  /** `next` hands out one live chunk of the stack's trees, or `None` when none is left. */
  lemma {:induction false} NextTakesOneChunk(s: seq<Tree>)
    requires StackOk(s)
    ensures var (s', out) := Next(s);
      && StackChunks(s) == StackChunks(s') + (if out.Some? then multiset{out.value} else multiset{})
      && (out.None? ==> StackChunks(s) == multiset{})
    decreases StackSize(s)
  {
    if |s| > 0 {
      var top := s[|s| - 1];
      var rest := Expand(s);
      if top.deleted || top.chunk.None? {
        NextTakesOneChunk(rest);
      }
    }
  }

  /** `hasNext` as written: the stack is non-empty and some node on it is not deleted. */
  predicate HasNextAsWritten(s: seq<Tree>) {
    |s| > 0 && exists i :: 0 <= i < |s| && s[i].Node? && !s[i].deleted
  }

  /** A deleted root with a live subtree: `hasNext` says no, yet `next` would yield its chunk. */
  lemma HasNextAsWrittenMissesChunks(c: Chunk)
    ensures var root := Node(None, Vec3(0, 0, 0), true, Nils()[0 := Leaf(c)]);
      !HasNextAsWritten([root]) && Next([root]).1 == Some(c)
  {
    var root := Node(None, Vec3(0, 0, 0), true, Nils()[0 := Leaf(c)]);
    assert StackOk([root]);
    assert NonNil(root.subs) == [Leaf(c)] by {
      NilTail(root.subs, 1);
      assert root.subs[..1] == [Leaf(c)];
      assert NonNil(root.subs[..1]) == NonNil([]) + [Leaf(c)] by {
        assert root.subs[..1][..0] == [];
      }
    }
    assert [root][..0] == [];
    var rest := Expand([root]);
    assert rest == [Leaf(c)];
    assert Next([root]) == Next(rest);
    assert Next(rest) == (Expand(rest), Some(c));
  }

  /** Appending null subtrees adds nothing to `NonNil`. */
  lemma {:induction false} NilTail(ts: seq<Tree>, k: nat)
    requires k <= |ts| && forall i :: k <= i < |ts| ==> ts[i] == Nil
    ensures NonNil(ts) == NonNil(ts[..k])
    decreases |ts| - k
  {
    if k < |ts| {
      var m := |ts|;
      assert ts[..m - 1][..k] == ts[..k];
      NilTail(ts[..m - 1], k);
    } else {
      assert ts[..k] == ts;
    }
  }

  /** The empty tree: `hasNext` says yes, yet `next` yields null. */
  lemma HasNextAsWrittenPromisesNothing()
    ensures HasNextAsWritten([EmptyRoot()]) && Next([EmptyRoot()]).1 == None
  {
    var rest := Expand([EmptyRoot()]);
    assert NonNil(Nils()) == [] by { NilTail(Nils(), 0); }
    assert rest == [];
  }

  /** `hasNext` as intended: some live chunk is left in the stack's trees. */
  predicate HasNext(s: seq<Tree>) {
    StackChunks(s) != multiset{}
  }

  lemma HasNextMeansNext(s: seq<Tree>)
    requires StackOk(s)
    ensures HasNext(s) <==> Next(s).1.Some?
  {
    NextTakesOneChunk(s);
  }

  /** The chunks an iteration from `s` yields, in order, stopping when `HasNext` fails. */
  function Iterate(s: seq<Tree>): (r: seq<Chunk>)
    requires StackOk(s)
    ensures multiset(r) == StackChunks(s)
    decreases StackSize(s)
  {
    if !HasNext(s) then []
    else
      var (s', out) := Next(s);
      HasNextMeansNext(s);
      NextTakesOneChunk(s);
      [out.value] + Iterate(s')
  }

  /** Iterating a tree yields each live chunk once and nothing from a tombstone. */
  lemma IterateTree(t: Tree)
    requires Wf(t) && t.Node?
    ensures multiset(Iterate([t])) == Chunks(t)
  {
    assert [t][..0] == [];
  }

  /** With the corrected `hasNext`, an empty tree yields nothing, not a `null`. */
  lemma IterateEmptyYieldsNothing()
    ensures Iterate([EmptyRoot()]) == []
  {
    IterateTree(EmptyRoot());
    assert Chunks(EmptyRoot()) == multiset{} by {
      assert SubChunks(EmptyRoot(), |EmptyRoot().subs|) == multiset{};
    }
  }

  // The tree's one iterator.

  /**
   * The root object with its `iterator` field: `null` until the first
   * `iterator()` call, afterwards the stack of that one iterator.
   */
  datatype Iterable = Iterable(tree: Tree, iter: Option<seq<Tree>>)

  /** `iterator()`: the stored iterator, created on first use with the root as its stack. */
  function GetIterator(it: Iterable): (r: (Iterable, seq<Tree>))
    ensures r.0.tree == it.tree && r.0.iter == Some(r.1)
    ensures it.iter.Some? ==> r == (it, it.iter.value)
    ensures it.iter.None? ==> r.1 == [it.tree]
  {
    match it.iter
    case Some(stack) => (it, stack)
    case None => (it.(iter := Some([it.tree])), [it.tree])
  }

  /** The chunks in a list of `next` results; a `null` result adds none. */
  function Yielded(out: seq<Option<Chunk>>): multiset<Chunk> {
    if |out| == 0 then multiset{}
    else Yielded(out[..|out| - 1]) + (if out[|out| - 1].Some? then multiset{out[|out| - 1].value} else multiset{})
  }

  /**
   * The `forEach` loop: `next` while `hasNext` as written holds. It yields
   * each live chunk at most once, can yield `null`, and leaves a stack on
   * which `hasNext` fails.
   */
  function DrainAsWritten(s: seq<Tree>): (r: (seq<Tree>, seq<Option<Chunk>>))
    requires StackOk(s)
    ensures StackOk(r.0) && !HasNextAsWritten(r.0)
    ensures Yielded(r.1) + StackChunks(r.0) == StackChunks(s)
    ensures !HasNextAsWritten(s) ==> r == (s, [])
    decreases StackSize(s)
  {
    if !HasNextAsWritten(s) then (s, [])
    else
      var (s1, out) := Next(s);
      NextTakesOneChunk(s);
      var (s2, rest) := DrainAsWritten(s1);
      YieldedCons(out, rest);
      (s2, [out] + rest)
  }

  lemma {:induction false} YieldedCons(x: Option<Chunk>, xs: seq<Option<Chunk>>)
    ensures Yielded([x] + xs) == (if x.Some? then multiset{x.value} else multiset{}) + Yielded(xs)
    decreases |xs|
  {
    if |xs| > 0 {
      var ys := [x] + xs;
      assert ys[..|ys| - 1] == [x] + xs[..|xs| - 1];
      YieldedCons(x, xs[..|xs| - 1]);
    } else {
      assert ([x] + xs)[..0] == [];
    }
  }

  /**
   * `forEach` on the tree: it takes the tree's iterator and runs it down; the
   * exhausted iterator stays stored in the tree.
   */
  function ForEach(it: Iterable): (r: (Iterable, seq<Option<Chunk>>))
    requires Wf(it.tree) && it.tree.Node?
    requires it.iter.Some? ==> StackOk(it.iter.value)
    ensures r.0.tree == it.tree && r.0.iter.Some? && StackOk(r.0.iter.value)
    ensures !HasNextAsWritten(r.0.iter.value)
    ensures it.iter.None? ==> Yielded(r.1) <= Chunks(it.tree)
  {
    var (it1, stack) := GetIterator(it);
    assert it.iter.None? ==> StackChunks(stack) == Chunks(it.tree) by {
      assert [it.tree][..0] == [];
    }
    var (rest, out) := DrainAsWritten(stack);
    (it1.(iter := Some(rest)), out)
  }

  /**
   * `insert` on the root object: the tree grows and the stored iterator is
   * kept. A node on the iterator's stack is shared with the tree in Java;
   * since `insert` never clears a `deleted` flag, `hasNext` on that stack
   * stays false once it was.
   */
  function InsertInto(it: Iterable, c: Chunk): (r: Iterable)
    requires Wf(it.tree) && it.tree.Node?
    ensures Wf(r.tree) && r.tree.Node? && r.iter == it.iter
    ensures Chunks(r.tree) == Chunks(it.tree) || Chunks(r.tree) == Chunks(it.tree) + multiset{c}
  {
    InsertAddsChunk(it.tree, c);
    it.(tree := Insert(it.tree, c))
  }

  /**
   * Every traversal after the first yields nothing, even after further
   * chunks were inserted: the tree hands out its one, exhausted, iterator.
   */
  lemma ForEachAgainYieldsNothing(it: Iterable, cs: seq<Chunk>)
    requires Wf(it.tree) && it.tree.Node?
    requires it.iter.Some? ==> StackOk(it.iter.value)
    ensures var later := InsertAll(ForEach(it).0, cs);
      ForEach(later).1 == []
  {
  }

  /** Inserting chunks one after the other. */
  function InsertAll(it: Iterable, cs: seq<Chunk>): (r: Iterable)
    requires Wf(it.tree) && it.tree.Node?
    ensures Wf(r.tree) && r.tree.Node? && r.iter == it.iter
    decreases |cs|
  {
    if |cs| == 0 then it else InsertAll(InsertInto(it, cs[0]), cs[1..])
  }

  /**
   * On an empty tree the first traversal yields one `null`: `hasNext` holds
   * for the live empty root, and `next` finds no chunk.
   */
  lemma ForEachEmptyYieldsNull()
    ensures ForEach(Iterable(EmptyRoot(), None)).1 == [None]
  {
    HasNextAsWrittenPromisesNothing();
    var s := [EmptyRoot()];
    var (s1, out) := Next(s);
    assert s1 == [];
    assert DrainAsWritten(s) == (s1, [out] + DrainAsWritten(s1).1);
  }
}

=== FILE: chunk_utils.dfy ===
/**
 * World to chunk coordinates (`ChunkUtils` in the game, integer overloads).
 *
 * `toChunkCoordinates` divides after converting the `int` to a `float`, so
 * the conversion's rounding is modelled: a 32-bit float keeps 24 significant
 * bits and rounds to nearest, ties to even. Division by 16 and `floor` are
 * exact on such values.
 */
module ChunkUtils {
  import opened JavaInt
  import opened ChunkGrid

  function Pow2(k: nat): (r: nat)
    ensures r >= 1
  {
    if k == 0 then 1 else 2 * Pow2(k - 1)
  }

  /** The number of binary digits of `n` (0 for 0). */
  function BitLength(n: nat): nat {
    if n == 0 then 0 else 1 + BitLength(n / 2)
  }

  lemma {:induction false} BitLengthBelow(n: nat, k: nat)
    requires n < Pow2(k)
    ensures BitLength(n) <= k
  {
    if n > 0 {
      assert k > 0;
      BitLengthBelow(n / 2, k - 1);
    }
  }

  lemma {:induction false} BitLengthExact(n: nat, k: nat)
    requires k >= 1 && Pow2(k - 1) <= n < Pow2(k)
    ensures BitLength(n) == k
  {
    if k > 1 {
      BitLengthExact(n / 2, k - 1);
    }
  }

  /** `n` rounded to a multiple of `ulp`, ties to the even multiple. */
  function RoundToMultiple(n: nat, ulp: nat): nat
    requires ulp >= 1
  {
    var q := n / ulp;
    var rest := n % ulp;
    var up := 2 * rest > ulp || (2 * rest == ulp && q % 2 == 1);
    if up then (q + 1) * ulp else q * ulp
  }

  /** The value of Java's `(float) n` for `n >= 0`. */
  function FloatOfNat(n: nat): (r: nat)
    ensures BitLength(n) <= 24 ==> r == n
  {
    if BitLength(n) <= 24 then n
    else RoundToMultiple(n, Pow2(BitLength(n) - 24))
  }

  /** The value of Java's `(float) x`: rounding is symmetric in the sign. */
  function FloatOf(x: int): int {
    if x >= 0 then FloatOfNat(x) as int else -(FloatOfNat(-x) as int)
  }

  /** Integers up to 2^24 in magnitude convert exactly. */
  lemma FloatOfExact(x: int)
    requires -0x100_0000 <= x <= 0x100_0000
    ensures FloatOf(x) == x
  {
    var n := if x >= 0 then x else -x;
    if n < 0x100_0000 {
      assert Pow2(24) == 0x100_0000 by { Pow2Value24(); }
      BitLengthBelow(n, 24);
    } else {
      assert Pow2(24) == 0x100_0000 && Pow2(25) == 0x200_0000 by { Pow2Value24(); }
      BitLengthExact(n, 25);
    }
  }

  lemma Pow2Value24()
    ensures Pow2(24) == 0x100_0000 && Pow2(25) == 0x200_0000 && Pow2(1) == 2
  {
    assert Pow2(4) == 16;
    assert Pow2(8) == 256;
    assert Pow2(16) == 0x1_0000;
    assert Pow2(24) == 0x100_0000;
  }

  /**
   * `toChunkCoordinates` on one axis: `floor((float) x / 16)`. For a
   * non-negative `int` this is at most 2^27, so the cast back to `int` is exact.
   */
  function ToChunk(x: int): (c: int)
  {
    FloatOf(x) / CHUNK_SIZE
  }

  function ToChunkCoordinates(x: int, y: int, z: int): Vec3 {
    Vec3(ToChunk(x), ToChunk(y), ToChunk(z))
  }

  /** Up to 2^24 in magnitude the chunk coordinate is the floor of x / 16. */
  lemma ToChunkIsFloor(x: int)
    requires -0x100_0000 <= x <= 0x100_0000
    ensures ToChunk(x) * 16 <= x < ToChunk(x) * 16 + 16
  {
    FloatOfExact(x);
  }

  /** Beyond 2^24 the float rounding can move a position into the next chunk. */
  lemma ToChunkRoundsUp()
    ensures IsInt32(16777231)
    ensures ToChunk(16777231) == 1048577
    ensures 1048577 * 16 > 16777231
  {
    Pow2Value24();
    BitLengthExact(16777231, 25);
    assert FloatOfNat(16777231) == RoundToMultiple(16777231, 2);
  }

  /**
   * `toInnerChunkCoordinates` on one axis as written: Java's remainder, plus
   * 16 for every negative coordinate, including the multiples of 16.
   */
  function InnerAsWritten(x: int): (r: int)
    ensures x >= 0 ==> r == x % 16 && 0 <= r < 16
    ensures x < 0 && x % 16 != 0 ==> r == x % 16 && 1 <= r < 16
    ensures x < 0 && x % 16 == 0 ==> r == 16
  {
    DivTruncates(x, CHUNK_SIZE);
    Rem(x, CHUNK_SIZE) + (if x < 0 then CHUNK_SIZE else 0)
  }

  /** At -16 the inner coordinate is 16, outside the chunk, and does not rebuild x. */
  lemma InnerAsWrittenLeavesChunk()
    ensures InnerAsWritten(-16) == 16
    ensures ToChunk(-16) * 16 + InnerAsWritten(-16) != -16
  {
    FloatOfExact(-16);
  }

  /** The inner coordinate as evidently intended: the floor remainder. */
  function Inner(x: int): (r: int)
    ensures 0 <= r < CHUNK_SIZE
  {
    x % CHUNK_SIZE
  }

  function ToInnerChunkCoordinates(x: int, y: int, z: int): (r: Vec3)
    ensures InChunk(r.x, r.y, r.z)
  {
    Vec3(Inner(x), Inner(y), Inner(z))
  }

  /** Chunk and inner coordinate give the position back, within float exactness. */
  lemma ChunkAndInnerRebuild(x: int)
    requires -0x100_0000 <= x <= 0x100_0000
    ensures ToChunk(x) * 16 + Inner(x) == x
  {
    FloatOfExact(x);
  }

  /** The two inner coordinates differ exactly on the negative multiples of 16. */
  lemma InnerAgreesExceptMultiples(x: int)
    ensures InnerAsWritten(x) == Inner(x) <==> !(x < 0 && x % 16 == 0)
  {
  }
}

=== FILE: decimal.dfy ===
/** Decimal digits and the text Java prints for a non-negative integer. */
module Decimal {
  /** `\d` in Java's default (ASCII) mode. */
  predicate IsDigit(c: char) { '0' <= c <= '9' }

  predicate AllDigits(x: string) { forall i :: 0 <= i < |x| ==> IsDigit(x[i]) }

  function DigitValue(c: char): nat
    requires IsDigit(c)
  {
    (c as int) - ('0' as int)
  }

  /** The number a string of decimal digits denotes, most significant first. */
  function DigitsValue(ds: string): nat
    requires AllDigits(ds)
  {
    if |ds| == 0 then 0 else DigitsValue(ds[..|ds| - 1]) * 10 + DigitValue(ds[|ds| - 1])
  }

  function DigitChar(d: nat): (c: char)
    requires d < 10
    ensures IsDigit(c) && DigitValue(c) == d
  {
    ('0' as int + d) as char
  }

  /** The decimal text Java prints for a non-negative `int`. */
  function NatToString(n: nat): (s: string)
    ensures |s| > 0 && AllDigits(s)
    ensures DigitsValue(s) == n
  {
    if n < 10 then [DigitChar(n)]
    else
      var s := NatToString(n / 10) + [DigitChar(n % 10)];
      assert s[..|s| - 1] == NatToString(n / 10);
      s
  }
}

=== FILE: demo_chunk.dfy ===
/**
 * A chunk of the demo's 3D level (`Chunk` in the demo): a 16 x 16 x 16 grid
 * of blocks and a 65536-byte vertex buffer with one 16-byte record per cell.
 *
 * A record holds the cell's coordinates, the mask of its visible faces and
 * the atlas indices of its six face textures; an empty or fully hidden cell
 * has a record of zeros. A face is visible when the neighbouring cell across
 * it is empty or not solid; across the chunk border that cell belongs to the
 * neighbouring chunk of the level, and a chunk that is not loaded hides
 * nothing.
 *
 * The demo's block and face classes are not part of this model: a block is
 * its position in its chunk, its solidity and its six face textures, and the
 * face masks are the parameter `bit`, six distinct one-bit bytes.
 */
module DemoChunks {
  import opened Outcome
  import opened JavaInt
  import opened ChunkGrid
  import TextureAtlas
  import Bytes

  datatype Face = Up | Down | North | South | West | East

  datatype Textures = Textures(up: Option<TextureAtlas.Resource>, down: Option<TextureAtlas.Resource>,
                               north: Option<TextureAtlas.Resource>, south: Option<TextureAtlas.Resource>,
                               west: Option<TextureAtlas.Resource>, east: Option<TextureAtlas.Resource>)

  datatype Block = Block(chunkPosition: Vec3, solid: bool, textures: Textures)

  datatype Chunk = Chunk(position: Vec3, blocks: seq<Option<Block>>, vertices: seq<bv8>)

  /** The loaded chunks of the level by chunk coordinates (`Level3D.chunks`). */
  type Loaded = map<Vec3, Chunk>

  datatype ChunkError = OutOfBounds   // an index outside the grid or the buffer

  const RECORD: int := 16
  const BUFFER: int := 65536

  predicate Wf(c: Chunk) {
    |c.blocks| == CELLS && |c.vertices| == BUFFER
  }

  predicate LoadedWf(level: Loaded) {
    forall p :: p in level ==> Wf(level[p])
  }

  /** The face masks: each one bit, no two the same. */
  ghost predicate FaceBits(bit: Face -> bv8) {
    && (forall f :: bit(f) != 0 && bit(f) & (bit(f) - 1) == 0)
    && (forall f, g :: f != g ==> bit(f) & bit(g) == 0)
  }

  function FaceTexture(b: Block, f: Face): Option<TextureAtlas.Resource> {
    match f
    case Up => b.textures.up
    case Down => b.textures.down
    case North => b.textures.north
    case South => b.textures.south
    case West => b.textures.west
    case East => b.textures.east
  }

  /** The direction of the neighbour across a face: east is +x, north is +z, up is +y. */
  function Step(f: Face): Vec3 {
    match f
    case Up => Vec3(0, 1, 0)
    case Down => Vec3(0, -1, 0)
    case North => Vec3(0, 0, 1)
    case South => Vec3(0, 0, -1)
    case West => Vec3(-1, 0, 0)
    case East => Vec3(1, 0, 0)
  }

  function Add(a: Vec3, b: Vec3): Vec3 { Vec3(a.x + b.x, a.y + b.y, a.z + b.z) }

  /** A cell hides the face next to it only when it holds a solid block. */
  predicate Open(cell: Option<Block>) {
    cell.None? || !cell.value.solid
  }

  /** `getBlockAt`: the block of an in-range cell; any other index is out of bounds. */
  function GetBlockAt(c: Chunk, x: int, y: int, z: int): (r: Result<Option<Block>, ChunkError>)
    requires Wf(c)
    ensures r.Err? <==> !InChunk(x, y, z)
    ensures r.Ok? ==> r.value == c.blocks[CellIndex(x, y, z)]
  {
    if InChunk(x, y, z) then Ok(c.blocks[CellIndex(x, y, z)]) else Err(OutOfBounds)
  }

  /** The cell at the edge of a neighbouring chunk, `None` when that chunk is not loaded. */
  function EdgeCell(level: Loaded, p: Vec3, x: int, y: int, z: int): Option<Block>
    requires LoadedWf(level) && InChunk(x, y, z)
  {
    if p in level then level[p].blocks[CellIndex(x, y, z)] else None
  }

  /** One face test of `checkVisibleFaces`, branch for branch. */
  predicate FaceOpen(level: Loaded, c: Chunk, x: int, y: int, z: int, f: Face)
    requires Wf(c) && LoadedWf(level) && InChunk(x, y, z)
  {
    var p := c.position;
    match f
    case East =>
      if x + 1 < 16 then Open(c.blocks[CellIndex(x + 1, y, z)])
      else Open(EdgeCell(level, Vec3(p.x + 1, p.y, p.z), 0, y, z))
    case West =>
      if x - 1 >= 0 then Open(c.blocks[CellIndex(x - 1, y, z)])
      else Open(EdgeCell(level, Vec3(p.x - 1, p.y, p.z), 15, y, z))
    case North =>
      if z + 1 < 16 then Open(c.blocks[CellIndex(x, y, z + 1)])
      else Open(EdgeCell(level, Vec3(p.x, p.y, p.z + 1), x, y, 0))
    case South =>
      if z - 1 >= 0 then Open(c.blocks[CellIndex(x, y, z - 1)])
      else Open(EdgeCell(level, Vec3(p.x, p.y, p.z - 1), x, y, 15))
    case Up =>
      if y + 1 < 16 then Open(c.blocks[CellIndex(x, y + 1, z)])
      else Open(EdgeCell(level, Vec3(p.x, p.y + 1, p.z), x, 0, z))
    case Down =>
      if y - 1 >= 0 then Open(c.blocks[CellIndex(x, y - 1, z)])
      else Open(EdgeCell(level, Vec3(p.x, p.y - 1, p.z), x, 15, z))
  }

  /** Which neighbouring chunk a coordinate one step outside `0..15` falls into. */
  function Carry(v: int): int {
    if v < 0 then -1 else if v >= 16 then 1 else 0
  }

  /** On the coordinates one step can reach, the carry is floor division by 16. */
  lemma CarryIsFloor(v: int)
    requires -1 <= v <= 16
    ensures Carry(v) == v / 16 && v - 16 * Carry(v) == v % 16
  {
  }

  /**
   * The neighbour across face `f` in world terms: step one cell, carry into
   * the neighbouring chunk when the step leaves the grid, and read the cell
   * there. The chunk itself answers for its own cells, the level for the others.
   */
  function WorldNeighbour(level: Loaded, c: Chunk, x: int, y: int, z: int, f: Face): Option<Block>
    requires Wf(c) && LoadedWf(level) && InChunk(x, y, z)
  {
    var n := Add(Vec3(x, y, z), Step(f));
    var q := Vec3(Carry(n.x), Carry(n.y), Carry(n.z));
    var cell := CellIndex(n.x - 16 * q.x, n.y - 16 * q.y, n.z - 16 * q.z);
    if q == Vec3(0, 0, 0) then c.blocks[cell]
    else if Add(c.position, q) in level then level[Add(c.position, q)].blocks[cell]
    else None
  }

  /** The face tests agree with the world view: a face is visible iff its world neighbour is open. */
  lemma FaceOpenIsWorldNeighbourOpen(level: Loaded, c: Chunk, x: int, y: int, z: int, f: Face)
    requires Wf(c) && LoadedWf(level) && InChunk(x, y, z)
    ensures FaceOpen(level, c, x, y, z, f) <==> Open(WorldNeighbour(level, c, x, y, z, f))
  {
    if f == East || f == West {
      NeighbourAlongX(level, c, x, y, z, f);
    } else if f == Up || f == Down {
      NeighbourAlongY(level, c, x, y, z, f);
    } else {
      NeighbourAlongZ(level, c, x, y, z, f);
    }
  }

  lemma NeighbourAlongX(level: Loaded, c: Chunk, x: int, y: int, z: int, f: Face)
    requires Wf(c) && LoadedWf(level) && InChunk(x, y, z) && (f == East || f == West)
    ensures FaceOpen(level, c, x, y, z, f) <==> Open(WorldNeighbour(level, c, x, y, z, f))
  {
    var p := c.position;
    assert Add(p, Vec3(1, 0, 0)) == Vec3(p.x + 1, p.y, p.z);
    assert Add(p, Vec3(-1, 0, 0)) == Vec3(p.x - 1, p.y, p.z);
  }

  lemma NeighbourAlongY(level: Loaded, c: Chunk, x: int, y: int, z: int, f: Face)
    requires Wf(c) && LoadedWf(level) && InChunk(x, y, z) && (f == Up || f == Down)
    ensures FaceOpen(level, c, x, y, z, f) <==> Open(WorldNeighbour(level, c, x, y, z, f))
  {
    var p := c.position;
    assert Add(p, Vec3(0, 1, 0)) == Vec3(p.x, p.y + 1, p.z);
    assert Add(p, Vec3(0, -1, 0)) == Vec3(p.x, p.y - 1, p.z);
  }

  lemma NeighbourAlongZ(level: Loaded, c: Chunk, x: int, y: int, z: int, f: Face)
    requires Wf(c) && LoadedWf(level) && InChunk(x, y, z) && (f == North || f == South)
    ensures FaceOpen(level, c, x, y, z, f) <==> Open(WorldNeighbour(level, c, x, y, z, f))
  {
    var p := c.position;
    assert Add(p, Vec3(0, 0, 1)) == Vec3(p.x, p.y, p.z + 1);
    assert Add(p, Vec3(0, 0, -1)) == Vec3(p.x, p.y, p.z - 1);
  }

  /** A face on the chunk border whose neighbouring chunk is not loaded is always visible. */
  lemma UnloadedNeighbourShowsFace(level: Loaded, bit: Face -> bv8, c: Chunk, x: int, y: int, z: int, f: Face)
    requires Wf(c) && LoadedWf(level) && InChunk(x, y, z) && FaceBits(bit)
    requires var n := Add(Vec3(x, y, z), Step(f));
      !InChunk(n.x, n.y, n.z) && Add(c.position, Vec3(Carry(n.x), Carry(n.y), Carry(n.z))) !in level
    ensures CheckVisibleFaces(level, bit, c, x, y, z) & bit(f) != 0
  {
    FaceOpenIsWorldNeighbourOpen(level, c, x, y, z, f);
  }

  /** The bit a face contributes to the mask. */
  function Contribution(level: Loaded, bit: Face -> bv8, c: Chunk, x: int, y: int, z: int, f: Face): bv8
    requires Wf(c) && LoadedWf(level) && InChunk(x, y, z)
  {
    if FaceOpen(level, c, x, y, z, f) then bit(f) else 0
  }

  /** The order in which `checkVisibleFaces` tests the faces. */
  const FACE_ORDER: seq<Face> := [East, West, North, South, Up, Down]

  lemma EveryFaceTested(f: Face)
    ensures f in FACE_ORDER
  {
    assert FACE_ORDER == [East, West, North, South, Up, Down];
  }

  /** The union of the six face bits. */
  function AllBits(bit: Face -> bv8): bv8 {
    bit(Up) | bit(Down) | bit(North) | bit(South) | bit(West) | bit(East)
  }

  /** The mask after testing `faces` in order, each visible one or-ing in its bit. */
  function MaskOf(level: Loaded, bit: Face -> bv8, c: Chunk, x: int, y: int, z: int, faces: seq<Face>): bv8
    requires Wf(c) && LoadedWf(level) && InChunk(x, y, z)
  {
    if |faces| == 0 then 0
    else MaskOf(level, bit, c, x, y, z, faces[..|faces| - 1]) | Contribution(level, bit, c, x, y, z, faces[|faces| - 1])
  }

  /** A contribution is its face's bit or nothing, so it never touches another face's bit. */
  lemma ContributionBits(level: Loaded, bit: Face -> bv8, c: Chunk, x: int, y: int, z: int, g: Face, f: Face)
    requires Wf(c) && LoadedWf(level) && InChunk(x, y, z) && FaceBits(bit)
    ensures var k := Contribution(level, bit, c, x, y, z, g);
      && (k == 0 <==> !FaceOpen(level, c, x, y, z, g))
      && k & bit(f) == (if g == f then k else 0)
      && k & !AllBits(bit) == 0
  {
    var k := Contribution(level, bit, c, x, y, z, g);
    assert bit(g) != 0 && bit(g) & bit(g) == bit(g);
    if g != f {
      assert bit(g) & bit(f) == 0;
    }
    InAllBits(bit, g);
  }

  /** A face's bit is set in the mask iff the face was tested and is visible. */
  lemma {:induction false} MaskOfBit(level: Loaded, bit: Face -> bv8, c: Chunk, x: int, y: int, z: int, faces: seq<Face>, f: Face)
    requires Wf(c) && LoadedWf(level) && InChunk(x, y, z) && FaceBits(bit)
    ensures MaskOf(level, bit, c, x, y, z, faces) & bit(f) != 0 <==> f in faces && FaceOpen(level, c, x, y, z, f)
  {
    if |faces| > 0 {
      var init := faces[..|faces| - 1];
      var last := faces[|faces| - 1];
      assert faces == init + [last];
      MaskOfBit(level, bit, c, x, y, z, init, f);
      ContributionBits(level, bit, c, x, y, z, last, f);
      OrAnd(MaskOf(level, bit, c, x, y, z, init), Contribution(level, bit, c, x, y, z, last), bit(f));
    }
  }

  /** No bit outside the six face bits is ever set. */
  lemma {:induction false} MaskOfOnlyFaces(level: Loaded, bit: Face -> bv8, c: Chunk, x: int, y: int, z: int, faces: seq<Face>)
    requires Wf(c) && LoadedWf(level) && InChunk(x, y, z) && FaceBits(bit)
    ensures MaskOf(level, bit, c, x, y, z, faces) & !AllBits(bit) == 0
  {
    if |faces| > 0 {
      var init := faces[..|faces| - 1];
      var last := faces[|faces| - 1];
      MaskOfOnlyFaces(level, bit, c, x, y, z, init);
      ContributionBits(level, bit, c, x, y, z, last, last);
      OrAnd(MaskOf(level, bit, c, x, y, z, init), Contribution(level, bit, c, x, y, z, last), !AllBits(bit));
    }
  }

  /** The mask is zero iff no tested face is visible. */
  lemma {:induction false} MaskOfZero(level: Loaded, bit: Face -> bv8, c: Chunk, x: int, y: int, z: int, faces: seq<Face>)
    requires Wf(c) && LoadedWf(level) && InChunk(x, y, z) && FaceBits(bit)
    ensures MaskOf(level, bit, c, x, y, z, faces) == 0 <==> forall g :: g in faces ==> !FaceOpen(level, c, x, y, z, g)
  {
    if |faces| > 0 {
      var init := faces[..|faces| - 1];
      var last := faces[|faces| - 1];
      assert faces == init + [last];
      MaskOfZero(level, bit, c, x, y, z, init);
      ContributionBits(level, bit, c, x, y, z, last, last);
      OrZero(MaskOf(level, bit, c, x, y, z, init), Contribution(level, bit, c, x, y, z, last));
    }
  }

  lemma OrAnd(a: bv8, b: bv8, m: bv8)
    ensures (a | b) & m == (a & m) | (b & m)
  {
  }

  lemma OrZero(a: bv8, b: bv8)
    ensures a | b == 0 <==> a == 0 && b == 0
  {
  }

  lemma InAllBits(bit: Face -> bv8, f: Face)
    ensures bit(f) & !AllBits(bit) == 0
  {
    SixBits(bit(Up), bit(Down), bit(North), bit(South), bit(West), bit(East));
  }

  lemma SixBits(u: bv8, d: bv8, n: bv8, s: bv8, w: bv8, e: bv8)
    ensures var all := u | d | n | s | w | e;
      && u & !all == 0 && d & !all == 0 && n & !all == 0
      && s & !all == 0 && w & !all == 0 && e & !all == 0
  {
  }

  /**
   * `checkVisibleFaces`: the faces tested in the order east, west, north,
   * south, up, down; each visible face sets its bit and no other bit is set.
   */
  function CheckVisibleFaces(level: Loaded, bit: Face -> bv8, c: Chunk, x: int, y: int, z: int): (mask: bv8)
    requires Wf(c) && LoadedWf(level) && InChunk(x, y, z) && FaceBits(bit)
    ensures forall f :: mask & bit(f) != 0 <==> FaceOpen(level, c, x, y, z, f)
    ensures mask & !AllBits(bit) == 0
    ensures mask == 0 <==> forall f :: !FaceOpen(level, c, x, y, z, f)
  {
    MaskSpec(level, bit, c, x, y, z);
    MaskOf(level, bit, c, x, y, z, FACE_ORDER)
  }

  lemma MaskSpec(level: Loaded, bit: Face -> bv8, c: Chunk, x: int, y: int, z: int)
    requires Wf(c) && LoadedWf(level) && InChunk(x, y, z) && FaceBits(bit)
    ensures var mask := MaskOf(level, bit, c, x, y, z, FACE_ORDER);
      && (forall f :: mask & bit(f) != 0 <==> FaceOpen(level, c, x, y, z, f))
      && mask & !AllBits(bit) == 0
      && (mask == 0 <==> forall f :: !FaceOpen(level, c, x, y, z, f))
  {
    MaskOfOnlyFaces(level, bit, c, x, y, z, FACE_ORDER);
    MaskBits(level, bit, c, x, y, z);
    MaskZero(level, bit, c, x, y, z);
  }

  lemma MaskBits(level: Loaded, bit: Face -> bv8, c: Chunk, x: int, y: int, z: int)
    requires Wf(c) && LoadedWf(level) && InChunk(x, y, z) && FaceBits(bit)
    ensures forall f :: MaskOf(level, bit, c, x, y, z, FACE_ORDER) & bit(f) != 0 <==> FaceOpen(level, c, x, y, z, f)
  {
    forall f
      ensures MaskOf(level, bit, c, x, y, z, FACE_ORDER) & bit(f) != 0 <==> FaceOpen(level, c, x, y, z, f)
    {
      MaskOfBit(level, bit, c, x, y, z, FACE_ORDER, f);
      EveryFaceTested(f);
    }
  }

  lemma MaskZero(level: Loaded, bit: Face -> bv8, c: Chunk, x: int, y: int, z: int)
    requires Wf(c) && LoadedWf(level) && InChunk(x, y, z) && FaceBits(bit)
    ensures MaskOf(level, bit, c, x, y, z, FACE_ORDER) == 0 <==> forall f :: !FaceOpen(level, c, x, y, z, f)
  {
    MaskOfZero(level, bit, c, x, y, z, FACE_ORDER);
    forall f ensures f in FACE_ORDER {
      EveryFaceTested(f);
    }
  }

  // The vertex buffer.

  /** Sixteen zero bytes: the record of an empty or fully hidden cell. */
  function Zeros(n: nat): (r: seq<bv8>)
    ensures |r| == n && forall i :: 0 <= i < n ==> r[i] == 0
  {
    seq(n, _ => 0)
  }

  /** `putShort` of `(short) v` in the buffer's native, little-endian order. */
  function ShortBytes(v: int): (r: seq<bv8>)
    ensures |r| == 2
  {
    var u := ToShort(v) % 0x1_0000;
    [(u % 256) as bv8, (u / 256) as bv8]
  }

  /** Reading back a little-endian `short`. */
  function DecodeShort(lo: bv8, hi: bv8): int {
    var u := hi as int * 256 + lo as int;
    if u >= 0x8000 then u - 0x1_0000 else u
  }

  lemma ShortRoundTrip(v: int)
    ensures DecodeShort(ShortBytes(v)[0], ShortBytes(v)[1]) == ToShort(v)
  {
    var s := ToShort(v);
    var u := s % 0x1_0000;
    assert u == if s < 0 then s + 0x1_0000 else s;
    Bytes.ByteValue(u % 256);
    Bytes.ByteValue(u / 256);
    assert (u / 256) * 256 + u % 256 == u;
  }

  /** The atlas indices of a block's faces in the order of the record: up, down, north, south, west, east. */
  function FaceIndices(atlas: TextureAtlas.Atlas, b: Block): (r: seq<int>)
    ensures |r| == 6
  {
    var order := [Up, Down, North, South, West, East];
    seq(6, i requires 0 <= i < 6 => TextureAtlas.TextureIndex(atlas, FaceTexture(b, order[i])))
  }

  /** The 16-byte record `updateMesh` writes for cell (x, y, z). */
  function Record(level: Loaded, atlas: TextureAtlas.Atlas, bit: Face -> bv8, c: Chunk, x: int, y: int, z: int): (r: seq<bv8>)
    requires Wf(c) && LoadedWf(level) && InChunk(x, y, z) && FaceBits(bit)
    ensures |r| == RECORD
  {
    match c.blocks[CellIndex(x, y, z)]
    case None => Zeros(16)
    case Some(b) =>
      var mask := CheckVisibleFaces(level, bit, c, x, y, z);
      if mask == 0 then Zeros(16)
      else
        var ix := FaceIndices(atlas, b);
        [x as bv8, y as bv8, z as bv8, mask] + Shorts(FaceIndices(atlas, b))
  }

  /** The six `putShort`s of the face indices, one after the other. */
  function Shorts(ix: seq<int>): (r: seq<bv8>)
    requires |ix| == 6
    ensures |r| == 12
  {
    seq(12, k requires 0 <= k < 12 => ShortBytes(ix[k / 2])[k % 2])
  }

  /** What a record says: the cell, its face mask and its six face indices as `short`s. */
  datatype Decoded = Decoded(x: int, y: int, z: int, mask: bv8, faces: seq<int>)

  function Decode(r: seq<bv8>): (d: Decoded)
    requires |r| == RECORD
    ensures |d.faces| == 6
  {
    Decoded(r[0] as int, r[1] as int, r[2] as int, r[3],
      seq(6, i requires 0 <= i < 6 => DecodeShort(r[4 + 2 * i], r[5 + 2 * i])))
  }

  /**
   * A visible block's record reads back as its coordinates, its mask and
   * its face indices cut to `short`; any other cell's record is all zeros.
   */
  lemma RecordDecodes(level: Loaded, atlas: TextureAtlas.Atlas, bit: Face -> bv8, c: Chunk, x: int, y: int, z: int)
    requires Wf(c) && LoadedWf(level) && InChunk(x, y, z) && FaceBits(bit)
    ensures var r := Record(level, atlas, bit, c, x, y, z);
      var cell := c.blocks[CellIndex(x, y, z)];
      var mask := CheckVisibleFaces(level, bit, c, x, y, z);
      if cell.None? || mask == 0 then r == Zeros(16)
      else
        var d := Decode(r);
        && d.x == x && d.y == y && d.z == z && d.mask == mask
        && forall i :: 0 <= i < 6 ==> d.faces[i] == ToShort(FaceIndices(atlas, cell.value)[i])
  {
    var cell := c.blocks[CellIndex(x, y, z)];
    var mask := CheckVisibleFaces(level, bit, c, x, y, z);
    if cell.Some? && mask != 0 {
      EncodeDecodes(x, y, z, mask, FaceIndices(atlas, cell.value));
    }
  }

  /** A record's bytes read back as the cell, the mask and the indices cut to `short`. */
  lemma EncodeDecodes(x: int, y: int, z: int, mask: bv8, ix: seq<int>)
    requires InChunk(x, y, z) && |ix| == 6
    ensures var d := Decode([x as bv8, y as bv8, z as bv8, mask] + Shorts(ix));
      && d.x == x && d.y == y && d.z == z && d.mask == mask
      && forall i :: 0 <= i < 6 ==> d.faces[i] == ToShort(ix[i])
  {
    var head := [x as bv8, y as bv8, z as bv8, mask];
    var r := head + Shorts(ix);
    Bytes.ByteValue(x);
    Bytes.ByteValue(y);
    Bytes.ByteValue(z);
    forall i | 0 <= i < 6
      ensures Decode(r).faces[i] == ToShort(ix[i])
    {
      FaceBytes(head, Shorts(ix), i);
      ShortsDecode(ix, i);
    }
  }

  /** Behind a four-byte head, the i-th pair of the tail is at 4 + 2i. */
  lemma FaceBytes(head: seq<bv8>, tail: seq<bv8>, i: int)
    requires |head| == 4 && |tail| == 12 && 0 <= i < 6
    ensures Decode(head + tail).faces[i] == DecodeShort(tail[2 * i], tail[2 * i + 1])
  {
    var r := head + tail;
    assert r[4 + 2 * i] == tail[2 * i];
    assert r[5 + 2 * i] == tail[2 * i + 1];
  }

  /** The i-th pair of bytes of `Shorts` reads back as the i-th index cut to `short`. */
  lemma ShortsDecode(ix: seq<int>, i: int)
    requires |ix| == 6 && 0 <= i < 6
    ensures DecodeShort(Shorts(ix)[2 * i], Shorts(ix)[2 * i + 1]) == ToShort(ix[i])
  {
    assert (2 * i) / 2 == i && (2 * i) % 2 == 0;
    assert (2 * i + 1) / 2 == i && (2 * i + 1) % 2 == 1;
    ShortRoundTrip(ix[i]);
  }

  /** Cell (x, y, z) owns the record at `CellIndex * 16`. */
  function RecordOffset(x: int, y: int, z: int): int {
    CellIndex(x, y, z) * RECORD
  }

  /** Records of in-range cells lie inside the buffer, and distinct cells' records do not overlap. */
  lemma RecordsDisjoint(x: int, y: int, z: int, x': int, y': int, z': int)
    requires InChunk(x, y, z) && InChunk(x', y', z')
    ensures 0 <= RecordOffset(x, y, z) && RecordOffset(x, y, z) + RECORD <= BUFFER
    ensures Vec3(x, y, z) != Vec3(x', y', z') ==>
      RecordOffset(x, y, z) + RECORD <= RecordOffset(x', y', z') || RecordOffset(x', y', z') + RECORD <= RecordOffset(x, y, z)
  {
    if Vec3(x, y, z) != Vec3(x', y', z') && CellIndex(x, y, z) == CellIndex(x', y', z') {
      CellIndexInjective(x, y, z, x', y', z');
    }
  }

  /**
   * `updateMesh`: rewrites the cell's record from the cell and its
   * neighbours; every other byte of the buffer stays. A cell outside the
   * grid is out of bounds.
   */
  function UpdateMesh(level: Loaded, atlas: TextureAtlas.Atlas, bit: Face -> bv8, c: Chunk, x: int, y: int, z: int): (r: Result<Chunk, ChunkError>)
    requires Wf(c) && LoadedWf(level) && FaceBits(bit)
    ensures r.Err? <==> !InChunk(x, y, z)
    ensures r.Ok? ==> Wf(r.value) && r.value.blocks == c.blocks && r.value.position == c.position
    ensures r.Ok? ==> var o := RecordOffset(x, y, z);
      && r.value.vertices[o..o + RECORD] == Record(level, atlas, bit, c, x, y, z)
      && r.value.vertices[..o] == c.vertices[..o]
      && r.value.vertices[o + RECORD..] == c.vertices[o + RECORD..]
  {
    if !InChunk(x, y, z) then Err(OutOfBounds)
    else
      var o := RecordOffset(x, y, z);
      RecordsDisjoint(x, y, z, x, y, z);
      var v := c.vertices[..o] + Record(level, atlas, bit, c, x, y, z) + c.vertices[o + RECORD..];
      assert v[o..o + RECORD] == Record(level, atlas, bit, c, x, y, z);
      Ok(c.(vertices := v))
  }

  /** A chunk as constructed: no blocks, and a zero buffer, which is what rebuilding an empty grid writes. */
  function NewChunk(position: Vec3): (c: Chunk)
    ensures Wf(c) && c.position == position
    ensures forall i :: 0 <= i < CELLS ==> c.blocks[i].None?
    ensures c.vertices == Zeros(BUFFER)
  {
    Chunk(position, seq(CELLS, _ => None), Zeros(BUFFER))
  }

  /** Every record of a new chunk is the one `updateMesh` writes, so the constructor's rebuild changes nothing. */
  lemma NewChunkRecordsCurrent(level: Loaded, atlas: TextureAtlas.Atlas, bit: Face -> bv8, position: Vec3, x: int, y: int, z: int)
    requires LoadedWf(level) && FaceBits(bit) && InChunk(x, y, z)
    ensures var c := NewChunk(position); var o := RecordOffset(x, y, z);
      c.vertices[o..o + RECORD] == Record(level, atlas, bit, c, x, y, z)
  {
    RecordsDisjoint(x, y, z, x, y, z);
  }

  /** `setBlock`: the block goes to its own position in the chunk, and that cell's record is rewritten. */
  function SetBlock(level: Loaded, atlas: TextureAtlas.Atlas, bit: Face -> bv8, c: Chunk, b: Block): (r: Result<Chunk, ChunkError>)
    requires Wf(c) && LoadedWf(level) && FaceBits(bit)
    ensures var p := b.chunkPosition; r.Err? <==> !InChunk(p.x, p.y, p.z)
    ensures r.Ok? ==> var p := b.chunkPosition;
      && Wf(r.value)
      && GetBlockAt(r.value, p.x, p.y, p.z) == Ok(Some(b))
      && (forall i :: 0 <= i < CELLS && i != CellIndex(p.x, p.y, p.z) ==> r.value.blocks[i] == c.blocks[i])
  {
    var p := b.chunkPosition;
    if !InChunk(p.x, p.y, p.z) then Err(OutOfBounds)
    else UpdateMesh(level, atlas, bit, c.(blocks := c.blocks[CellIndex(p.x, p.y, p.z) := Some(b)]), p.x, p.y, p.z)
  }

  /** `removeBlock(x, y, z)`: the cell becomes empty; the buffer is not touched. */
  function RemoveBlockAt(c: Chunk, x: int, y: int, z: int): (r: Result<Chunk, ChunkError>)
    requires Wf(c)
    ensures r.Err? <==> !InChunk(x, y, z)
    ensures r.Ok? ==> Wf(r.value) && GetBlockAt(r.value, x, y, z) == Ok(None) && r.value.vertices == c.vertices
    ensures r.Ok? ==> forall i :: 0 <= i < CELLS && i != CellIndex(x, y, z) ==> r.value.blocks[i] == c.blocks[i]
  {
    if !InChunk(x, y, z) then Err(OutOfBounds)
    else Ok(c.(blocks := c.blocks[CellIndex(x, y, z) := None]))
  }

  /** `removeBlock(position)`: empties the cell, then rewrites its record to zeros. */
  function RemoveBlock(level: Loaded, atlas: TextureAtlas.Atlas, bit: Face -> bv8, c: Chunk, p: Vec3): (r: Result<Chunk, ChunkError>)
    requires Wf(c) && LoadedWf(level) && FaceBits(bit)
    ensures r.Err? <==> !InChunk(p.x, p.y, p.z)
    ensures r.Ok? ==> Wf(r.value) && GetBlockAt(r.value, p.x, p.y, p.z) == Ok(None)
    ensures r.Ok? ==> var o := RecordOffset(p.x, p.y, p.z); r.value.vertices[o..o + RECORD] == Zeros(16)
  {
    match RemoveBlockAt(c, p.x, p.y, p.z)
    case Err(e) => Err(e)
    case Ok(c') => UpdateMesh(level, atlas, bit, c', p.x, p.y, p.z)
  }

  // Keeping the buffer current.

  /** The record of cell (x, y, z) is the one `updateMesh` would write now. */
  predicate RecordCurrent(level: Loaded, atlas: TextureAtlas.Atlas, bit: Face -> bv8, c: Chunk, x: int, y: int, z: int)
    requires Wf(c) && LoadedWf(level) && InChunk(x, y, z) && FaceBits(bit)
  {
    RecordsDisjoint(x, y, z, x, y, z);
    var o := RecordOffset(x, y, z);
    c.vertices[o..o + RECORD] == Record(level, atlas, bit, c, x, y, z)
  }

  /** Every record of the chunk is current. */
  predicate AllCurrent(level: Loaded, atlas: TextureAtlas.Atlas, bit: Face -> bv8, c: Chunk)
    requires Wf(c) && LoadedWf(level) && FaceBits(bit)
  {
    forall i :: 0 <= i < CELLS ==> RecordCurrent(level, atlas, bit, c, CellOf(i).x, CellOf(i).y, CellOf(i).z)
  }

  /** The face mask reads the blocks and the position only, never the buffer. */
  lemma {:induction false} MaskOfIgnoresBuffer(level: Loaded, bit: Face -> bv8, c: Chunk, c': Chunk, x: int, y: int, z: int, faces: seq<Face>)
    requires Wf(c) && Wf(c') && LoadedWf(level) && InChunk(x, y, z)
    requires c'.blocks == c.blocks && c'.position == c.position
    ensures MaskOf(level, bit, c', x, y, z, faces) == MaskOf(level, bit, c, x, y, z, faces)
    decreases |faces|
  {
    if |faces| > 0 {
      MaskOfIgnoresBuffer(level, bit, c, c', x, y, z, faces[..|faces| - 1]);
    }
  }

  lemma RecordIgnoresBuffer(level: Loaded, atlas: TextureAtlas.Atlas, bit: Face -> bv8, c: Chunk, c': Chunk, x: int, y: int, z: int)
    requires Wf(c) && Wf(c') && LoadedWf(level) && InChunk(x, y, z) && FaceBits(bit)
    requires c'.blocks == c.blocks && c'.position == c.position
    ensures Record(level, atlas, bit, c', x, y, z) == Record(level, atlas, bit, c, x, y, z)
  {
    MaskOfIgnoresBuffer(level, bit, c, c', x, y, z, FACE_ORDER);
  }

  /**
   * `updateMesh` makes the cell's record current and leaves every other
   * cell's record as it was, current or not.
   */
  lemma UpdateMeshRefreshesOne(level: Loaded, atlas: TextureAtlas.Atlas, bit: Face -> bv8, c: Chunk, x: int, y: int, z: int, x': int, y': int, z': int)
    requires Wf(c) && LoadedWf(level) && FaceBits(bit) && InChunk(x, y, z) && InChunk(x', y', z')
    ensures var r := UpdateMesh(level, atlas, bit, c, x, y, z);
      && r.Ok? && RecordCurrent(level, atlas, bit, r.value, x, y, z)
      && (Vec3(x', y', z') != Vec3(x, y, z) ==>
            (RecordCurrent(level, atlas, bit, r.value, x', y', z') <==> RecordCurrent(level, atlas, bit, c, x', y', z')))
  {
    var c' := UpdateMesh(level, atlas, bit, c, x, y, z).value;
    RecordIgnoresBuffer(level, atlas, bit, c, c', x, y, z);
    if Vec3(x', y', z') != Vec3(x, y, z) {
      RecordIgnoresBuffer(level, atlas, bit, c, c', x', y', z');
      RecordsDisjoint(x, y, z, x', y', z');
      var o := RecordOffset(x, y, z);
      var o' := RecordOffset(x', y', z');
      forall k | o' <= k < o' + RECORD
        ensures c'.vertices[k] == c.vertices[k]
      {
        if k < o {
          assert c'.vertices[k] == c'.vertices[..o][k];
        } else {
          assert c'.vertices[k] == c'.vertices[o + RECORD..][k - o - RECORD];
        }
      }
      assert c'.vertices[o'..o' + RECORD] == c.vertices[o'..o' + RECORD];
    }
  }

  /**
   * `rebuild`: rewrites every record, in x, then y, then z order, which is
   * the order of the slots.
   */
  method Rebuild(level: Loaded, atlas: TextureAtlas.Atlas, bit: Face -> bv8, c: Chunk) returns (r: Chunk)
    requires Wf(c) && LoadedWf(level) && FaceBits(bit)
    ensures Wf(r) && r.blocks == c.blocks && r.position == c.position
    ensures AllCurrent(level, atlas, bit, r)
  {
    r := c;
    var i := 0;
    while i < CELLS
      invariant 0 <= i <= CELLS
      invariant Wf(r) && r.blocks == c.blocks && r.position == c.position
      invariant forall j :: 0 <= j < i ==> RecordCurrent(level, atlas, bit, r, CellOf(j).x, CellOf(j).y, CellOf(j).z)
    {
      var v := CellOf(i);
      RebuildStep(level, atlas, bit, r, i);
      r := UpdateMesh(level, atlas, bit, r, v.x, v.y, v.z).value;
      i := i + 1;
    }
  }

  /** One step of `rebuild`: refreshing slot `i` keeps the records of the slots before it current. */
  lemma RebuildStep(level: Loaded, atlas: TextureAtlas.Atlas, bit: Face -> bv8, c: Chunk, i: nat)
    requires Wf(c) && LoadedWf(level) && FaceBits(bit) && i < CELLS
    requires forall j :: 0 <= j < i ==> RecordCurrent(level, atlas, bit, c, CellOf(j).x, CellOf(j).y, CellOf(j).z)
    ensures var v := CellOf(i); var r := UpdateMesh(level, atlas, bit, c, v.x, v.y, v.z);
      && r.Ok? && Wf(r.value) && r.value.blocks == c.blocks && r.value.position == c.position
      && forall j :: 0 <= j <= i ==> RecordCurrent(level, atlas, bit, r.value, CellOf(j).x, CellOf(j).y, CellOf(j).z)
  {
    var v := CellOf(i);
    var next := UpdateMesh(level, atlas, bit, c, v.x, v.y, v.z).value;
    UpdateMeshRefreshesOne(level, atlas, bit, c, v.x, v.y, v.z, v.x, v.y, v.z);
    forall j | 0 <= j <= i
      ensures RecordCurrent(level, atlas, bit, next, CellOf(j).x, CellOf(j).y, CellOf(j).z)
    {
      if j < i {
        RebuildKeeps(level, atlas, bit, c, i, j);
      }
    }
  }

  lemma RebuildKeeps(level: Loaded, atlas: TextureAtlas.Atlas, bit: Face -> bv8, c: Chunk, i: nat, j: nat)
    requires Wf(c) && LoadedWf(level) && FaceBits(bit) && j < i < CELLS
    requires RecordCurrent(level, atlas, bit, c, CellOf(j).x, CellOf(j).y, CellOf(j).z)
    ensures var v := CellOf(i); var r := UpdateMesh(level, atlas, bit, c, v.x, v.y, v.z);
      r.Ok? && Wf(r.value) && RecordCurrent(level, atlas, bit, r.value, CellOf(j).x, CellOf(j).y, CellOf(j).z)
  {
    var v := CellOf(i);
    var w := CellOf(j);
    assert CellIndex(w.x, w.y, w.z) != CellIndex(v.x, v.y, v.z);
    UpdateMeshRefreshesOne(level, atlas, bit, c, v.x, v.y, v.z, w.x, w.y, w.z);
  }

  /** The records tile the buffer, so current records fix every byte of it. */
  lemma CurrentBufferUnique(level: Loaded, atlas: TextureAtlas.Atlas, bit: Face -> bv8, c: Chunk, c': Chunk)
    requires Wf(c) && Wf(c') && LoadedWf(level) && FaceBits(bit)
    requires c'.blocks == c.blocks && c'.position == c.position
    requires AllCurrent(level, atlas, bit, c) && AllCurrent(level, atlas, bit, c')
    ensures c' == c
  {
    forall k | 0 <= k < BUFFER
      ensures c'.vertices[k] == c.vertices[k]
    {
      var i := k / RECORD;
      var v := CellOf(i);
      assert RecordCurrent(level, atlas, bit, c, v.x, v.y, v.z);
      assert RecordCurrent(level, atlas, bit, c', v.x, v.y, v.z);
      RecordIgnoresBuffer(level, atlas, bit, c, c', v.x, v.y, v.z);
      var o := RecordOffset(v.x, v.y, v.z);
      assert o == i * RECORD && o <= k < o + RECORD;
      assert c'.vertices[k] == c'.vertices[o..o + RECORD][k - o];
      assert c.vertices[k] == c.vertices[o..o + RECORD][k - o];
    }
  }

  /** The constructor's zeroed buffer already holds every record, so its rebuild writes no byte that differs. */
  lemma NewChunkIsRebuilt(level: Loaded, atlas: TextureAtlas.Atlas, bit: Face -> bv8, position: Vec3, r: Chunk)
    requires LoadedWf(level) && FaceBits(bit)
    requires Wf(r) && r.blocks == NewChunk(position).blocks && r.position == position
    requires AllCurrent(level, atlas, bit, r)
    ensures r == NewChunk(position)
  {
    var c := NewChunk(position);
    forall i | 0 <= i < CELLS
      ensures RecordCurrent(level, atlas, bit, c, CellOf(i).x, CellOf(i).y, CellOf(i).z)
    {
      NewChunkRecordsCurrent(level, atlas, bit, position, CellOf(i).x, CellOf(i).y, CellOf(i).z);
    }
    CurrentBufferUnique(level, atlas, bit, c, r);
  }

  /** After `setBlock` the block's own record is current; the other records keep their bytes. */
  lemma SetBlockRefreshesRecord(level: Loaded, atlas: TextureAtlas.Atlas, bit: Face -> bv8, c: Chunk, b: Block)
    requires Wf(c) && LoadedWf(level) && FaceBits(bit)
    ensures var r := SetBlock(level, atlas, bit, c, b); var p := b.chunkPosition;
      r.Ok? ==> RecordCurrent(level, atlas, bit, r.value, p.x, p.y, p.z)
  {
    var p := b.chunkPosition;
    if InChunk(p.x, p.y, p.z) {
      var c1 := c.(blocks := c.blocks[CellIndex(p.x, p.y, p.z) := Some(b)]);
      UpdateMeshRefreshesOne(level, atlas, bit, c1, p.x, p.y, p.z, p.x, p.y, p.z);
    }
  }
}

=== FILE: entity.dfy ===
/**
 * The component store of an engine `Entity`: a map from component class to
 * the list of that class's components, in the order they were added.
 *
 * Position, size and rotation are plain float fields with getters and
 * setters and are not part of this model. A component is its class and an
 * identity; Java's `equals` on components is the default identity
 * comparison, which is value equality of the identity here. Whether a class
 * allows several instances (`Component.canHaveMultiple`) is the parameter
 * `multiple`.
 */
module Entities {
  import opened Outcome

  type ClassId = int

  datatype Component = Component(cls: ClassId, id: int)

  datatype Entity = Entity(components: map<ClassId, seq<Component>>)

  datatype EntityError = IndexOutOfBounds   // `get(0)` on an empty list

  /** Every list is filed under the class of its components. */
  predicate Wf(e: Entity) {
    forall k, x :: k in e.components && x in e.components[k] ==> x.cls == k
  }

  /** `components(clazz)`: the class's list, empty for a class never seen. */
  function Components(e: Entity, cls: ClassId): (r: seq<Component>)
    ensures cls !in e.components ==> r == []
    ensures cls in e.components ==> r == e.components[cls]
  {
    if cls in e.components then e.components[cls] else []
  }

  /** Appends a component to its class's list, creating the list on first use. */
  function Append(e: Entity, c: Component): (r: Entity)
    ensures r.components.Keys == e.components.Keys + {c.cls}
    ensures Components(r, c.cls) == Components(e, c.cls) + [c]
    ensures forall k :: k != c.cls ==> Components(r, k) == Components(e, k)
  {
    Entity(e.components[c.cls := Components(e, c.cls) + [c]])
  }

  /** The varargs constructor: every component is appended, whatever its class allows. */
  function NewEntity(cs: seq<Component>): (r: Entity)
    ensures Wf(r)
    ensures forall k :: k in r.components <==> exists c :: c in cs && c.cls == k
    decreases |cs|
  {
    if |cs| == 0 then Entity(map[])
    else
      assert cs == cs[..|cs| - 1] + [cs[|cs| - 1]];
      Append(NewEntity(cs[..|cs| - 1]), cs[|cs| - 1])
  }

  /** The constructor keeps, for each class, the given components of that class in the given order. */
  lemma {:induction false} NewEntityKeepsAll(cs: seq<Component>, k: ClassId)
    ensures Components(NewEntity(cs), k) == Filter(cs, k)
    decreases |cs|
  {
    if |cs| > 0 {
      NewEntityKeepsAll(cs[..|cs| - 1], k);
    }
  }

  /** The components of `cs` of class `k`, in order. */
  function Filter(cs: seq<Component>, k: ClassId): (r: seq<Component>)
    ensures |r| <= |cs|
    ensures forall c :: c in r <==> c in cs && c.cls == k
  {
    if |cs| == 0 then []
    else Filter(cs[..|cs| - 1], k) + (if cs[|cs| - 1].cls == k then [cs[|cs| - 1]] else [])
  }

  /** Two components of a single-instance class given to the constructor are both kept. */
  lemma NewEntityIgnoresSingleInstance(k: ClassId)
    ensures |Components(NewEntity([Component(k, 0), Component(k, 1)]), k)| == 2
  {
    NewEntityKeepsAll([Component(k, 0), Component(k, 1)], k);
    assert [Component(k, 0), Component(k, 1)][..1] == [Component(k, 0)];
    assert [Component(k, 0), Component(k, 1)][..1][..0] == [];
  }

  /**
   * `addComponent`: a component of a single-instance class replaces the
   * first of its class's list, or starts it; any other is appended.
   */
  function AddComponent(e: Entity, multiple: ClassId -> bool, c: Component): (r: Entity)
    requires Wf(e)
    ensures Wf(r)
    ensures r.components.Keys == e.components.Keys + {c.cls}
    ensures forall k :: k != c.cls ==> Components(r, k) == Components(e, k)
    ensures multiple(c.cls) ==> Components(r, c.cls) == Components(e, c.cls) + [c]
    ensures !multiple(c.cls) ==>
      var before := Components(e, c.cls);
      && |Components(r, c.cls)| == (if before == [] then 1 else |before|)
      && Components(r, c.cls)[0] == c
      && Components(r, c.cls)[1..] == (if before == [] then [] else before[1..])
  {
    var list := Components(e, c.cls);
    if multiple(c.cls) then Append(e, c)
    else if list == [] then Entity(e.components[c.cls := [c]])
    else Entity(e.components[c.cls := list[0 := c]])
  }

  /** The entity keeps at most one component of every single-instance class. */
  predicate SingleInstances(e: Entity, multiple: ClassId -> bool) {
    forall k :: k in e.components && !multiple(k) ==> |e.components[k]| <= 1
  }

  /** `addComponent` keeps single-instance classes single, and the new component is the one kept. */
  lemma AddKeepsSingle(e: Entity, multiple: ClassId -> bool, c: Component)
    requires Wf(e) && SingleInstances(e, multiple)
    ensures var r := AddComponent(e, multiple, c);
      SingleInstances(r, multiple) && (!multiple(c.cls) ==> Components(r, c.cls) == [c])
  {
    var r := AddComponent(e, multiple, c);
    forall k | k in r.components && !multiple(k)
      ensures |r.components[k]| <= 1
    {
      if k != c.cls {
        assert Components(r, k) == Components(e, k);
      }
    }
  }

  /** `component(clazz)`: the first component of the class; an empty or missing list fails on `get(0)`. */
  function First(e: Entity, cls: ClassId): (r: Result<Component, EntityError>)
    ensures r.Err? <==> Components(e, cls) == []
    ensures r.Ok? ==> r.value == Components(e, cls)[0]
  {
    var list := Components(e, cls);
    if |list| == 0 then Err(IndexOutOfBounds) else Ok(list[0])
  }

  /**
   * `hasComponents(component)`: the component is in its class's list; it is
   * then also what `component(clazz)` can hand out, so that cannot fail.
   */
  function HasComponent(e: Entity, c: Component): (b: bool)
    ensures b ==> c.cls in e.components && First(e, c.cls).Ok?
    ensures c.cls !in e.components ==> !b
  {
    c in Components(e, c.cls)
  }

  /** After `addComponent` the entity has the component, whether it was appended or replaced the first. */
  lemma AddThenHas(e: Entity, multiple: ClassId -> bool, c: Component)
    requires Wf(e)
    ensures HasComponent(AddComponent(e, multiple, c), c)
  {
    var r := AddComponent(e, multiple, c);
    if multiple(c.cls) {
      assert Components(r, c.cls)[|Components(r, c.cls)| - 1] == c;
    } else {
      assert Components(r, c.cls)[0] == c;
    }
  }

  /** `hasComponents(classes...)`: every class has a list, possibly an empty one. */
  function HasComponents(e: Entity, classes: seq<ClassId>): (b: bool)
    ensures b <==> forall i :: 0 <= i < |classes| ==> classes[i] in e.components
  {
    forall i :: 0 <= i < |classes| ==> classes[i] in e.components
  }

  /** `List.indexOf(o)`: the position of the first occurrence of `c`. */
  function IndexOf(s: seq<Component>, c: Component): (i: nat)
    requires c in s
    ensures i < |s| && s[i] == c && c !in s[..i]
  {
    if s[0] == c then 0
    else
      var i := IndexOf(s[1..], c);
      assert s[..i + 1] == [s[0]] + s[1..][..i];
      i + 1
  }

  /** `List.remove(o)`: drops the first occurrence of `c`, if any. */
  function RemoveFirst(s: seq<Component>, c: Component): (r: seq<Component>)
    ensures c in s ==> multiset(r) == multiset(s) - multiset{c} && |r| == |s| - 1
    ensures c !in s ==> r == s
    ensures forall x :: x in r ==> x in s
  {
    if |s| == 0 then []
    else
      assert s == [s[0]] + s[1..];
      if s[0] == c then s[1..]
      else [s[0]] + RemoveFirst(s[1..], c)
  }

  /** The rest of the list keeps its order: only the first occurrence of `c` is cut out. */
  lemma {:induction false} RemoveFirstKeepsOrder(s: seq<Component>, c: Component)
    requires c in s
    ensures RemoveFirst(s, c) == s[..IndexOf(s, c)] + s[IndexOf(s, c) + 1..]
  {
    if s[0] != c {
      var t := s[1..];
      RemoveFirstKeepsOrder(t, c);
      var i := IndexOf(t, c);
      assert IndexOf(s, c) == i + 1;
      assert RemoveFirst(s, c) == [s[0]] + (t[..i] + t[i + 1..]);
      CutAfterHead(s, i);
    }
  }

  /** Cutting position `i` out of the tail is cutting `i + 1` out of the whole. */
  lemma CutAfterHead<T>(s: seq<T>, i: nat)
    requires i + 1 < |s|
    ensures [s[0]] + (s[1..][..i] + s[1..][i + 1..]) == s[..i + 1] + s[i + 2..]
  {
    assert s[..i + 1] == [s[0]] + s[1..][..i];
    assert s[i + 2..] == s[1..][i + 1..];
  }

  /**
   * `removeComponent`: removes one occurrence and says whether there was one.
   * The class's list stays, even when it becomes empty.
   */
  function RemoveComponent(e: Entity, c: Component): (r: (Entity, bool))
    requires Wf(e)
    ensures Wf(r.0)
    ensures r.1 <==> HasComponent(e, c)
    ensures r.0.components.Keys == e.components.Keys
    ensures multiset(Components(r.0, c.cls)) == multiset(Components(e, c.cls)) - multiset{c}
    ensures var s := Components(e, c.cls);
      c in s ==> Components(r.0, c.cls) == s[..IndexOf(s, c)] + s[IndexOf(s, c) + 1..]
    ensures c !in Components(e, c.cls) ==> Components(r.0, c.cls) == Components(e, c.cls)
    ensures forall k :: k != c.cls ==> Components(r.0, k) == Components(e, k)
  {
    var list := Components(e, c.cls);
    if c.cls !in e.components then (e, false)
    else
      var rest := RemoveFirst(list, c);
      Refile(e, c.cls, rest);
      assert c in list ==> rest == list[..IndexOf(list, c)] + list[IndexOf(list, c) + 1..] by {
        if c in list {
          RemoveFirstKeepsOrder(list, c);
        }
      }
      (Entity(e.components[c.cls := rest]), c in list)
  }

  /** Replacing one class's list by a list of that class keeps every list filed correctly. */
  lemma Refile(e: Entity, k: ClassId, s: seq<Component>)
    requires Wf(e) && forall x :: x in s ==> x.cls == k
    ensures Wf(Entity(e.components[k := s]))
    ensures forall j :: j != k ==> Components(Entity(e.components[k := s]), j) == Components(e, j)
  {
  }

  /** Removing keeps single-instance classes single. */
  lemma RemoveKeepsSingle(e: Entity, multiple: ClassId -> bool, c: Component)
    requires Wf(e) && SingleInstances(e, multiple)
    ensures SingleInstances(RemoveComponent(e, c).0, multiple)
  {
    var r := RemoveComponent(e, c).0;
    forall k | k in r.components && !multiple(k)
      ensures |r.components[k]| <= 1
    {
      if k == c.cls {
        assert |multiset(r.components[k])| <= |multiset(e.components[k])|;
      } else {
        assert Components(r, k) == Components(e, k);
      }
    }
  }

  /**
   * Removing the only component of a class leaves the class present:
   * `hasComponents(class)` stays true while `component(class)` fails.
   */
  lemma RemoveLeavesEmptyList(e: Entity, multiple: ClassId -> bool, c: Component)
    requires Wf(e) && c.cls !in e.components
    ensures var (r, removed) := RemoveComponent(AddComponent(e, multiple, c), c);
      && removed
      && HasComponents(r, [c.cls])
      && !HasComponent(r, c)
      && First(r, c.cls) == Err(IndexOutOfBounds)
  {
    var e1 := AddComponent(e, multiple, c);
    assert Components(e1, c.cls) == [c];
    var r := RemoveComponent(e1, c).0;
    assert multiset(Components(r, c.cls)) == multiset{};
  }

  /** Adding then removing a component of a multiple-instance class gives the old list back as a multiset. */
  lemma AddThenRemove(e: Entity, multiple: ClassId -> bool, c: Component)
    requires Wf(e) && multiple(c.cls)
    ensures var (r, removed) := RemoveComponent(AddComponent(e, multiple, c), c);
      removed && multiset(Components(r, c.cls)) == multiset(Components(e, c.cls))
  {
  }
}

=== FILE: game_loop.dfy ===
/**
 * The frame-counter scheduler of the game's `GameLoop.update`: every system
 * counts the frames since it last ran and runs again once the count reaches
 * its period, unless a level load earlier in the same update cut the pass
 * short.
 *
 * The `System` class is not part of this model: a system is its frame
 * counter (a Java `int`), its period `executeEveryXFrames` and whether it is
 * running. What `execute()` does is left out except for one consequence the
 * loop reacts to: whether running the system at a given position loads a new
 * level (the level system's load callback sets the flag), the parameter
 * `loads`.
 */
module GameLoopScheduler {
  import opened JavaInt

  datatype Sys = Sys(counter: int, every: int, running: bool)

  /** The outcome of one update: the systems' new state and the positions of those that ran, in order. */
  datatype Pass = Pass(systems: seq<Sys>, executed: seq<nat>, levelLoaded: bool)

  /** One system's visit: count the frame, and run and reset if it is running and due. */
  function Tick(s: Sys): (r: (Sys, bool))
    ensures r.0.every == s.every && r.0.running == s.running
    ensures r.1 <==> s.running && Wrap32(s.counter + 1) >= s.every
    ensures r.0.counter == (if r.1 then 0 else Wrap32(s.counter + 1))
  {
    var c := Wrap32(s.counter + 1);
    if s.running && c >= s.every then (s.(counter := 0), true) else (s.(counter := c), false)
  }

  /** The first position from `i` on whose system runs and loads a level, or `|systems|` if none does. */
  function FirstLoad(systems: seq<Sys>, loads: nat -> bool, i: nat): (k: nat)
    requires i <= |systems|
    ensures i <= k <= |systems|
    ensures forall j :: i <= j < k ==> !(Tick(systems[j]).1 && loads(j))
    ensures k < |systems| ==> Tick(systems[k]).1 && loads(k)
    decreases |systems| - i
  {
    if i == |systems| then i
    else if Tick(systems[i]).1 && loads(i) then i
    else FirstLoad(systems, loads, i + 1)
  }

  /**
   * How many systems an update visits: none if a level was already loaded
   * when it began, otherwise all up to and including the first one whose run
   * loads a level.
   */
  function Visited(systems: seq<Sys>, loaded: bool, loads: nat -> bool): (n: nat)
    ensures n <= |systems|
  {
    if loaded then 0
    else
      var k := FirstLoad(systems, loads, 0);
      if k < |systems| then k + 1 else k
  }

  /** The systems after visiting the first `n`: those ticked, the rest as they were. */
  function Ticked(systems: seq<Sys>, n: nat): (r: seq<Sys>)
    requires n <= |systems|
    ensures |r| == |systems|
  {
    seq(|systems|, i requires 0 <= i < |systems| => if i < n then Tick(systems[i]).0 else systems[i])
  }

  /** The positions below `n` whose systems run when visited, in increasing order. */
  function RanBelow(systems: seq<Sys>, n: nat): (r: seq<nat>)
    requires n <= |systems|
    ensures forall j: nat :: j in r <==> j < n && Tick(systems[j]).1
    ensures forall a :: 0 <= a < |r| ==> r[a] < n
    ensures forall a, b :: 0 <= a < b < |r| ==> r[a] < r[b]
  {
    if n == 0 then []
    else RanBelow(systems, n - 1) + (if Tick(systems[n - 1]).1 then [n - 1] else [])
  }

  /**
   * `update`: visits the systems in order, stopping as soon as the level
   * flag is up, and clears the flag on the way out.
   */
  method Update(systems: seq<Sys>, loaded: bool, loads: nat -> bool) returns (r: Pass)
    ensures var n := Visited(systems, loaded, loads);
      && r.systems == Ticked(systems, n)
      && r.executed == RanBelow(systems, n)
    ensures !r.levelLoaded
  {
    var flag := loaded;
    var current := systems;
    var executed: seq<nat> := [];
    var i := 0;
    while i < |systems|
      invariant 0 <= i <= |systems|
      invariant |current| == |systems|
      invariant loaded ==> i == 0
      invariant flag <==> loaded || (i > 0 && FirstLoad(systems, loads, 0) == i - 1)
      invariant !loaded ==> FirstLoad(systems, loads, 0) >= i - 1
      invariant current == Ticked(systems, i)
      invariant executed == RanBelow(systems, i)
    {
      if flag {
        break;
      }
      var ticked := Tick(current[i]);
      current := current[i := ticked.0];
      if ticked.1 {
        executed := executed + [i];
        if loads(i) {
          flag := true;
        }
      }
      i := i + 1;
    }
    flag := false;
    r := Pass(current, executed, flag);
  }

  /**
   * The pass in plain terms: the visited systems are exactly those before
   * the first level load and that one, and every visited system has counted
   * the frame (back to 0 if it ran); nothing after the cut changes.
   */
  lemma UpdateVisits(systems: seq<Sys>, loaded: bool, loads: nat -> bool, i: nat)
    requires i < |systems|
    ensures var n := Visited(systems, loaded, loads);
      && (i < n <==> !loaded && forall j :: 0 <= j < i ==> !(Tick(systems[j]).1 && loads(j)))
      && (i < n ==> Ticked(systems, n)[i].counter == (if Tick(systems[i]).1 then 0 else Wrap32(systems[i].counter + 1)))
      && (i >= n ==> Ticked(systems, n)[i] == systems[i])
  {
    var n := Visited(systems, loaded, loads);
    if !loaded {
      var k := FirstLoad(systems, loads, 0);
      if i >= n {
        assert k < i;
        assert Tick(systems[k]).1 && loads(k);
      }
    }
  }

  /** When no run loads a level, every system is visited. */
  lemma NoLoadVisitsAll(systems: seq<Sys>, loads: nat -> bool)
    requires forall j :: 0 <= j < |systems| ==> !loads(j)
    ensures Visited(systems, false, loads) == |systems|
  {
  }

  // A system across updates.

  /** A system visited in `n` updates in a row: its final state and how often it ran. */
  function Ticks(s: Sys, n: nat): (r: (Sys, nat))
    ensures r.1 <= n
    ensures r.0.every == s.every && r.0.running == s.running
  {
    if n == 0 then (s, 0)
    else
      var prev := Ticks(s, n - 1);
      var next := Tick(prev.0);
      (next.0, prev.1 + if next.1 then 1 else 0)
  }

  /**
   * A running system with period `every` and counter `c` below it waits
   * `every - c - 1` updates and runs on the next one, counter back to 0.
   */
  lemma {:induction false} RunsWhenDue(s: Sys, n: nat)
    requires s.running && 0 <= s.counter < s.every <= MAX_INT
    requires n <= s.every - s.counter
    ensures n < s.every - s.counter ==> Ticks(s, n) == (s.(counter := s.counter + n), 0)
    ensures n == s.every - s.counter ==> Ticks(s, n) == (s.(counter := 0), 1)
  {
    if n > 0 {
      RunsWhenDue(s, n - 1);
    }
  }

  /** Started from 0, a running system with period `p >= 1` runs exactly once in every `p` updates. */
  lemma {:induction false} RunsPeriodically(s: Sys, m: nat)
    requires s.running && s.counter == 0 && 1 <= s.every <= MAX_INT
    ensures Ticks(s, m * s.every) == (s, m)
  {
    if m > 0 {
      var p := s.every;
      var before: nat := (m - 1) * p;
      RunsPeriodically(s, m - 1);
      TicksSplit(s, before, p);
      RunsWhenDue(s, p);
      assert before + p == m * p;
    }
  }

  /** `n + k` updates are `n` updates followed by `k`. */
  lemma {:induction false} TicksSplit(s: Sys, n: nat, k: nat)
    ensures Ticks(s, n + k).0 == Ticks(Ticks(s, n).0, k).0
    ensures Ticks(s, n + k).1 == Ticks(s, n).1 + Ticks(Ticks(s, n).0, k).1
  {
    if k > 0 {
      TicksSplit(s, n, k - 1);
      assert n + k - 1 == n + (k - 1);
    }
  }

  /** A stopped system never runs; it keeps counting frames, wrapping as a Java `int` does. */
  lemma {:induction false} StoppedNeverRuns(s: Sys, n: nat)
    requires !s.running
    ensures Ticks(s, n).1 == 0
    ensures n > 0 ==> Ticks(s, n).0.counter == Wrap32(Ticks(s, n - 1).0.counter + 1)
  {
    if n > 0 {
      StoppedNeverRuns(s, n - 1);
    }
  }
}

=== FILE: instance_attributes.dfy ===
/**
 * The layout plan of an engine `InstanceAttributeList`: which vertex
 * attribute pointers `bindAttribPointers` sets up for a list of per-instance
 * attributes, and with which stride and byte offset.
 *
 * The GL calls are reduced to the pointer records they would receive. The
 * shader's attribute lookup is the parameter `locate` (-1 for an unknown
 * name), the number of instance buffers is `bufferCount`, and an
 * attribute's byte size (`InstanceAttribute.getSizeInBytes`) is one of its
 * fields. Offsets and strides are sums of attribute sizes and are kept
 * unbounded.
 */
module InstanceAttributes {
  import opened Outcome

  datatype Attribute = Attribute(name: string, numComponents: int, glType: int, bufferIndex: int, sizeInBytes: int)

  /** One `glVertexAttribPointer` or `glVertexAttribIPointer` call. */
  datatype Pointer = Pointer(location: int, size: int, glType: int, integer: bool, stride: int, offset: int)

  datatype BindError = BufferIndexOutOfBounds   // `buffers.get(bufferIndex)` fails

  /** The six integer component types, numbered as in the OpenGL 3.3 specification (table 2.5). */
  const GL_BYTE: int := 0x1400
  const GL_UNSIGNED_BYTE: int := 0x1401
  const GL_SHORT: int := 0x1402
  const GL_UNSIGNED_SHORT: int := 0x1403
  const GL_INT: int := 0x1404
  const GL_UNSIGNED_INT: int := 0x1405

  /** `isInteger`: the attribute goes through the integer pointer call. */
  predicate IsInteger(glType: int) {
    glType == GL_BYTE || glType == GL_UNSIGNED_BYTE || glType == GL_SHORT
    || glType == GL_UNSIGNED_SHORT || glType == GL_INT || glType == GL_UNSIGNED_INT
  }

  /** Exactly the six consecutive codes from `GL_BYTE` are integer types; `GL_FLOAT` (0x1406) is not. */
  lemma IsIntegerRange(glType: int)
    ensures IsInteger(glType) <==> 0x1400 <= glType <= 0x1405
    ensures !IsInteger(0x1406)
  {
  }

  // Strides.

  /** The total size of the attributes of buffer `b`. */
  function BufferSize(attrs: seq<Attribute>, b: int): (n: int)
    decreases |attrs|
  {
    if |attrs| == 0 then 0
    else BufferSize(attrs[..|attrs| - 1], b) + (if attrs[|attrs| - 1].bufferIndex == b then attrs[|attrs| - 1].sizeInBytes else 0)
  }

  /** The buffer indices the attributes use. */
  ghost predicate UsesBuffer(attrs: seq<Attribute>, b: int) {
    exists a :: a in attrs && a.bufferIndex == b
  }

  function GetOr(m: map<int, int>, k: int, d: int): int {
    if k in m then m[k] else d
  }

  /**
   * The first pass of `bindAttribPointers`: `strides.compute` adds each
   * attribute's size to its buffer's entry. Every buffer in use gets the
   * total size of its attributes, and no other buffer gets an entry.
   */
  function Strides(attrs: seq<Attribute>): (m: map<int, int>)
    ensures forall b :: b in m <==> UsesBuffer(attrs, b)
    ensures forall b :: b in m ==> m[b] == BufferSize(attrs, b)
    decreases |attrs|
  {
    if |attrs| == 0 then map[]
    else
      var init := attrs[..|attrs| - 1];
      var a := attrs[|attrs| - 1];
      assert attrs == init + [a];
      var m := Strides(init);
      assert forall b :: b !in m ==> BufferSize(init, b) == 0 by {
        forall b | b !in m ensures BufferSize(init, b) == 0 {
          NoUseNoSize(init, b);
        }
      }
      m[a.bufferIndex := GetOr(m, a.bufferIndex, 0) + a.sizeInBytes]
  }

  lemma {:induction false} NoUseNoSize(attrs: seq<Attribute>, b: int)
    requires !UsesBuffer(attrs, b)
    ensures BufferSize(attrs, b) == 0
    decreases |attrs|
  {
    if |attrs| > 0 {
      var init := attrs[..|attrs| - 1];
      assert !UsesBuffer(init, b) by {
        forall a | a in init ensures a.bufferIndex != b {
          assert a in attrs;
        }
      }
      NoUseNoSize(init, b);
    }
  }

  // The pointers of one attribute.

  /** The number of locations an attribute of `n` components takes: `ceil(n / 4)`, none for `n <= 0`. */
  function Locations(n: int): (k: nat)
    ensures n > 0 ==> 4 * (k - 1) < n <= 4 * k
  {
    if n <= 0 then 0 else (n + 3) / 4
  }

  function Min(a: int, b: int): int { if a < b then a else b }

  /**
   * The pointers of one located attribute: location `loc + j` takes the
   * components `4j` to `4j + 3` that exist, at `base + 16j` bytes.
   */
  function AttributePointers(a: Attribute, loc: int, stride: int, base: int): (r: seq<Pointer>)
    ensures |r| == Locations(a.numComponents)
    ensures forall j :: 0 <= j < |r| ==>
      && r[j].location == loc + j
      && r[j].offset == base + 16 * j
      && 1 <= r[j].size <= 4
      && r[j].stride == stride && r[j].glType == a.glType
      && r[j].integer == IsInteger(a.glType)
  {
    seq(Locations(a.numComponents), j requires 0 <= j < Locations(a.numComponents) =>
      Pointer(loc + j, Min(a.numComponents - 4 * j, 4), a.glType, IsInteger(a.glType), stride, base + 16 * j))
  }

  function Components(ps: seq<Pointer>): int {
    if |ps| == 0 then 0 else Components(ps[..|ps| - 1]) + ps[|ps| - 1].size
  }

  /** Together the locations carry every component once: all but the last take four. */
  lemma {:induction false} PointersCoverComponents(a: Attribute, loc: int, stride: int, base: int, k: nat)
    requires k <= Locations(a.numComponents)
    ensures Components(AttributePointers(a, loc, stride, base)[..k]) == Min(4 * k, if a.numComponents < 0 then 0 else a.numComponents)
  {
    var ps := AttributePointers(a, loc, stride, base);
    if k > 0 {
      PointersCoverComponents(a, loc, stride, base, k - 1);
      assert ps[..k][..k - 1] == ps[..k - 1];
    }
  }

  // The second pass.

  /**
   * The second pass of `bindAttribPointers` over `attrs`: the pointers set
   * so far and each buffer's running offset. An attribute the shader does
   * not know sets no pointer and leaves the offset alone; a buffer index
   * outside the buffer list fails.
   */
  function Bind(attrs: seq<Attribute>, locate: string -> int, bufferCount: int, strides: map<int, int>): (r: Result<(seq<Pointer>, map<int, int>), BindError>)
    decreases |attrs|
  {
    if |attrs| == 0 then Ok(([], map[]))
    else
      match Bind(attrs[..|attrs| - 1], locate, bufferCount, strides)
      case Err(e) => Err(e)
      case Ok((calls, offsets)) =>
        var a := attrs[|attrs| - 1];
        if !(0 <= a.bufferIndex < bufferCount) then Err(BufferIndexOutOfBounds)
        else
          var loc := locate(a.name);
          if loc == -1 then Ok((calls, offsets))
          else
            var base := GetOr(offsets, a.bufferIndex, 0);
            Ok((calls + AttributePointers(a, loc, GetOr(strides, a.bufferIndex, 0), base),
                offsets[a.bufferIndex := base + a.sizeInBytes]))
  }

  /** The total size of the located attributes of buffer `b`. */
  function LocatedSize(attrs: seq<Attribute>, locate: string -> int, b: int): int
    decreases |attrs|
  {
    if |attrs| == 0 then 0
    else
      var a := attrs[|attrs| - 1];
      LocatedSize(attrs[..|attrs| - 1], locate, b) + (if a.bufferIndex == b && locate(a.name) != -1 then a.sizeInBytes else 0)
  }

  /**
   * Each buffer's running offset is the size of the located attributes of
   * that buffer so far, and the bind fails exactly when some attribute
   * names a buffer that does not exist.
   */
  lemma {:induction false} BindOffsets(attrs: seq<Attribute>, locate: string -> int, bufferCount: int, strides: map<int, int>)
    ensures var r := Bind(attrs, locate, bufferCount, strides);
      && (r.Err? <==> exists i :: 0 <= i < |attrs| && !(0 <= attrs[i].bufferIndex < bufferCount))
      && (r.Ok? ==> forall b :: GetOr(r.value.1, b, 0) == LocatedSize(attrs, locate, b))
    decreases |attrs|
  {
    if |attrs| > 0 {
      var init := attrs[..|attrs| - 1];
      BindOffsets(init, locate, bufferCount, strides);
      assert forall i :: 0 <= i < |init| ==> init[i] == attrs[i];
    }
  }

  /**
   * The inner loop of `bindAttribPointers` for one located attribute: while
   * components remain, one pointer of at most four of them, then the next
   * location.
   */
  method PointAttribute(a: Attribute, loc: int, stride: int, offset: int) returns (calls: seq<Pointer>)
    ensures calls == AttributePointers(a, loc, stride, offset)
  {
    ghost var ps := AttributePointers(a, loc, stride, offset);
    var remaining := a.numComponents;
    var l := loc;
    calls := [];
    while remaining > 0
      invariant 0 <= |calls| <= |ps|
      invariant l == loc + |calls|
      invariant |calls| < |ps| ==> remaining == a.numComponents - 4 * |calls| > 0
      invariant |calls| == |ps| ==> remaining <= 0
      invariant calls == ps[..|calls|]
      decreases remaining
    {
      var p := Pointer(l, Min(remaining, 4), a.glType, IsInteger(a.glType), stride,
                       offset + (a.numComponents - remaining) * 4);
      assert p == ps[|calls|];
      assert ps[..|calls| + 1] == ps[..|calls|] + [p];
      calls := calls + [p];
      remaining := remaining - Min(remaining, 4);
      l := l + 1;
    }
    assert ps[..|calls|] == ps;
  }

  /**
   * `bindAttribPointers`: strides first, then, for each attribute in order,
   * the pointers of every location it takes. Returns the pointer calls made.
   */
  method BindAttribPointers(attrs: seq<Attribute>, locate: string -> int, bufferCount: int) returns (r: Result<seq<Pointer>, BindError>)
    ensures var plan := Bind(attrs, locate, bufferCount, Strides(attrs));
      r.Err? == plan.Err? && (r.Ok? ==> r.value == plan.value.0)
  {
    var strides := Strides(attrs);
    var calls: seq<Pointer> := [];
    var offsets: map<int, int> := map[];
    var i := 0;
    while i < |attrs|
      invariant 0 <= i <= |attrs|
      invariant Bind(attrs[..i], locate, bufferCount, strides) == Ok((calls, offsets))
    {
      BindStep(attrs, locate, bufferCount, strides, i, calls, offsets);
      var next := BindNext(attrs[i], locate, bufferCount, strides, calls, offsets);
      if next.Err? {
        BindFailureSticks(attrs, locate, bufferCount, strides, i + 1);
        return Err(BufferIndexOutOfBounds);
      }
      calls, offsets := next.value.0, next.value.1;
      i := i + 1;
    }
    assert attrs[..|attrs|] == attrs;
    r := Ok(calls);
  }

  /** The loop body for one attribute: fail on a bad buffer, skip an unknown name, else point it. */
  method BindNext(a: Attribute, locate: string -> int, bufferCount: int, strides: map<int, int>,
                  calls: seq<Pointer>, offsets: map<int, int>) returns (r: Result<(seq<Pointer>, map<int, int>), BindError>)
    ensures r == BindAttribute(a, locate, bufferCount, strides, calls, offsets)
  {
    if !(0 <= a.bufferIndex < bufferCount) {
      return Err(BufferIndexOutOfBounds);
    }
    var loc := locate(a.name);
    if loc == -1 {
      return Ok((calls, offsets));
    }
    var offset := GetOr(offsets, a.bufferIndex, 0);
    var more := PointAttribute(a, loc, GetOr(strides, a.bufferIndex, 0), offset);
    r := Ok((calls + more, offsets[a.bufferIndex := offset + a.sizeInBytes]));
  }

  /** What one attribute adds to the plan's pointers and offsets. */
  function BindAttribute(a: Attribute, locate: string -> int, bufferCount: int, strides: map<int, int>,
                         calls: seq<Pointer>, offsets: map<int, int>): Result<(seq<Pointer>, map<int, int>), BindError>
  {
    if !(0 <= a.bufferIndex < bufferCount) then Err(BufferIndexOutOfBounds)
    else if locate(a.name) == -1 then Ok((calls, offsets))
    else
      var base := GetOr(offsets, a.bufferIndex, 0);
      Ok((calls + AttributePointers(a, locate(a.name), GetOr(strides, a.bufferIndex, 0), base),
          offsets[a.bufferIndex := base + a.sizeInBytes]))
  }

  /** One more attribute of the plan: the step the loop body takes. */
  lemma BindStep(attrs: seq<Attribute>, locate: string -> int, bufferCount: int, strides: map<int, int>,
                 i: nat, calls: seq<Pointer>, offsets: map<int, int>)
    requires i < |attrs| && Bind(attrs[..i], locate, bufferCount, strides) == Ok((calls, offsets))
    ensures Bind(attrs[..i + 1], locate, bufferCount, strides) == BindAttribute(attrs[i], locate, bufferCount, strides, calls, offsets)
  {
    assert attrs[..i + 1][..i] == attrs[..i] && attrs[..i + 1][i] == attrs[i];
  }

  /** Once a prefix fails, every longer prefix fails too. */
  lemma {:induction false} BindFailureSticks(attrs: seq<Attribute>, locate: string -> int, bufferCount: int, strides: map<int, int>, i: nat)
    requires 0 < i <= |attrs| && Bind(attrs[..i], locate, bufferCount, strides).Err?
    ensures Bind(attrs, locate, bufferCount, strides).Err?
    decreases |attrs| - i
  {
    if i < |attrs| {
      assert attrs[..i + 1][..i] == attrs[..i];
      BindFailureSticks(attrs, locate, bufferCount, strides, i + 1);
    } else {
      assert attrs[..i] == attrs;
    }
  }

  // The list's size.

  datatype AttributeList = AttributeList(attributes: seq<Attribute>, sizeInBytes: int)

  /** The constructor stores the attributes; the size field keeps Java's default of 0. */
  function NewList(attrs: seq<Attribute>): (l: AttributeList)
    ensures l.attributes == attrs
  {
    AttributeList(attrs, 0)
  }

  /** `sizeInBytes()` as written: the field, which nothing ever assigns. */
  function SizeInBytesAsWritten(l: AttributeList): int {
    l.sizeInBytes
  }

  /** A list of one 16-byte attribute reports 0 bytes. */
  lemma SizeInBytesAsWrittenIsZero()
    ensures var l := NewList([Attribute("aColor", 4, 0x1406, 0, 16)]);
      SizeInBytesAsWritten(l) == 0 && TotalSize(l.attributes) == 16
  {
  }

  /** The size of the list as documented: the sum of its attributes' sizes. */
  function TotalSize(attrs: seq<Attribute>): int {
    if |attrs| == 0 then 0 else TotalSize(attrs[..|attrs| - 1]) + attrs[|attrs| - 1].sizeInBytes
  }

  /** `sizeInBytes()` as evidently intended. */
  function SizeInBytes(l: AttributeList): (n: int)
    ensures forall b :: n == BufferSize(l.attributes, b) + TotalSize(Others(l.attributes, b))
  {
    SizeIsSumOfBuffersAll(l.attributes);
    TotalSize(l.attributes)
  }

  lemma SizeIsSumOfBuffersAll(attrs: seq<Attribute>)
    ensures forall b :: TotalSize(attrs) == BufferSize(attrs, b) + TotalSize(Others(attrs, b))
  {
    forall b {
      SizeIsSumOfBuffers(attrs, b);
    }
  }

  /** The intended size is the sum of all buffers' strides. */
  lemma {:induction false} SizeIsSumOfBuffers(attrs: seq<Attribute>, b: int)
    ensures TotalSize(attrs) == BufferSize(attrs, b) + TotalSize(Others(attrs, b))
    decreases |attrs|
  {
    if |attrs| > 0 {
      var init := attrs[..|attrs| - 1];
      SizeIsSumOfBuffers(init, b);
      var a := attrs[|attrs| - 1];
      if a.bufferIndex != b {
        assert Others(attrs, b)[..|Others(attrs, b)| - 1] == Others(init, b);
      } else {
        assert Others(attrs, b) == Others(init, b);
      }
    }
  }

  /** The attributes not in buffer `b`, in order. */
  function Others(attrs: seq<Attribute>, b: int): seq<Attribute> {
    if |attrs| == 0 then []
    else Others(attrs[..|attrs| - 1], b) + (if attrs[|attrs| - 1].bufferIndex == b then [] else [attrs[|attrs| - 1]])
  }
}

=== FILE: java_int.dfy ===
/**
 * Java `int` semantics on top of Dafny's unbounded integers: 32-bit two's
 * complement wrap-around, the narrowing cast to `short`, and the truncating
 * division and remainder operators (Dafny's own `/` and `%` are Euclidean).
 */
module JavaInt {

  const MIN_INT: int := -0x8000_0000
  const MAX_INT: int := 0x7FFF_FFFF
  const TWO_32: int := 0x1_0000_0000

  predicate IsInt32(x: int) { MIN_INT <= x <= MAX_INT }

  /** The value of the low 32 bits of `x` read as a signed `int`. */
  function Wrap32(x: int): (r: int)
    ensures IsInt32(r)
    ensures (r - x) % TWO_32 == 0
    ensures IsInt32(x) ==> r == x
  {
    (x - MIN_INT) % TWO_32 + MIN_INT
  }

  /** Java's `(short) x`: the low 16 bits read as a signed value. */
  function ToShort(x: int): (r: int)
    ensures -0x8000 <= r < 0x8000
    ensures (r - x) % 0x1_0000 == 0
    ensures -0x8000 <= x < 0x8000 ==> r == x
  {
    (x + 0x8000) % 0x1_0000 - 0x8000
  }

  /** Java's `a / b` for `b != 0` before wrap-around: the quotient rounded toward zero. */
  function Div(a: int, b: int): (q: int)
    requires b != 0
  {
    var m := (if a < 0 then -a else a) / (if b < 0 then -b else b);
    if (a < 0) == (b < 0) then m else -m
  }

  /** Java's `a % b` for `b != 0`: the remainder that goes with `Div`. */
  function Rem(a: int, b: int): (r: int)
    requires b != 0
  {
    a - b * Div(a, b)
  }

  function Abs(x: int): nat { if x < 0 then -x else x }

  /**
   * The truncating quotient never overshoots: `q * b` lies between 0 and `a`,
   * the remainder has the sign of `a` (or is zero) and is smaller than `|b|`.
   */
  lemma DivTruncates(a: int, b: int)
    requires b != 0
    ensures a == b * Div(a, b) + Rem(a, b)
    ensures Abs(Rem(a, b)) < Abs(b)
    ensures a >= 0 ==> Rem(a, b) >= 0
    ensures a < 0 ==> Rem(a, b) <= 0
    ensures Abs(b * Div(a, b)) <= Abs(a)
  {
    var m := Abs(a) / Abs(b);
    var r := Abs(a) % Abs(b);
    var p := Abs(b) * m;
    NatDivision(Abs(a), Abs(b));
    assert Div(a, b) == (if (a < 0) == (b < 0) then m else -m);
    MulSigns(b, m, p);
    if a >= 0 {
      assert b * Div(a, b) == p;
    } else {
      assert b * Div(a, b) == -p;
    }
  }

  /** Euclidean division of naturals, stated on plain variables. */
  lemma NatDivision(n: int, d: int)
    requires n >= 0 && d > 0
    ensures n == d * (n / d) + n % d && 0 <= n % d < d && 0 <= d * (n / d) <= n
  {
  }

  /** `b * m` and `-b * m` against `|b| * m`. */
  lemma MulSigns(b: int, m: int, p: int)
    requires p == Abs(b) * m
    ensures b > 0 ==> b * m == p && b * -m == -p
    ensures b < 0 ==> b * m == -p && b * -m == p
  {
  }

  /** Truncating and floor division disagree exactly on negative non-exact quotients. */
  lemma DivDiffersFromEuclidean()
    ensures Div(-7, 2) == -3 && -7 / 2 == -4
    ensures Rem(-7, 2) == -1 && -7 % 2 == 1
  {
  }

  /** For a non-negative dividend and positive divisor the two divisions agree. */
  lemma DivAgreesOnNonNegative(a: int, b: int)
    requires a >= 0 && b > 0
    ensures Div(a, b) == a / b && Rem(a, b) == a % b
  {
  }
}

=== FILE: level.dfy ===
/**
 * The game's `Level`: a chunk tree filled on demand by a generator, and the
 * lookup of a block by world position.
 *
 * The generator (`IGenerator.generateChunk`) is the parameter `gen`; it may
 * return `null`, written `None`, which `LevelChunkTree.insert` then
 * dereferences.
 */
module Levels {
  import opened Outcome
  import opened ChunkGrid
  import opened ChunkUtils
  import opened ChunkTree
  import LevelChunks

  type Generator = Vec3 -> Option<Chunk>

  datatype Level = Level(chunks: Tree)

  datatype LevelError =
    | NullChunk                          // the generator returned null and `insert` dereferenced it
    | Tile(error: LevelChunks.ChunkError) // `getBlockAt` refused the coordinates

  /** Every chunk object has its full grid of cells. */
  predicate Wf(l: Level) {
    ChunkTree.Wf(l.chunks) && l.chunks.Node?
    && forall c :: c in Chunks(l.chunks) ==> LevelChunks.Wf(c)
  }

  function NewLevel(): (l: Level)
    ensures Wf(l) && Chunks(l.chunks) == multiset{}
  {
    var l := Level(EmptyRoot());
    NilSubChunks(l.chunks, 8);
    l
  }

  /** The generator only ever builds well-formed chunks. */
  ghost predicate GenWf(gen: Generator) {
    forall p :: gen(p).Some? ==> LevelChunks.Wf(gen(p).value)
  }

  /** The generator builds the chunk it was asked for. */
  ghost predicate Honest(gen: Generator) {
    forall p :: gen(p).Some? ==> Pos(gen(p).value) == p
  }

  /**
   * `getChunk`: a chunk the tree finds is returned as is; otherwise the
   * generator builds one, which is inserted and returned.
   */
  function GetChunk(l: Level, gen: Generator, p: Vec3): (r: (Level, Result<Chunk, LevelError>))
    requires Wf(l) && GenWf(gen)
    ensures Wf(r.0)
    ensures Find(l.chunks, p).Some? ==> r == (l, Ok(Find(l.chunks, p).value))
    ensures Find(l.chunks, p).None? && gen(p).None? ==> r == (l, Err(NullChunk))
    ensures Find(l.chunks, p).None? && gen(p).Some? ==>
      r.1 == Ok(gen(p).value) && r.0.chunks == Insert(l.chunks, gen(p).value)
    ensures r.1.Ok? ==> LevelChunks.Wf(r.1.value)
    ensures r.1.Ok? && (Find(l.chunks, p).Some? || Honest(gen)) ==>
      Pos(r.1.value) == p && r.1.value in Chunks(r.0.chunks)
  {
    var found := Find(l.chunks, p);
    if found.Some? then (l, Ok(found.value))
    else if gen(p).None? then (l, Err(NullChunk))
    else
      var c := gen(p).value;
      InsertGenerated(l, c);
      (Level(Insert(l.chunks, c)), Ok(c))
  }

  /** Inserting a well-formed chunk keeps the level well formed and makes the chunk findable. */
  lemma InsertGenerated(l: Level, c: Chunk)
    requires Wf(l) && LevelChunks.Wf(c)
    ensures Wf(Level(Insert(l.chunks, c)))
    ensures Find(l.chunks, Pos(c)).None? ==> c in Chunks(Insert(l.chunks, c))
    ensures Find(Insert(l.chunks, c), Pos(c)).Some?
  {
    InsertAddsChunk(l.chunks, c);
    FindAfterInsert(l.chunks, c);
  }

  /** Once a chunk was produced, asking again returns it without consulting any generator. */
  lemma GetChunkRemembers(l: Level, gen: Generator, gen': Generator, p: Vec3)
    requires Wf(l) && GenWf(gen) && GenWf(gen') && Honest(gen)
    ensures var (l1, r1) := GetChunk(l, gen, p);
      r1.Ok? ==> GetChunk(l1, gen', p) == (l1, r1)
  {
    var (l1, r1) := GetChunk(l, gen, p);
    if r1.Ok? && Find(l.chunks, p).None? {
      FindAfterInsert(l.chunks, r1.value);
    }
  }

  /** `getChunkAtPosition`: the chunk of the chunk coordinates of a world position. */
  function GetChunkAtPosition(l: Level, gen: Generator, x: int, y: int, z: int): (r: (Level, Result<Chunk, LevelError>))
    requires Wf(l) && GenWf(gen)
    ensures Wf(r.0)
    ensures r == GetChunk(l, gen, ToChunkCoordinates(x, y, z))
  {
    GetChunk(l, gen, ToChunkCoordinates(x, y, z))
  }

  /**
   * `getTileAt` as written: the world coordinates themselves go to
   * `getBlockAt`, which accepts only 0 to 15 on each axis.
   */
  function GetTileAtAsWritten(l: Level, gen: Generator, x: int, y: int, z: int): (r: (Level, Result<Option<LevelChunks.Block>, LevelError>))
    requires Wf(l) && GenWf(gen)
    ensures Wf(r.0)
    ensures r.1.Ok? ==> InChunk(x, y, z)
  {
    BlockOf(GetChunkAtPosition(l, gen, x, y, z), x, y, z)
  }

  /** The second half of `getTileAt`: `getBlockAt` on the chunk obtained, if there is one. */
  function BlockOf(got: (Level, Result<Chunk, LevelError>), x: int, y: int, z: int): (r: (Level, Result<Option<LevelChunks.Block>, LevelError>))
    requires got.1.Ok? ==> LevelChunks.Wf(got.1.value)
    ensures r.0 == got.0
    ensures r.1.Ok? <==> got.1.Ok? && InChunk(x, y, z)
    ensures got.1.Err? ==> r.1 == Err(got.1.error)
    ensures r.1.Ok? ==> r.1.value == got.1.value.blocks[CellIndex(x, y, z)]
  {
    match got.1
    case Err(e) => (got.0, Err(e))
    case Ok(c) =>
      match LevelChunks.GetBlockAt(c, x, y, z)
      case Err(e) => (got.0, Err(Tile(e)))
      case Ok(b) => (got.0, Ok(b))
  }

  /** Any position outside the origin chunk's 16-cube is refused, though its chunk is loaded. */
  lemma GetTileAtAsWrittenRefuses(l: Level, gen: Generator)
    requires Wf(l) && GenWf(gen)
    ensures var (l', r) := GetTileAtAsWritten(l, gen, 16, 0, 0);
      r.Err? && (GetChunkAtPosition(l, gen, 16, 0, 0).1.Ok? ==> r == Err(Tile(LevelChunks.OutOfBounds)))
    ensures ToChunkCoordinates(16, 0, 0) == Vec3(1, 0, 0)
  {
    FloatOfExact(16);
    FloatOfExact(0);
  }

  /**
   * `getTileAt` as evidently intended: the block at the position's inner
   * coordinates within its chunk. It fails only when the chunk cannot be had.
   */
  function GetTileAt(l: Level, gen: Generator, x: int, y: int, z: int): (r: (Level, Result<Option<LevelChunks.Block>, LevelError>))
    requires Wf(l) && GenWf(gen)
    ensures Wf(r.0)
    ensures var (l', chunk) := GetChunkAtPosition(l, gen, x, y, z);
      && r.0 == l'
      && (r.1.Err? <==> chunk.Err?)
      && (chunk.Ok? ==> r.1.value == chunk.value.blocks[CellIndex(Inner(x), Inner(y), Inner(z))])
  {
    var inner := ToInnerChunkCoordinates(x, y, z);
    BlockOf(GetChunkAtPosition(l, gen, x, y, z), inner.x, inner.y, inner.z)
  }

  /**
   * With an honest generator, the block `getTileAt` returns sits in the chunk
   * whose grid contains the position: chunk origin plus inner offset is the
   * position, on every axis within float exactness.
   */
  lemma GetTileAtLocatesBlock(l: Level, gen: Generator, x: int, y: int, z: int)
    requires Wf(l) && GenWf(gen) && Honest(gen)
    requires -0x100_0000 <= x <= 0x100_0000 && -0x100_0000 <= y <= 0x100_0000 && -0x100_0000 <= z <= 0x100_0000
    ensures var (_, chunk) := GetChunkAtPosition(l, gen, x, y, z);
      chunk.Ok? ==>
        && chunk.value.x * CHUNK_SIZE + Inner(x) == x
        && chunk.value.y * CHUNK_SIZE + Inner(y) == y
        && chunk.value.z * CHUNK_SIZE + Inner(z) == z
  {
    ChunkAndInnerRebuild(x);
    ChunkAndInnerRebuild(y);
    ChunkAndInnerRebuild(z);
  }

  /** Inside the origin chunk the two versions agree. */
  lemma GetTileAtAgreesInOriginChunk(l: Level, gen: Generator, x: int, y: int, z: int)
    requires Wf(l) && GenWf(gen) && InChunk(x, y, z)
    ensures GetTileAtAsWritten(l, gen, x, y, z) == GetTileAt(l, gen, x, y, z)
  {
    assert ToInnerChunkCoordinates(x, y, z) == Vec3(x, y, z);
  }
}

=== FILE: level3d.dfy ===
/**
 * The chunk store of the demo's 3D level (`Level3D`): loaded chunks by chunk
 * coordinates, filled on demand by the level's generator.
 *
 * The generator (`IGenerator.generateChunk`) is not part of this model; it
 * is a function from chunk coordinates to a chunk, or to `None` for the
 * generator that returns `null`. A level whose generator was never set
 * holds `None` there, and asking it to load a missing chunk fails as the
 * `NullPointerException` the source throws.
 */
module Level3DStore {
  import opened Outcome
  import opened ChunkGrid
  import ChunkUtils
  import TextureAtlas
  import DemoChunks

  type Generator = Vec3 -> Option<DemoChunks.Chunk>

  datatype Level3D = Level3D(chunks: DemoChunks.Loaded, atlas: TextureAtlas.Atlas, generator: Option<Generator>, seed: int)

  datatype LevelError = NoGenerator   // `this.generator` is still `null`

  /** The textures the constructor adds, in order. */
  const TEXTURES: seq<TextureAtlas.Resource> :=
    ["/textures/floor_1.png", "/textures/floor_damaged.png", "/textures/floor_hole.png", "/textures/wall.png"]

  /** Every stored chunk has a full grid and buffer, and so does every chunk the generator makes. */
  ghost predicate Wf(l: Level3D) {
    && DemoChunks.LoadedWf(l.chunks)
    && TextureAtlas.Wf(l.atlas)
    && (l.generator.Some? ==> GenWf(l.generator.value))
  }

  ghost predicate GenWf(gen: Generator) {
    forall p :: gen(p).Some? ==> DemoChunks.Wf(gen(p).value)
  }

  /**
   * Adds the resources to the atlas one after the other. The first refusal
   * ends it: `add` throws, and the constructor does not catch the exception.
   */
  function AddAll(a: TextureAtlas.Atlas, pack: TextureAtlas.Packer, rs: seq<TextureAtlas.Resource>): (r: Result<TextureAtlas.Atlas, TextureAtlas.AtlasError>)
    requires TextureAtlas.Wf(a)
    ensures r.Ok? ==> TextureAtlas.Wf(r.value)
    ensures r.Ok? ==> |r.value.entries| == |a.entries| + |rs| && r.value.entries[..|a.entries|] == a.entries
    ensures r.Ok? ==> forall k :: k in r.value.indices <==> k in a.indices || k in rs
    ensures |rs| > 0 && TextureAtlas.Add(a, pack, rs[0]).1.Err? ==> r == Err(TextureAtlas.Add(a, pack, rs[0]).1.error)
    decreases |rs|
  {
    if |rs| == 0 then Ok(a)
    else
      var (a1, out) := TextureAtlas.Add(a, pack, rs[0]);
      if out.Err? then Err(out.error)
      else
        var r := AddAll(a1, pack, rs[1..]);
        assert r.Ok? ==> r.value.entries[..|a.entries|] == a1.entries[..|a.entries|];
        r
  }

  /**
   * The constructor: no chunks, no generator, and an atlas holding exactly
   * the four level textures; a texture the atlas refuses makes it fail.
   */
  function NewLevel(seed: int, pack: TextureAtlas.Packer): (r: Result<Level3D, TextureAtlas.AtlasError>)
    ensures r.Ok? ==> Wf(r.value) && r.value.chunks == map[] && r.value.generator.None? && r.value.seed == seed
    ensures r.Ok? ==> |r.value.atlas.entries| == 4
    ensures r.Ok? ==> forall k :: k in r.value.atlas.indices <==> k in TEXTURES
    ensures r.Err? ==> r.error != TextureAtlas.Full
  {
    match AddAll(TextureAtlas.Empty(), pack, TEXTURES)
    case Err(e) =>
      AddAllNeverFull(TextureAtlas.Empty(), pack, TEXTURES);
      Err(e)
    case Ok(atlas) => Ok(Level3D(map[], atlas, None, seed))
  }

  /** Adding a few resources to an atlas far from its entry limit never reports it full. */
  lemma {:induction false} AddAllNeverFull(a: TextureAtlas.Atlas, pack: TextureAtlas.Packer, rs: seq<TextureAtlas.Resource>)
    requires TextureAtlas.Wf(a) && |a.entries| + |rs| <= TextureAtlas.MAX_ENTRIES
    ensures AddAll(a, pack, rs).Err? ==> AddAll(a, pack, rs).error != TextureAtlas.Full
    decreases |rs|
  {
    if |rs| > 0 {
      var (a1, out) := TextureAtlas.Add(a, pack, rs[0]);
      if out.Ok? {
        AddAllNeverFull(a1, pack, rs[1..]);
      }
    }
  }

  /** When every texture fits a blank page, construction succeeds. */
  lemma {:induction false} NewLevelSucceedsWhenTexturesFit(seed: int, pack: TextureAtlas.Packer)
    requires forall t :: t in TEXTURES ==> pack(TextureAtlas.Page([]), t).Some?
    ensures NewLevel(seed, pack).Ok?
  {
    AddAllFits(TextureAtlas.Empty(), pack, TEXTURES);
  }

  /** A resource that fits a blank page is refused only for lack of entries or pages. */
  lemma {:induction false} AddAllFits(a: TextureAtlas.Atlas, pack: TextureAtlas.Packer, rs: seq<TextureAtlas.Resource>)
    requires TextureAtlas.Wf(a)
    requires |a.entries| + |rs| <= TextureAtlas.MAX_ENTRIES && |a.pages| + |rs| <= TextureAtlas.MAX_TEXTURES
    requires forall t :: t in rs ==> pack(TextureAtlas.Page([]), t).Some?
    ensures AddAll(a, pack, rs).Ok?
    decreases |rs|
  {
    if |rs| > 0 {
      var (a1, out) := TextureAtlas.Add(a, pack, rs[0]);
      assert rs[0] in rs;
      assert out.Ok?;
      assert forall t :: t in rs[1..] ==> t in rs;
      AddAllFits(a1, pack, rs[1..]);
    }
  }

  /** `generator(g)`: installs the generator; nothing else changes. */
  function SetGenerator(l: Level3D, gen: Generator): (r: Level3D)
    requires GenWf(gen)
    ensures r.generator == Some(gen) && r.chunks == l.chunks && r.atlas == l.atlas
    ensures Wf(l) ==> Wf(r)
  {
    l.(generator := Some(gen))
  }

  /**
   * `chunk(x, y, z, load)`. Without `load` a plain lookup, `None` for a
   * missing chunk. With `load` a stored chunk is returned as it is; a missing
   * one is generated and stored, unless the generator gives `null`, which is
   * returned and not stored (`computeIfAbsent`).
   */
  function ChunkAt(l: Level3D, p: Vec3, load: bool): (r: (Level3D, Result<Option<DemoChunks.Chunk>, LevelError>))
    requires Wf(l)
    ensures Wf(r.0)
    ensures p in l.chunks ==> r == (l, Ok(Some(l.chunks[p])))
    ensures !load ==> r == (l, Ok(None)) || p in l.chunks
    ensures r.1 == Err(NoGenerator) <==> load && p !in l.chunks && l.generator.None?
    ensures r.1.Ok? && r.1.value.Some? ==> p in r.0.chunks && r.0.chunks[p] == r.1.value.value
    ensures r.0.chunks.Keys == l.chunks.Keys || r.0.chunks.Keys == l.chunks.Keys + {p}
    ensures r.0.chunks.Keys != l.chunks.Keys ==>
      load && p !in l.chunks && l.generator.Some? && l.generator.value(p).Some?
    ensures forall q :: q in l.chunks ==> q in r.0.chunks && r.0.chunks[q] == l.chunks[q]
    ensures r.0.atlas == l.atlas && r.0.generator == l.generator
  {
    if p in l.chunks then (l, Ok(Some(l.chunks[p])))
    else if !load then (l, Ok(None))
    else match l.generator
      case None => (l, Err(NoGenerator))
      case Some(gen) =>
        match gen(p)
        case None => (l, Ok(None))
        case Some(c) => (l.(chunks := l.chunks[p := c]), Ok(Some(c)))
  }

  /** `chunkCount`: the number of stored chunk coordinates. */
  function ChunkCount(l: Level3D): (n: nat)
    ensures n == 0 <==> l.chunks == map[]
  {
    if l.chunks == map[] then 0
    else
      var p :| p in l.chunks;
      assert p in l.chunks.Keys;
      |l.chunks.Keys|
  }

  /** Loading grows the count by one exactly when a chunk was generated and stored; a lookup never changes it. */
  lemma ChunkAtCount(l: Level3D, p: Vec3, load: bool)
    requires Wf(l)
    ensures var r := ChunkAt(l, p, load);
      && (ChunkCount(r.0) == ChunkCount(l) || ChunkCount(r.0) == ChunkCount(l) + 1)
      && (ChunkCount(r.0) == ChunkCount(l) + 1 <==> load && p !in l.chunks && r.1.Ok? && r.1.value.Some?)
  {
    var r := ChunkAt(l, p, load);
    if r.0.chunks.Keys != l.chunks.Keys {
      assert r.0.chunks.Keys == l.chunks.Keys + {p} && p !in l.chunks.Keys;
      assert r.0.chunks != map[] by { assert p in r.0.chunks; }
    }
  }

  /**
   * Memoisation: once `chunk(p, true)` gave a chunk, both a lookup and a
   * second load give the same chunk without calling the generator again or
   * changing the level.
   */
  lemma ChunkAtMemoises(l: Level3D, p: Vec3)
    requires Wf(l)
    ensures var (l1, out) := ChunkAt(l, p, true);
      out.Ok? && out.value.Some? ==>
        && ChunkAt(l1, p, false) == (l1, Ok(out.value))
        && ChunkAt(l1, p, true) == (l1, Ok(out.value))
  {
  }

  /** A stored chunk is returned whatever the generator would make for it now. */
  lemma ChunkAtIgnoresGenerator(l: Level3D, p: Vec3, gen: Generator)
    requires Wf(l) && GenWf(gen) && p in l.chunks
    ensures ChunkAt(SetGenerator(l, gen), p, true).1 == ChunkAt(l, p, false).1
  {
  }

  /**
   * `chunkByWorldCoordinates`: the chunk holding world position (x, y, z),
   * found by `floor(x / 16f)` per axis.
   */
  function ChunkByWorldCoordinates(l: Level3D, x: int, y: int, z: int, load: bool): (r: (Level3D, Result<Option<DemoChunks.Chunk>, LevelError>))
    requires Wf(l)
    ensures Wf(r.0)
  {
    ChunkAt(l, ChunkUtils.ToChunkCoordinates(x, y, z), load)
  }

  /**
   * Within 2^24 of the origin on every axis the float division is exact, so
   * the chunk asked for is the one whose 16-block span holds the position.
   */
  lemma ChunkByWorldIsContainingChunk(l: Level3D, x: int, y: int, z: int, load: bool, q: Vec3)
    requires Wf(l)
    requires -0x100_0000 <= x <= 0x100_0000 && -0x100_0000 <= y <= 0x100_0000 && -0x100_0000 <= z <= 0x100_0000
    requires q.x * 16 <= x < q.x * 16 + 16 && q.y * 16 <= y < q.y * 16 + 16 && q.z * 16 <= z < q.z * 16 + 16
    ensures ChunkByWorldCoordinates(l, x, y, z, load) == ChunkAt(l, q, load)
  {
    ChunkUtils.ToChunkIsFloor(x);
    ChunkUtils.ToChunkIsFloor(y);
    ChunkUtils.ToChunkIsFloor(z);
    assert ChunkUtils.ToChunkCoordinates(x, y, z) == q;
  }
}

=== FILE: level_chunk.dfy ===
/**
 * A chunk of the game's voxel level (`LevelChunk`): a 16 x 16 x 16 grid of
 * blocks and, once the chunk was first rendered, its instance buffer of one
 * `short` per cell holding the atlas index of the cell's texture.
 *
 * The GL mesh is reduced to that buffer; `None` stands for the mesh that
 * `initMesh` has not created yet. Every call runs on the main thread.
 */
module LevelChunks {
  import opened Outcome
  import opened JavaInt
  import opened ChunkGrid
  import TextureAtlas

  /** A block of the level: whether it is solid and its current texture (`null` while unset). */
  datatype Block = Block(solid: bool, texture: Option<TextureAtlas.Resource>)

  datatype LevelChunk = LevelChunk(x: int, y: int, z: int, blocks: seq<Option<Block>>, mesh: Option<seq<int>>)

  datatype ChunkError =
    | OutOfBounds   // "Inner chunk tile coordinates out of bounds!"
    | NoMesh        // the mesh does not exist yet: `updateBlockAt` dereferences null

  predicate Wf(c: LevelChunk) {
    |c.blocks| == CELLS && (c.mesh.Some? ==> |c.mesh.value| == CELLS)
  }

  /** A chunk as constructed: every cell empty, no mesh yet. */
  function NewChunk(x: int, y: int, z: int): (c: LevelChunk)
    ensures Wf(c) && c.x == x && c.y == y && c.z == z
    ensures forall i :: 0 <= i < CELLS ==> c.blocks[i].None?
  {
    LevelChunk(x, y, z, seq(CELLS, _ => None), None)
  }

  /** The `short` `updateBlockAt` writes for a cell: 0 when empty, else the texture's atlas index. */
  function Slot(atlas: TextureAtlas.Atlas, cell: Option<Block>): (v: int)
    ensures -0x8000 <= v < 0x8000
  {
    match cell
    case None => 0
    case Some(b) => ToShort(TextureAtlas.TextureIndex(atlas, b.texture))
  }

  /** The instance buffer agrees with the blocks, cell by cell. */
  predicate MeshCurrent(c: LevelChunk, atlas: TextureAtlas.Atlas)
    requires Wf(c)
  {
    c.mesh.Some? ==> forall i :: 0 <= i < CELLS ==> c.mesh.value[i] == Slot(atlas, c.blocks[i])
  }

  function GetBlockAt(c: LevelChunk, x: int, y: int, z: int): (r: Result<Option<Block>, ChunkError>)
    requires Wf(c)
    ensures r.Err? <==> !InChunk(x, y, z)
    ensures r.Err? ==> r.error == OutOfBounds
    ensures r.Ok? ==> r.value == c.blocks[CellIndex(x, y, z)]
  {
    if !InChunk(x, y, z) then Err(OutOfBounds) else Ok(c.blocks[CellIndex(x, y, z)])
  }

  /**
   * `updateBlockAt`: rewrites the one slot of the cell from the cell's block.
   * Fails for a cell outside the chunk, and when there is no mesh yet.
   */
  function UpdateBlockAt(c: LevelChunk, atlas: TextureAtlas.Atlas, x: int, y: int, z: int): (r: Result<LevelChunk, ChunkError>)
    requires Wf(c)
    ensures !InChunk(x, y, z) ==> r == Err(OutOfBounds)
    ensures InChunk(x, y, z) && c.mesh.None? ==> r == Err(NoMesh)
    ensures r.Ok? ==> (Wf(r.value) && r.value.blocks == c.blocks && r.value.mesh.Some?
                       && r.value.(mesh := c.mesh) == c)
    ensures r.Ok? ==> var i := CellIndex(x, y, z);
      && r.value.mesh.value[i] == Slot(atlas, c.blocks[i])
      && (c.blocks[i].None? ==> r.value.mesh.value[i] == 0)
      && forall j :: 0 <= j < CELLS && j != i ==> r.value.mesh.value[j] == c.mesh.value[j]
  {
    if !InChunk(x, y, z) then Err(OutOfBounds)
    else if c.mesh.None? then Err(NoMesh)
    else
      var i := CellIndex(x, y, z);
      Ok(c.(mesh := Some(c.mesh.value[i := Slot(atlas, c.blocks[i])])))
  }

  /**
   * Stores `cell` at an in-chunk cell, then refreshes its slot. The store
   * happens first, so it stays when the refresh fails for want of a mesh:
   * the result is the chunk as it is afterwards, with the error if any.
   */
  function WriteCell(c: LevelChunk, atlas: TextureAtlas.Atlas, cell: Option<Block>, x: int, y: int, z: int): (r: (LevelChunk, Option<ChunkError>))
    requires Wf(c) && InChunk(x, y, z)
    ensures Wf(r.0) && r.0.blocks == c.blocks[CellIndex(x, y, z) := cell]
    ensures r.1 == (if c.mesh.None? then Some(NoMesh) else None)
    ensures r.1.Some? ==> r.0.mesh == c.mesh
  {
    var w := c.(blocks := c.blocks[CellIndex(x, y, z) := cell]);
    match UpdateBlockAt(w, atlas, x, y, z)
    case Ok(n) => (n, None)
    case Err(e) => (w, Some(e))
  }

  /**
   * `removeBlock`: empties the cell and refreshes its slot. Outside the
   * chunk nothing changes; without a mesh the cell is still emptied.
   */
  function RemoveBlock(c: LevelChunk, atlas: TextureAtlas.Atlas, x: int, y: int, z: int): (r: (LevelChunk, Option<ChunkError>))
    requires Wf(c)
    ensures r.1 == Some(OutOfBounds) <==> !InChunk(x, y, z)
    ensures r.1 == Some(NoMesh) <==> InChunk(x, y, z) && c.mesh.None?
    ensures !InChunk(x, y, z) ==> r.0 == c
    ensures Wf(r.0) && r.0.x == c.x && r.0.y == c.y && r.0.z == c.z && r.0.mesh.Some? == c.mesh.Some?
    ensures InChunk(x, y, z) ==> GetBlockAt(r.0, x, y, z) == Ok(None)
    ensures InChunk(x, y, z) ==>
      forall j :: 0 <= j < CELLS && j != CellIndex(x, y, z) ==> r.0.blocks[j] == c.blocks[j]
  {
    if !InChunk(x, y, z) then (c, Some(OutOfBounds))
    else WriteCell(c, atlas, None, x, y, z)
  }

  /**
   * `setBlock`: a `null` tile removes the block, any other is stored and its
   * slot refreshed. Outside the chunk nothing changes; without a mesh the
   * block is still stored.
   */
  function SetBlock(c: LevelChunk, atlas: TextureAtlas.Atlas, tile: Option<Block>, x: int, y: int, z: int): (r: (LevelChunk, Option<ChunkError>))
    requires Wf(c)
    ensures r.1 == Some(OutOfBounds) <==> !InChunk(x, y, z)
    ensures r.1 == Some(NoMesh) <==> InChunk(x, y, z) && c.mesh.None?
    ensures !InChunk(x, y, z) ==> r.0 == c
    ensures Wf(r.0) && r.0.x == c.x && r.0.y == c.y && r.0.z == c.z && r.0.mesh.Some? == c.mesh.Some?
    ensures InChunk(x, y, z) ==> GetBlockAt(r.0, x, y, z) == Ok(tile)
    ensures InChunk(x, y, z) ==>
      forall j :: 0 <= j < CELLS && j != CellIndex(x, y, z) ==> r.0.blocks[j] == c.blocks[j]
  {
    if !InChunk(x, y, z) then (c, Some(OutOfBounds))
    else if tile.None? then RemoveBlock(c, atlas, x, y, z)
    else WriteCell(c, atlas, tile, x, y, z)
  }

  /** `setBlock(null, ...)` is exactly `removeBlock`. */
  lemma SetNullIsRemove(c: LevelChunk, atlas: TextureAtlas.Atlas, x: int, y: int, z: int)
    requires Wf(c)
    ensures SetBlock(c, atlas, None, x, y, z) == RemoveBlock(c, atlas, x, y, z)
  {
  }

  /**
   * On a chunk that was never rendered, setting a block still stores it
   * before the refresh fails.
   */
  lemma SetBlockWithoutMeshStores(c: LevelChunk, atlas: TextureAtlas.Atlas, tile: Option<Block>, x: int, y: int, z: int)
    requires Wf(c) && c.mesh.None? && InChunk(x, y, z)
    ensures SetBlock(c, atlas, tile, x, y, z) == (c.(blocks := c.blocks[CellIndex(x, y, z) := tile]), Some(NoMesh))
  {
  }

  /** Setting and removing blocks keeps an up-to-date instance buffer up to date. */
  lemma {:induction false} SetBlockKeepsMeshCurrent(c: LevelChunk, atlas: TextureAtlas.Atlas, tile: Option<Block>, x: int, y: int, z: int)
    requires Wf(c) && MeshCurrent(c, atlas)
    ensures MeshCurrent(SetBlock(c, atlas, tile, x, y, z).0, atlas)
  {
    var r := SetBlock(c, atlas, tile, x, y, z).0;
    if InChunk(x, y, z) && c.mesh.Some? {
      var i := CellIndex(x, y, z);
      forall j | 0 <= j < CELLS
        ensures r.mesh.value[j] == Slot(atlas, r.blocks[j])
      {
        if j != i {
          assert r.blocks[j] == c.blocks[j];
        }
      }
    }
  }

  /** `initMesh`: a buffer whose every slot is the one `updateBlockAt` writes for its cell. */
  function InitMesh(c: LevelChunk, atlas: TextureAtlas.Atlas): (r: LevelChunk)
    requires Wf(c)
    ensures Wf(r) && r.blocks == c.blocks && r.mesh.Some? && MeshCurrent(r, atlas)
  {
    c.(mesh := Some(seq(CELLS, i requires 0 <= i < CELLS => Slot(atlas, c.blocks[i]))))
  }

  /**
   * What `render` does to the chunk: a chunk outside the camera's view is
   * skipped; otherwise the mesh is created on first use and kept after that.
   */
  function Render(c: LevelChunk, atlas: TextureAtlas.Atlas, inView: bool): (r: LevelChunk)
    requires Wf(c)
    ensures Wf(r) && r.blocks == c.blocks
    ensures !inView ==> r == c
    ensures inView ==> r.mesh.Some?
    ensures c.mesh.Some? ==> r == c
    ensures c.mesh.None? && inView ==> MeshCurrent(r, atlas)
  {
    if !inView || c.mesh.Some? then c else InitMesh(c, atlas)
  }

  /** The blocks of the non-empty cells of `cells`, in order. */
  function Present(cells: seq<Option<Block>>): (r: seq<Block>)
    ensures |r| <= |cells|
    ensures forall b :: b in r <==> Some(b) in cells
  {
    if |cells| == 0 then []
    else
      var init := cells[..|cells| - 1];
      assert cells == init + [cells[|cells| - 1]];
      Present(init) + (match cells[|cells| - 1] case Some(b) => [b] case None => [])
  }

  /**
   * `forEachBlock`: visits the cells in x, then y, then z order and hands
   * on exactly the non-empty ones; returns the blocks in the order visited.
   */
  method ForEachBlock(c: LevelChunk) returns (visited: seq<Block>)
    requires Wf(c)
    ensures visited == Present(c.blocks)
    ensures forall b :: b in visited <==> Some(b) in c.blocks
  {
    visited := [];
    var x := 0;
    while x < CHUNK_SIZE
      invariant 0 <= x <= CHUNK_SIZE
      invariant visited == Present(c.blocks[..x * 256])
    {
      var y := 0;
      while y < CHUNK_SIZE
        invariant 0 <= y <= CHUNK_SIZE
        invariant visited == Present(c.blocks[..x * 256 + y * 16])
      {
        visited := VisitRow(c, x, y, visited);
        y := y + 1;
      }
      x := x + 1;
    }
    assert c.blocks[..CELLS] == c.blocks;
  }

  /** The innermost loop of `forEachBlock`: the sixteen cells of one (x, y) row, in z order. */
  method VisitRow(c: LevelChunk, x: int, y: int, before: seq<Block>) returns (visited: seq<Block>)
    requires Wf(c) && 0 <= x < CHUNK_SIZE && 0 <= y < CHUNK_SIZE
    requires before == Present(c.blocks[..x * 256 + y * 16])
    ensures visited == Present(c.blocks[..x * 256 + y * 16 + 16])
  {
    visited := before;
    var z := 0;
    while z < CHUNK_SIZE
      invariant 0 <= z <= CHUNK_SIZE
      invariant visited == Present(c.blocks[..x * 256 + y * 16 + z])
    {
      var i := CellIndex(x, y, z);
      assert i == x * 256 + y * 16 + z;
      PresentStep(c.blocks, i);
      if c.blocks[i].Some? {
        visited := visited + [c.blocks[i].value];
      }
      z := z + 1;
    }
  }

  lemma PresentStep(cells: seq<Option<Block>>, i: int)
    requires 0 <= i < |cells|
    ensures Present(cells[..i + 1]) ==
      Present(cells[..i]) + (match cells[i] case Some(b) => [b] case None => [])
  {
    assert cells[..i + 1][..i] == cells[..i];
  }
}

=== FILE: outcome.dfy ===
/** Option and Result values used in place of Java's null and exceptions. */
module Outcome {

  /** A value that may be absent; `None` stands for Java's `null`. */
  datatype Option<+T> = None | Some(value: T)

  /** The outcome of an operation that may throw: `Err` carries what was thrown. */
  datatype Result<+T, +E> = Ok(value: T) | Err(error: E)
}

=== FILE: texture_atlas.dfy ===
/**
 * The bookkeeping of the engine's `TextureAtlas` without OpenGL: pages,
 * entries, the resource-to-index map and the three 32-bit words per entry
 * that describe it to the shader.
 *
 * How a page packs a texture (`AtlasPage.add`) is not part of this model; it
 * is the parameter `pack`, which answers where a resource goes on a page or
 * that it does not fit.
 */
module TextureAtlas {
  import opened Outcome

  /** A texture resource, identified by its path. */
  type Resource = string

  /** Where a texture lies on its page: position and size in texels. */
  datatype Node = Node(x: int, y: int, width: int, height: int)

  /** An atlas page: the resources packed into it so far, in order. */
  datatype Page = Page(placed: seq<(Resource, Node)>)

  /** `AtlasPage.add`: the place for the resource on the page, `None` if it does not fit. */
  type Packer = (Page, Resource) -> Option<Node>

  datatype Entry = Entry(page: nat, node: Node)

  datatype Atlas = Atlas(pages: seq<Page>, entries: seq<Entry>, indices: map<Resource, nat>, words: seq<nat>)

  datatype AtlasError =
    | Full      // the entry limit is reached
    | NoSpace   // no page accepts the resource and no page can be added
    | TooBig    // not even a blank page accepts the resource

  const DEFAULT_ATLAS_SIZE: int := 1024
  const MAX_TEXTURES: nat := 48
  const MAX_ENTRIES: nat := 65536

  /** What every atlas keeps: the limits, and every index and page reference is valid. */
  predicate Wf(a: Atlas) {
    && |a.pages| <= MAX_TEXTURES
    && |a.entries| <= MAX_ENTRIES
    && |a.words| == 3 * |a.entries|
    && (forall r :: r in a.indices ==> a.indices[r] < |a.entries|)
    && (forall i :: 0 <= i < |a.entries| ==> a.entries[i].page < |a.pages|)
  }

  function Empty(): (a: Atlas)
    ensures Wf(a) && a.entries == [] && a.pages == []
  {
    Atlas([], [], map[], [])
  }

  // The words of an entry, each kept as the unsigned value of its 32 bits.

  const HALF: nat := 0x1_0000

  /** The low 16 bits of a Java `int`, `v & 0xFFFF`. */
  function Low16(v: int): (r: nat)
    ensures r < HALF
  {
    v % HALF
  }

  /** `((hi & 0xFFFF) << 16) | (lo & 0xFFFF)`: `hi` in the upper half, `lo` in the lower. */
  function PackPair(hi: int, lo: int): (w: nat)
    ensures w < HALF * HALF
    ensures w / HALF == Low16(hi) && w % HALF == Low16(lo)
  {
    Low16(hi) * HALF + Low16(lo)
  }

  /** Halves of 16-bit values come back unchanged. */
  lemma PackPairRoundTrip(hi: int, lo: int)
    requires 0 <= hi < HALF && 0 <= lo < HALF
    ensures PackPair(hi, lo) / HALF == hi && PackPair(hi, lo) % HALF == lo
  {
  }

  /**
   * The position word puts x in the upper half, so an x of 1 with y of 0 has
   * an empty lower half: the reverse of the order the class documentation gives.
   */
  lemma PositionWordOrder()
    ensures PackPair(1, 0) % HALF == 0 && PackPair(1, 0) / HALF == 1
  {
  }

  /**
   * The page word as written: `atlasPage & 0xFFFF << 16` parses as
   * `atlasPage & 0xFFFF0000`, which keeps only the upper half.
   */
  function PageWordAsWritten(page: int): (w: nat)
    ensures w % HALF == 0
  {
    var bits := page % (HALF * HALF);
    bits - bits % HALF
  }

  /** Every page below 65536 gets the word 0, so page 1 reads as page 0. */
  lemma PageWordAsWrittenLosesPage(page: int)
    requires 0 <= page < HALF
    ensures PageWordAsWritten(page) == 0
    ensures PageWordAsWritten(1) == PageWordAsWritten(0)
  {
  }

  /** The page word as documented: the page index in the lower 16 bits, the upper half clear. */
  function PageWord(page: int): (w: nat)
    ensures w < HALF
    ensures 0 <= page < HALF ==> w == page
  {
    Low16(page)
  }

  /**
   * The three words `addEntry` appends for an entry, as written: position,
   * size, and the page word that keeps only the page's upper half.
   */
  function EntryWords(e: Entry): (w: seq<nat>)
    ensures |w| == 3
    ensures w[0] / HALF == Low16(e.node.x) && w[0] % HALF == Low16(e.node.y)
    ensures w[1] / HALF == Low16(e.node.width) && w[1] % HALF == Low16(e.node.height)
    ensures e.page < HALF ==> w[2] == 0
  {
    [PackPair(e.node.x, e.node.y), PackPair(e.node.width, e.node.height), PageWordAsWritten(e.page)]
  }

  /** The three words as documented, with the page index in the third word's lower half. */
  function IntendedEntryWords(e: Entry): (w: seq<nat>)
    ensures |w| == 3
    ensures e.page < HALF ==> w[2] == e.page
  {
    [PackPair(e.node.x, e.node.y), PackPair(e.node.width, e.node.height), PageWord(e.page)]
  }

  /**
   * The written and the documented words agree on position and size; on the
   * page they agree only for page 0, so every entry reads as lying on page 0.
   */
  lemma EntryWordsLosePage(e: Entry)
    requires e.page < HALF
    ensures EntryWords(e)[..2] == IntendedEntryWords(e)[..2]
    ensures EntryWords(e)[2] == IntendedEntryWords(e)[2] <==> e.page == 0
  {
  }

  // Adding and looking up.

  /** The lowest page index from `i` on whose page accepts the resource, with its place. */
  function FirstFit(pages: seq<Page>, pack: Packer, res: Resource, i: nat): (r: Option<(nat, Node)>)
    requires i <= |pages|
    ensures r.Some? ==> i <= r.value.0 < |pages| && pack(pages[r.value.0], res) == Some(r.value.1)
    ensures r.Some? ==> forall j :: i <= j < r.value.0 ==> pack(pages[j], res).None?
    ensures r.None? ==> forall j :: i <= j < |pages| ==> pack(pages[j], res).None?
    decreases |pages| - i
  {
    if i == |pages| then None
    else match pack(pages[i], res)
      case Some(node) => Some((i, node))
      case None => FirstFit(pages, pack, res, i + 1)
  }

  function Place(p: Page, res: Resource, node: Node): Page {
    Page(p.placed + [(res, node)])
  }

  /** `addEntry`: the new entry's index is the entry count, and the resource now maps to it. */
  function AddEntry(a: Atlas, res: Resource, page: nat, node: Node): (r: (Atlas, Result<nat, AtlasError>))
    requires Wf(a) && page < |a.pages| && |a.entries| < MAX_ENTRIES
    ensures Wf(r.0) && r.1 == Ok(|a.entries|)
    ensures r.0.pages == a.pages
    ensures r.0.entries == a.entries + [Entry(page, node)]
    ensures r.0.indices == a.indices[res := |a.entries|]
    ensures r.0.words == a.words + EntryWords(Entry(page, node))
  {
    var e := Entry(page, node);
    (Atlas(a.pages, a.entries + [e], a.indices[res := |a.entries|], a.words + EntryWords(e)), Ok(|a.entries|))
  }

  /**
   * `add`: refused once the entry limit is reached; otherwise the resource
   * goes to the lowest page that takes it, or to a new page if there is room
   * for one. A resource that does not fit a blank page is refused after that
   * page was added.
   */
  function Add(a: Atlas, pack: Packer, res: Resource): (r: (Atlas, Result<nat, AtlasError>))
    requires Wf(a)
    ensures Wf(r.0)
    ensures r.1 == Err(Full) <==> |a.entries| >= MAX_ENTRIES
    ensures r.1 == Err(NoSpace) <==>
      && |a.entries| < MAX_ENTRIES && |a.pages| >= MAX_TEXTURES
      && forall j :: 0 <= j < |a.pages| ==> pack(a.pages[j], res).None?
    ensures r.1 == Err(TooBig) <==>
      && |a.entries| < MAX_ENTRIES && |a.pages| < MAX_TEXTURES
      && (forall j :: 0 <= j < |a.pages| ==> pack(a.pages[j], res).None?)
      && pack(Page([]), res).None?
    ensures r.1 == Err(TooBig) ==> r.0.pages == a.pages + [Page([])]
    ensures r.1.Err? ==> r.0.entries == a.entries && r.0.indices == a.indices
    ensures r.1.Ok? ==> r.1.value == |a.entries| && |r.0.entries| == |a.entries| + 1
    ensures r.1.Ok? ==> r.0.indices == a.indices[res := r.1.value]
    ensures r.1.Ok? ==> r.0.entries[..|a.entries|] == a.entries
    ensures r.1.Ok? ==> var p := r.0.entries[r.1.value].page;
      (forall j :: 0 <= j < p && j < |a.pages| ==> pack(a.pages[j], res).None?)
      && (p < |a.pages| ==> pack(a.pages[p], res).Some?)
    ensures r.1.Ok? ==> var e := r.0.entries[r.1.value];
      && e.page <= |a.pages| && |r.0.pages| == (if e.page < |a.pages| then |a.pages| else |a.pages| + 1)
      && pack(if e.page < |a.pages| then a.pages[e.page] else Page([]), res) == Some(e.node)
      && r.0.pages[e.page].placed == (if e.page < |a.pages| then a.pages[e.page].placed else []) + [(res, e.node)]
      && (forall j :: 0 <= j < |a.pages| && j != e.page ==> r.0.pages[j] == a.pages[j])
      && r.0.words == a.words + EntryWords(e)
    ensures r.1.Err? ==> r.0.words == a.words
    ensures r.1 == Err(Full) || r.1 == Err(NoSpace) ==> r.0 == a
    ensures |r.0.pages| > |a.pages| ==>
      |r.0.pages| == |a.pages| + 1 && |a.pages| < MAX_TEXTURES
      && forall j :: 0 <= j < |a.pages| ==> pack(a.pages[j], res).None?
    ensures |r.0.pages| >= |a.pages|
  {
    if |a.entries| >= MAX_ENTRIES then (a, Err(Full))
    else match FirstFit(a.pages, pack, res, 0)
      case Some((i, node)) =>
        AddEntry(a.(pages := a.pages[i := Place(a.pages[i], res, node)]), res, i, node)
      case None =>
        if |a.pages| >= MAX_TEXTURES then (a, Err(NoSpace))
        else
          var blank := Page([]);
          var a1 := a.(pages := a.pages + [blank]);
          match pack(blank, res)
          case Some(node) =>
            AddEntry(a1.(pages := a1.pages[|a.pages| := Place(blank, res, node)]), res, |a.pages|, node)
          case None => (a1, Err(TooBig))
  }

  /** `getIndex`: the resource's entry index, -1 when it was never added. */
  function GetIndex(a: Atlas, res: Resource): (i: int)
    ensures res !in a.indices <==> i == -1
    ensures res in a.indices ==> i == a.indices[res]
  {
    if res in a.indices then a.indices[res] else -1
  }

  /** The index of a texture that may be `null`; `null` is never a key, so it reads -1. */
  function TextureIndex(a: Atlas, t: Option<Resource>): (i: int)
    ensures t.None? ==> i == -1
    ensures t.Some? ==> i == GetIndex(a, t.value)
  {
    match t
    case None => -1
    case Some(r) => GetIndex(a, r)
  }

  /** `get`: the resource's entry, `None` for an unknown resource. */
  function Get(a: Atlas, res: Resource): (e: Option<Entry>)
    requires Wf(a)
    ensures e.Some? <==> res in a.indices
    ensures e.Some? ==> e.value == a.entries[a.indices[res]]
  {
    var i := GetIndex(a, res);
    if i == -1 then None
    else if i < |a.entries| then Some(a.entries[i]) else None
  }

  /** After a successful add, both lookups find the new entry. */
  lemma AddThenGet(a: Atlas, pack: Packer, res: Resource)
    requires Wf(a)
    ensures var (a', out) := Add(a, pack, res);
      out.Ok? ==> GetIndex(a', res) == out.value && Get(a', res) == Some(a'.entries[out.value])
  {
  }

  /**
   * Adding a resource again makes a new entry and moves its index there;
   * the old entry stays but is no longer reachable through the resource.
   */
  lemma ReAddMakesFreshEntry(a: Atlas, pack: Packer, res: Resource)
    requires Wf(a) && res in a.indices
    ensures var (a', out) := Add(a, pack, res);
      out.Ok? ==>
        GetIndex(a', res) != GetIndex(a, res)
        && a'.entries[GetIndex(a, res)] == a.entries[GetIndex(a, res)]
  {
  }

  /** Adding one resource leaves every other resource's index alone. */
  lemma AddKeepsOtherIndices(a: Atlas, pack: Packer, res: Resource, other: Resource)
    requires Wf(a) && other != res
    ensures GetIndex(Add(a, pack, res).0, other) == GetIndex(a, other)
  {
  }
}
